=== FILE: README.md ===
# EmailCalendarClient core in Dafny

A model of the sequential logic of the EmailCalendarClient WPF mail client. The client
sends mail through Microsoft Graph and keeps a small SQLite contact ledger. The model has
five parts.

- **Throttling retry policy** (`Throttling`). `ExecuteWithThrottlingRetries`,
  `IsThrottlingStatus`, `GetRetryDelay` and the Retry-After parsers wrap every remote send.
  - The remote operation is an oracle from invocation number to outcome.
  - The clock and the cancellation token are oracles as well.
  - A run returns its result, the number of invocations and the waits it awaited.
- **CSV batch send** (`CsvSend`, with `Headers` and `HtmlBody`). The loop of
  `SendEmailsFromCsv` is a fold over the reads of the CSV reader. It covers:
  - header detection and column remapping;
  - per-row validation;
  - one send per valid row, through a transport oracle;
  - at most 20 sends per run, and a wait after each send below the limit;
  - failure counting and at most five quoted failure lines;
  - the summary text;
  - a ledger stamp per successful send.

  The contact import (`ContactImport`) has the same shape: `ReadContactsFromCsv` with its
  own header mapping, then `UpsertContacts`.
- **Contact ledger** (`Ledger`). The SQLite `Contacts` table is a map keyed by the trimmed
  email. Keys are compared exactly: the `UNIQUE` constraint uses the default collation.
  - `UpsertContacts` is one all-or-nothing transaction.
  - `UpdateLastEmailSent` updates the row, or inserts one.
  - `GetContacts` lists the rows in company order, ignoring case.
- **Follow-up derivation** (`Contacts`). `ContactDisplay`'s status text and due flag are
  functions of the last-sent instant and an explicit `now`, in 100 ns ticks.
  - The threshold is seven days.
  - `Math.Round` rounds half to even.
- **Message and attachment construction** (`Mail`, `Base64`). `EmailService` builds messages
  that all refer to one shared attachment collection, which is the service's state.
  - Attachments are added and cleared.
  - Extensions map to MIME types, ignoring case.
  - `EncodeTobase64Bytes` is a round trip through base64.

`Text` stands in for the .NET string library:
- `char.IsWhiteSpace`, `Trim`, `TrimStart` and `TrimEnd`;
- ordinal ignore-case comparison, folding ASCII letters only;
- `Replace`;
- decimal formatting of counts.

`Wrappers` holds `Option` and `Result`. Exceptions are `Result` failures, or a failure count
where the source catches them.

## Model

| member | source | states |
|---|---|---|
| Throttling.TryParseRetryAfterHeaderValue | EmailClient/MailSender/AadGraphApiDelegatedClient.cs:213-241 | a blank value gives no delay; otherwise a positive whole number of seconds gives that many seconds, else a date after now gives the time until it; there is no delay iff the value is blank or neither case applies |
| Throttling.FirstUsable | EmailClient/MailSender/AadGraphApiDelegatedClient.cs:202-208 | a delay exists iff some value in the list is usable, and it is the delay of the first usable value |
| Throttling.TryParseRetryAfterHeaderValues | EmailClient/MailSender/AadGraphApiDelegatedClient.cs:193-211 | a missing header gives no delay; a present header gives `FirstUsable` of its values, the delay of its first usable value; a delay found is positive |
| Throttling.IsThrottlingStatus | EmailClient/MailSender/AadGraphApiDelegatedClient.cs:148-152 | exactly the statuses 429 and 503 are throttling; `NonThrottlingFailurePropagates` states that every other failure propagates |
| Throttling.Backoff | EmailClient/MailSender/AadGraphApiDelegatedClient.cs:161-162 | the exponential backoff lies between 3 s and 30 s |
| Throttling.GetRetryDelay | EmailClient/MailSender/AadGraphApiDelegatedClient.cs:154-163 | a usable Retry-After delay is the delay returned; without one the delay is the backoff of the attempt; either way it is positive |
| Throttling.Delays | EmailClient/MailSender/AadGraphApiDelegatedClient.cs:129-140 | one delay per invocation looked at |
| Throttling.DelaysAt | EmailClient/MailSender/AadGraphApiDelegatedClient.cs:129-140 | the i-th delay is the retry delay computed after invocation i |
| Throttling.RetryLoop | EmailClient/MailSender/AadGraphApiDelegatedClient.cs:127-145 | the loop from iteration `attempt` on, whose delay checks precede the token check, makes no fewer invocations than it has already made; the `RetryLoop` lemmas below state the rest |
| Throttling.RetryLoopShape | EmailClient/MailSender/AadGraphApiDelegatedClient.cs:127-145 | every invocation but the last was throttled; a run that ended with an invocation's outcome made at most three guarded invocations, plus the forced one when present |
| Throttling.RetryLoopStopsInWait | EmailClient/MailSender/AadGraphApiDelegatedClient.cs:129-132 | a run that ended in a wait, cancelled or refused by `Task.Delay`, stopped after a throttled invocation and before the next, below three invocations; a cancelled run's token fired in that wait, and the delay it waited on was within the `Task.Delay` limit |
| Throttling.RetryLoopUncancelled | EmailClient/MailSender/AadGraphApiDelegatedClient.cs:129-132 | no wait before an invocation the run made was cancelled |
| Throttling.RetryLoopWithinLimit | EmailClient/MailSender/AadGraphApiDelegatedClient.cs:129-132 | no wait before an invocation the run made was longer than `Task.Delay` accepts |
| Throttling.RetryLoopEnds | EmailClient/MailSender/AadGraphApiDelegatedClient.cs:127-145 | a run that ended with an invocation returns that invocation's outcome, which was not throttled unless the attempts ran out; a run refused by `Task.Delay` reports the too-long delay computed after its last invocation |
| Throttling.RetryLoopWaits | EmailClient/MailSender/AadGraphApiDelegatedClient.cs:129-145 | the waits are the delays after each retried throttled invocation, in order, so the delay after the third is never awaited, even before the forced fourth call |
| Throttling.ExecuteWithThrottlingRetries | EmailClient/MailSender/AadGraphApiDelegatedClient.cs:122-146 | one to four invocations, every one but the last throttled. No wait before a made invocation was cancelled or too long. The result is the last invocation's outcome unless the run ended in a wait; with at most three invocations that invocation was not throttled. A delay too long for `Task.Delay` ends the run with no further call, and the result names that delay; a cancelled run's delay was within the limit, since the range is checked before the token. The waits are the delays after each retried invocation, all positive |
| Throttling.ExecuteWithBoundedRetries | EmailClient/MailSender/AadGraphApiDelegatedClient.cs:122-146 | the same policy without the forced fourth invocation: at most three invocations, every one but the last throttled. With fewer than three the last one was not throttled, unless the run ended in a wait. No wait before a made invocation was cancelled or too long; a cancelled run's delay was within the limit, and a too-long one is reported with its delay. Every awaited wait is the delay of a retried throttled invocation |
| Throttling.FirstCallSucceeds | EmailClient/MailSender/AadGraphApiDelegatedClient.cs:125-137 | a first invocation that completes ends the run after one call with no wait |
| Throttling.NonThrottlingFailurePropagates | EmailClient/MailSender/AadGraphApiDelegatedClient.cs:134-152 | any failure other than a 429/503 service exception propagates after one call with no wait |
| Throttling.PersistentThrottlingCallsFourTimes | EmailClient/MailSender/AadGraphApiDelegatedClient.cs:127-145 | under persistent throttling there are exactly four calls; the fourth call's outcome is the result, and only two waits come before it |
| Throttling.BackoffWaitsWithoutRetryAfter | EmailClient/MailSender/AadGraphApiDelegatedClient.cs:154-163 | without Retry-After headers the waits are 3 s and then 6 s |
| Throttling.BackoffSchedule | EmailClient/MailSender/AadGraphApiDelegatedClient.cs:161-162 | the backoff is 3, 6, 12 s for attempts 0, 1, 2 and 30 s from attempt 4 on |
| Throttling.DeltaRetryAfterIgnoresAttempt | EmailClient/MailSender/AadGraphApiDelegatedClient.cs:222-227 | a positive delta-seconds first value is used verbatim, whatever the attempt |
| Throttling.CancelledWaitStopsCalls | EmailClient/MailSender/AadGraphApiDelegatedClient.cs:129-132 | cancellation during the first wait ends the run with no further call |
| Throttling.OverlongRetryAfterStopsCalls | EmailClient/MailSender/AadGraphApiDelegatedClient.cs:129-132 | a first delay too long for `Task.Delay` ends the run after one call, with no wait, whether or not the token fires |
| Throttling.OverlongRetryAfterExample | EmailClient/MailSender/AadGraphApiDelegatedClient.cs:129-132 | a 429 asking for 5,000,000 s ends the run after one call; no backoff is ever too long |
| Throttling.ForcedFinalCallExceedsMaxAttempts | EmailClient/MailSender/AadGraphApiDelegatedClient.cs:143-145 | an operation throttled three times and then completing succeeds as written on a fourth call, with no wait before it; the bounded policy fails after three |
| Base64.Encode | EmailClient/MailSender/EmailService.cs:120 | the encoding is four characters per started group of three bytes |
| Base64.DecodeEncode | EmailClient/MailSender/EmailService.cs:118-123 | decoding the base64 text gives back the bytes |
| Mail.NewEmailService | EmailClient/MailSender/EmailService.cs:21 | a new service starts with no attachments |
| Mail.CreateStandardEmail | EmailClient/MailSender/EmailService.cs:23-47 | subject is the header, the body is text with the content unchanged, there is exactly one To recipient, and the message refers to the shared attachments |
| Mail.CreateHtmlEmail | EmailClient/MailSender/EmailService.cs:49-73 | the same with an HTML body |
| Mail.HtmlEmailDiffersOnlyInBodyType | EmailClient/MailSender/EmailService.cs:23-73 | the two constructors differ only in the body's content type |
| Mail.GetFileName | EmailClient/MailSender/EmailService.cs:89 | the attachment name is the longest suffix of the path without separators: it is the whole path or follows a separator |
| Mail.GetExtension | EmailClient/MailSender/EmailService.cs:127 | the extension is empty or a dot-led suffix of the path containing no other dot or separator |
| Mail.NoExtensionIff | EmailClient/MailSender/EmailService.cs:127 | a path has no extension iff its file name holds no '.' or ends with one |
| Mail.LastDotInFileName | EmailClient/MailSender/EmailService.cs:127 | the last '.' or separator of the path is a '.' iff the file name holds a '.' |
| Mail.GetMimeType | EmailClient/MailSender/EmailService.cs:125-135 | a known extension, compared ignoring case, gives its image type; anything else gives application/octet-stream |
| Mail.MimeTypeIgnoresCase | EmailClient/MailSender/EmailService.cs:10 | extensions equal up to case get the same type |
| Mail.MimeTypeExamples | EmailClient/MailSender/EmailService.cs:10-19 | `Logo.PNG` is image/png and `notes.txt` is application/octet-stream |
| Mail.EncodeTobase64Bytes | EmailClient/MailSender/EmailService.cs:118-123 | the bytes come back unchanged |
| Mail.AddAttachment | EmailClient/MailSender/EmailService.cs:75-106 | null data and blank paths are rejected with the named argument; otherwise exactly one attachment is appended, with the file name, the data, the explicit or looked-up type, and the content-id rule (inline: given or fresh and non-empty; not inline: only a given non-empty one) |
| Mail.AddInlineAttachment | EmailClient/MailSender/EmailService.cs:108-111 | an added inline attachment is inline with a non-empty content id; it fails only for null data or a blank path |
| Mail.ClearAttachments | EmailClient/MailSender/EmailService.cs:113-116 | the collection is empty afterwards |
| Mail.AddThenClear | EmailClient/MailSender/EmailService.cs:75-116 | a valid add grows the collection by one, keeps the earlier items, and clearing empties it |
| HtmlBody.HtmlEncode | EmailClient/MainWindow.xaml.cs:613 | the encoding has no angle brackets and keeps every line-break character |
| HtmlBody.HtmlEncodeRoundTrip | EmailClient/MainWindow.xaml.cs:613 | decoding the encoding gives back the text |
| HtmlBody.LikelyHtmlIffBrackets | EmailClient/MainWindow.xaml.cs:622-630 | a body is taken for HTML iff it contains both '<' and '>' |
| HtmlBody.EscapeBody | EmailClient/MainWindow.xaml.cs:611-615 | the escaped body is the reference escaping `EscapeLines`: each CRLF and each other LF becomes one break, every other character is HTML-encoded |
| HtmlBody.EscapeByReplace | EmailClient/MainWindow.xaml.cs:611-615 | the three passes (encode, CRLF to break, LF to break) compute the character-by-character escaping |
| HtmlBody.EscapeLinesRoundTrip | EmailClient/MainWindow.xaml.cs:611-615 | turning the breaks back into LF and decoding gives the text with its CRLFs as LFs |
| HtmlBody.EscapeBodyRoundTrip | EmailClient/MainWindow.xaml.cs:611-615 | the same round trip for the escaped body: no text is lost, only CRLF is folded to LF |
| HtmlBody.BlockLevelSurvivesExtension | EmailClient/MainWindow.xaml.cs:648-669 | block-level HTML stays block-level whatever text is put before or after it |
| HtmlBody.NoAngleBracketNotBlockLevel | EmailClient/MainWindow.xaml.cs:648-669 | every block-level tag starts with '<', so text without '<' is never block-level |
| HtmlBody.NormalizeSignatureContent | EmailClient/MainWindow.xaml.cs:632-646 | an empty signature stays empty; block-level HTML is kept verbatim; any other signature is `BreakLines` of it: each CRLF, lone CR and lone LF becomes one break and nothing else changes |
| HtmlBody.BreakLinesByReplace | EmailClient/MainWindow.xaml.cs:643-645 | the three replacements (CRLF to LF, CR to LF, LF to break) compute `BreakLines` |
| HtmlBody.BreakLinesJoin | EmailClient/MainWindow.xaml.cs:643-645 | lines without CR or LF, joined by any mix of CRLF, CR and LF (no CR directly before an LF-joined line), become the lines joined by breaks |
| HtmlBody.NormalizeJoinedLines | EmailClient/MainWindow.xaml.cs:632-646 | a plain multi-line signature normalises to its lines joined by "<br/>", whatever line endings it used |
| HtmlBody.BuildHtmlBody | EmailClient/MainWindow.xaml.cs:607-620 | the body part, escaped unless it looks like HTML, then two breaks, then the normalised signature; what the two parts mean is stated by `BuildHtmlBodyReadsBack` |
| HtmlBody.BuildHtmlBodyReadsBack | EmailClient/MainWindow.xaml.cs:607-620 | the built body splits at the two breaks into the body part and the signature part; an HTML body is verbatim, a plain one has no LF and decodes back to the body with CRLF as LF; a block-level signature is verbatim, another one has no CR or LF and is the signature with its line endings as breaks |
| HtmlBody.AppendInlineImage | EmailClient/MainWindow.xaml.cs:164-179 | the image tag ends the signature; a blank signature is kept before it; otherwise the text before the tag is the signature without trailing whitespace, followed by a new line when it already ends with a break (ignoring case), and by a break and a new line otherwise |
| Headers.MapColumns | EmailClient/MainWindow.xaml.cs:553-592 | each role's column is -1 or a cell matching it that no earlier role took; the first role gets the first matching cell |
| Headers.MapColumnsSecondRole | EmailClient/MainWindow.xaml.cs:575-579 | the second role gets the first matching cell the first role did not take |
| Headers.MapColumnsThirdRole | EmailClient/MainWindow.xaml.cs:581-584 | the third role gets the first matching cell the first two roles did not take |
| Headers.DetectHeader | EmailClient/MainWindow.xaml.cs:553-592 | a row is a header iff some cell matches the first role |
| Headers.TryMapHeader | EmailClient/MainWindow.xaml.cs:553-592 | a send CSV row is a header iff some cell equals recipient, email, emailaddress or to, ignoring case and without trimming |
| Headers.TryMapContactHeader | EmailClient/MainWindow.xaml.cs:437-471 | a contact CSV row is a header iff some cell equals email, emailaddress or contactemail, ignoring case |
| Headers.ShortRowReadsAsPadded | EmailClient/MainWindow.xaml.cs:548-551 | a cell inside the row reads as it is; a short row reads as if padded with empty cells; an unmapped column (-1) reads as empty |
| Headers.MatchesFolded | EmailClient/MainWindow.xaml.cs:594-605 | against lower-case candidates, matching is membership of the folded value |
| Headers.ContactHeaderExample | EmailClient/MainWindow.xaml.cs:437-471 | the header Email, Company, Contact maps email to 0, company to 1 and person to 2 |
| Headers.SendHeaderExample | EmailClient/MainWindow.xaml.cs:553-592 | the header Subject, TO, Body maps recipient to 1, subject to 0 and body to 2 |
| Contacts.NewContactRecord | EmailClient/Contacts/ContactRecord.cs:9-15 | a new record has empty company, person and email and no timestamp |
| Contacts.FromRecord | EmailClient/Contacts/ContactDisplay.cs:43-52 | the display copies the four fields unchanged |
| Contacts.RoundDays | EmailClient/Contacts/ContactDisplay.cs:33 | the result is the nearest whole day count, with halves going to the even count |
| Contacts.Classify | EmailClient/Contacts/ContactDisplay.cs:21-39 | never contacted iff there is no timestamp; recent iff less than seven days have passed (future instants included); an overdue count is the elapsed days rounded half to even, at least 7 |
| Contacts.RenderInjective | EmailClient/Contacts/ContactDisplay.cs:25-37 | the status text determines the follow-up state |
| Contacts.FollowUpStatus | EmailClient/Contacts/ContactDisplay.cs:21-39 | no timestamp reads "Never contacted"; under seven days reads "Recently contacted"; otherwise "Follow-up overdue (N days)" with N the rounded elapsed days |
| Contacts.FollowUpDue | EmailClient/Contacts/ContactDisplay.cs:41 | a follow-up is due iff the status is not "Recently contacted" |
| Contacts.LastEmailDisplay | EmailClient/Contacts/ContactDisplay.cs:17-19 | no timestamp reads "Never" |
| Contacts.FollowUpExamples | EmailClient/Contacts/ContactDisplay.cs:21-41 | six days ago is recent and not due; eight days ago is "Follow-up overdue (8 days)" and due |
| Ledger.NullIfBlank | EmailClient/Contacts/ContactRepository.cs:119-120 | a blank value is bound as NULL, any other unchanged |
| Ledger.Bind | EmailClient/Contacts/ContactRepository.cs:119-122 | the bound key is the trimmed email; blank company and person become NULL; the timestamp is passed on |
| Ledger.UpsertOne | EmailClient/Contacts/ContactRepository.cs:92-97 | a new key is inserted with company, person and timestamp; an existing key gets only company and person overwritten; other rows are untouched |
| Ledger.ApplyAllKeys | EmailClient/Contacts/ContactRepository.cs:115-125 | the batch adds exactly its keys and leaves other rows untouched |
| Ledger.ApplyAllLastBindingWins | EmailClient/Contacts/ContactRepository.cs:92-97 | company and person of a key come from its last binding in the batch |
| Ledger.ApplyAllKeepsTimestamp | EmailClient/Contacts/ContactRepository.cs:95-97 | a stored timestamp survives any batch |
| Ledger.ApplyAllFirstBindingTimestamp | EmailClient/Contacts/ContactRepository.cs:93-94 | a new key takes the timestamp of its first binding |
| Ledger.UpsertContacts | EmailClient/Contacts/ContactRepository.cs:79-129 | a null batch returns 0 and changes nothing; a blank email anywhere fails with nothing committed; otherwise the count is the batch length, duplicates included, and the keys grow by exactly the batch's trimmed emails, while every row whose key is not in the batch is unchanged |
| Ledger.UpdateLastEmailSent | EmailClient/Contacts/ContactRepository.cs:131-161 | a blank email changes nothing; otherwise the trimmed key carries the new timestamp; a known row keeps company and person; an unknown key is inserted with NULL ones; other rows are untouched |
| Ledger.LexLeTotal | EmailClient/Contacts/ContactRepository.cs:53 | the ordinal order is total |
| Ledger.LexLeTransitive | EmailClient/Contacts/ContactRepository.cs:53 | the ordinal order is transitive |
| Ledger.CompanyLeTotal | EmailClient/Contacts/ContactRepository.cs:53 | the case-insensitive company order (NULL first) is total |
| Ledger.CompanyLeTransitive | EmailClient/Contacts/ContactRepository.cs:53 | the company order is transitive |
| Ledger.InsertByCompany | EmailClient/Contacts/ContactRepository.cs:53 | inserting a key into a company-sorted list keeps it sorted and adds exactly that key |
| Ledger.ToRecord | EmailClient/Contacts/ContactRepository.cs:66-73 | a read row has NULL company or person as empty and keeps email and timestamp |
| Ledger.GetContacts | EmailClient/Contacts/ContactRepository.cs:45-77 | one record per stored email, each as its row reads, in ascending case-insensitive company order |
| Ledger.UpsertLastRecordWins | EmailClient/Contacts/ContactRepository.cs:92-122 | after a committed batch a key's company and person are those of its last record, blank as NULL |
| Ledger.UpsertKeepsTimestamp | EmailClient/Contacts/ContactRepository.cs:92-97 | an import never changes a stored last-sent timestamp |
| Ledger.UpsertFirstRecordTimestamp | EmailClient/Contacts/ContactRepository.cs:92-122 | a new key takes the timestamp of its first record |
| Ledger.UpsertPair | EmailClient/Contacts/ContactRepository.cs:115-128 | a two-record batch is two upserts in order and returns 2 |
| Ledger.SameKeyMerges | EmailClient/Contacts/ContactRepository.cs:121 | two records whose emails trim alike share one row, and the later one's company and person win |
| Ledger.DistinctKeysStayApart | EmailClient/Contacts/ContactRepository.cs:39 | emails differing after trimming, in letter case say, are two rows |
| Ledger.RecordSendThenRead | EmailClient/Contacts/ContactRepository.cs:131-161 | a recorded send is listed under the trimmed address with the same instant |
| CsvSend.Initial | EmailClient/MainWindow.xaml.cs:200-209 | a run starts with zero successes, failures, failed sends and waits, recipient, subject and body in columns 0, 1 and 2, the header not yet looked at, and no attempts, failure lines, messages or stamps |
| CsvSend.ErrorLineReadsBack | EmailClient/MainWindow.xaml.cs:514 | a failure line is "Line ", the decimal line number, ": " and the message, so the number parses back and the message is the rest |
| CsvSend.AppendCsvError | EmailClient/MainWindow.xaml.cs:510-516 | the quoted lines grow by exactly this line iff fewer than five were kept, and are otherwise unchanged |
| CsvSend.ComposeMessage | EmailClient/MainWindow.xaml.cs:287-290 | one recipient and the row's subject; the body is HTML iff the signature is not blank; it holds the raw body when the signature is blank and the composed HTML body otherwise |
| CsvSend.ProcessRow | EmailClient/MainWindow.xaml.cs:267-301 | a row too short for the three columns, or with a blank recipient, is one failure logged with its message and sends nothing; otherwise it makes exactly one attempt with the composed message for the trimmed recipient, with the outcome's effect as for `Attempt` |
| CsvSend.Attempt | EmailClient/MainWindow.xaml.cs:285-301 | a send is counted as attempted whatever its outcome and hands exactly this message to the transport. A success adds one to the successes and stamps the recipient with the clock at that attempt, logging nothing. A failure adds one to the failed sends and to the failures and logs the transport's message on this line, stamping nothing |
| CsvSend.Step | EmailClient/MainWindow.xaml.cs:223-301 | a malformed line is one failure logged with the parser's message; a blank line changes nothing; the first record with fields, when it is a header, is consumed with only its mapped columns overriding; any other record is processed as a data row |
| CsvSend.HeaderRowRemaps | EmailClient/MainWindow.xaml.cs:242-264 | a first row Subject, TO, Body sends and logs nothing and moves recipient, subject and body to columns 1, 0 and 2 |
| CsvSend.FailConsistent | EmailClient/MainWindow.xaml.cs:267-283 | a failed row keeps the run consistent |
| CsvSend.FailLogged | EmailClient/MainWindow.xaml.cs:510-516 | after a failure the quoted lines are still the first five logged, and the failure count is the number logged |
| CsvSend.ProcessRowConsistent | EmailClient/MainWindow.xaml.cs:267-301 | a row keeps the run consistent: failures equal logged lines; sends equal messages; successes equal ledger stamps; successes plus failed sends equal sends, and failed sends are among the failures. It only adds to these and leaves the columns alone |
| CsvSend.AttemptConsistent | EmailClient/MainWindow.xaml.cs:285-301 | a send keeps the run consistent, whatever its outcome: the stamps stay those of the accepted sends, and successes plus failed sends still equal sends |
| CsvSend.StepConsistent | EmailClient/MainWindow.xaml.cs:223-299 | a read keeps the run consistent and only appends messages, failure lines and stamps |
| CsvSend.StepAdvances | EmailClient/MainWindow.xaml.cs:223-299 | every read of the run makes at most one send and keeps the run consistent |
| CsvSend.Process | EmailClient/MainWindow.xaml.cs:221-317 | the limit is reported reached iff records were left unread; the loop stops early only at 20 sends; below 20 sends it reads every record |
| CsvSend.ProcessConsistent | EmailClient/MainWindow.xaml.cs:221-317 | the loop stays consistent and never exceeds 20 sends; it waits after every send except one that reaches the limit |
| CsvSend.SendableStep | EmailClient/MainWindow.xaml.cs:242-301 | a row with three cells, a non-blank recipient and no header match is sent under the default columns |
| CsvSend.AllSendableRun | EmailClient/MainWindow.xaml.cs:301-307 | with every remaining row sendable, the run sends min(rows, 20) and reports the limit iff more than 20 rows remain |
| CsvSend.TwentyFiveRowsStopAtTwenty | EmailClient/MainWindow.xaml.cs:184 | 25 sendable rows give 20 sends, 20 rows read and the limit reported |
| CsvSend.AppendLinesSnoc | EmailClient/MainWindow.xaml.cs:520-545 | no lines give the empty text, and each further line adds exactly itself and one line terminator |
| CsvSend.BuildCsvSummary | EmailClient/MainWindow.xaml.cs:518-546 | the summary text ends with the limit notice when the limit was reached; otherwise with "..." when more failed than were quoted, else with the last quoted failure, else with the failure count; each line ends with CRLF |
| CsvSend.SummaryLayout | EmailClient/MainWindow.xaml.cs:518-546 | both counts first; the sample block only when lines were quoted, with "..." iff more failed than were quoted; the limit notice last iff the limit was reached |
| CsvSend.SummaryStartsWithCount | EmailClient/MainWindow.xaml.cs:520-521 | the summary starts with the success count on its own line |
| CsvSend.RecordSendsKeys | EmailClient/MainWindow.xaml.cs:292 | the run's ledger writes keep every row and add every stamped recipient |
| CsvSend.RecordSendsLastWins | EmailClient/MainWindow.xaml.cs:292 | a recipient's timestamp in the ledger is that of its last successful send |
| CsvSend.RunConsistent | EmailClient/MainWindow.xaml.cs:221-317 | a whole run from consistent locals that have not sent yet stays consistent and within 20 sends |
| CsvSend.SendEmailsFromCsv | EmailClient/MainWindow.xaml.cs:187-331 | the run is the read loop over the file from the initial locals. It is consistent with at most 20 sends, and successes plus failed sends equal sends. The limit is reported iff records were left unread. The ledger is the stamps applied in order, the summary is built from the final counts and quoted lines, and the attachments are cleared |
| ContactImport.HeaderColumns | EmailClient/MainWindow.xaml.cs:397-401 | a contact header's first role is the email column, then company, then person |
| ContactImport.DefaultColumns | EmailClient/MainWindow.xaml.cs:404-410 | without a header there is an email column iff the first record has three cells, and then the columns are company 0, person 1, email 2 |
| ContactImport.RowContactSpec | EmailClient/MainWindow.xaml.cs:418-431 | a row yields a contact iff its email cell is not blank; the contact has the trimmed email, trimmed or empty company and person, and no timestamp |
| ContactImport.ReadFrom | EmailClient/MainWindow.xaml.cs:375-432 | from record `i` on, a successful read yields at most one contact per record; `ReadFromCollects`, `ReadFromFirstError` and `ReadFromWellFormed` state which contacts and which error |
| ContactImport.ReadContactsFromCsv | EmailClient/MainWindow.xaml.cs:359-435 | a successful import yields at most one contact per record; `ReadContactsCollects` states which |
| ContactImport.ReadFromCollects | EmailClient/MainWindow.xaml.cs:375-432 | once the columns are known, a file whose records are all blank or long enough imports exactly the contacts of its data rows with non-blank emails, in order |
| ContactImport.ReadFromFirstError | EmailClient/MainWindow.xaml.cs:384-416 | the first unreadable record fails the import: a malformed line with its line number, a data row too short for the email column, anywhere in the file, with the column message |
| ContactImport.ReadContactsCollects | EmailClient/MainWindow.xaml.cs:359-435 | after the leading blank lines the first record with fields is the header (then skipped, with its columns) or data (default columns); the import succeeds iff every later record is readable, and then yields the contacts of all data rows |
| ContactImport.FirstFieldsRecord | EmailClient/MainWindow.xaml.cs:378-411 | blank lines are skipped; the first record with fields is read past as a header with its columns, or read as data under the default columns |
| ContactImport.RowContactWellFormed | EmailClient/MainWindow.xaml.cs:418-428 | a row's contact has a trimmed, non-blank email and no timestamp |
| ContactImport.ReadFromWellFormed | EmailClient/MainWindow.xaml.cs:359-435 | every contact read has a trimmed, non-blank email and no timestamp |
| ContactImport.ReadRowWellFormed | EmailClient/MainWindow.xaml.cs:413-431 | the same from one data row on |
| ContactImport.MalformedAborts | EmailClient/MainWindow.xaml.cs:384-387 | a malformed line anywhere makes the whole read fail, whatever the header rule |
| ContactImport.MalformedAbortsRow | EmailClient/MainWindow.xaml.cs:384-387 | the same from one data row on |
| ContactImport.MalformedFirstLine | EmailClient/MainWindow.xaml.cs:386 | a malformed first line fails with "Line 1: " and the parser's message |
| ContactImport.ShortFirstRowFails | EmailClient/MainWindow.xaml.cs:404-416 | without a header, a first record of fewer than three cells fails with the missing-email-column message |
| ContactImport.ImportContacts | EmailClient/MainWindow.xaml.cs:346-356 | a failed read leaves the ledger unchanged and shows the error after "Unable to import contacts." |
| ContactImport.ImportStoresEveryRow | EmailClient/MainWindow.xaml.cs:348-351 | a clean read is always stored: the reported count is the number of contacts, the ledger gains exactly their emails, and the blank-email failure of the upsert cannot occur |
| ContactImport.PaddedRowExample | EmailClient/MainWindow.xaml.cs:418-428 | for any email, company and person without surrounding whitespace, the row (space + email + tab, company, person) yields exactly that email, company and person |
| ContactImport.HeaderThenRow | EmailClient/MainWindow.xaml.cs:394-403 | a header row is not imported and the following row is read under the header's columns |
| ContactImport.NoHeaderUsesDefaultColumns | EmailClient/MainWindow.xaml.cs:404-410 | without a header the first record is data, read as company, person, email |
| ContactImport.HeaderFileExample | EmailClient/MainWindow.xaml.cs:394-431 | the header Email, Company, Contact followed by the row (space + email + tab, company, person) gives exactly one contact with that company, person and email, for any values without surrounding whitespace |
| Text.TrimBlank | EmailClient/MainWindow.xaml.cs:274-278 | a value trims to the empty string iff it is blank, so a trimmed recipient is blank iff the cell is |
| Text.TrimPadded | EmailClient/Contacts/ContactRepository.cs:121 | a leading space and a trailing tab are removed from a value without surrounding whitespace |
| Text.TrimIdempotent | EmailClient/Contacts/ContactRepository.cs:138 | trimming a trimmed email changes nothing |
| Text.TrimExamples | EmailClient/Contacts/ContactRepository.cs:121 | surrounding whitespace goes and letter case stays |
| Text.NatToStringRoundTrip | EmailClient/MainWindow.xaml.cs:521-522 | the decimal rendering of a count reads back as the count |

## Left out

- File dialogs, `MessageBox`, the WPF bindings, `LoadContacts` and the single-send handlers are UI. The model returns what would be shown.
- The CSV grammar of `TextFieldParser` (quoting, delimiters) is left out. The model takes the reads as `Malformed`, `NoFields` (a null field array) or `Fields`. "Records left unread" stands for `!parser.EndOfData`. How the parser treats trailing blank lines is not modelled.
- The outer `catch` of `SendEmailsFromCsv` is left out: a file that cannot be opened has no records to model.
- The `LoadContacts` refresh in the `finally` block is left out. Only the attachment clearing is modelled.
- Time is left out. `Task.Delay` is counted, not performed; its token is `CancellationToken.None`, so it never cancels. `DateTime.UtcNow` and `DateTimeOffset.UtcNow` are the `clock` and `now` parameters, in ticks. `ToLocalTime().ToString("g")` is the `formatLocal` parameter.
- `CsvSend.SendEmailsFromCsv`: the ledger writes of one run are applied in order after the loop, not during it. Nothing in the loop reads the ledger, so the final ledger is the same. A failing write is left out: `UpdateContactEmailSent` catches its own exceptions and only shows a message.
- The ISO-8601 text of a timestamp and its `DateTime.TryParse` on read are left out. The model stores the instant itself, which is what the round trip gives back.
- SQLite's `Id` column and the relative order of rows whose companies compare equal are left out. `Ledger.GetContacts` leaves that order unspecified.
- Non-ASCII case folding is left out. `OrdinalIgnoreCase` and `COLLATE NOCASE` fold ASCII letters only.
- `Path.GetFileName` and `Path.GetExtension` are replaced by the .NET Framework rules for Windows paths, written out in `Mail`: `\`, `/` and `:` separate anywhere in the path. On .NET Core for Windows, `:` separates only inside the root, so there the file name of `C:\dir\file.txt:s` is `file.txt:s`, where the model gives `s`. `Guid.NewGuid` is a caller-supplied non-empty string.
- `WebUtility.HtmlEncode` is modelled on the five markup characters only.
- The parsers behind `int.TryParse` and `DateTimeOffset.TryParse` for Retry-After are left out. Their verdicts are part of each header value.
- Which header collection carries Retry-After (`TryGetRetryAfterDelay`) is left out. The model takes the list of values or its absence.
- Authentication, the token cache and the Graph client setup are foreign SDK calls and are left out.
- `Math.Pow` on doubles is replaced by exact integer arithmetic. The double power is exact for the attempt numbers 0 to 2 that reach it.
- Contacts.RoundDays: `Math.Round` of `TotalDays` is computed on the exact quotient of ticks by a day. The source rounds a double. From about 8192 days on, that double cannot tell a span just past a half day from the exact half (8192 days, 12 hours and one tick gives exactly 8192.5, which rounds to 8192). There the source can show one day less than the model.
- Throttling.DelayTooLong: the limit is the one `Task.Delay` enforces on .NET 6 and later, 4294967294 ms (about 49.7 days). .NET Framework and .NET Core 5 and earlier refuse waits above 2147483647 ms (about 24.8 days). The target framework is not part of this model.
- Contact keys are the trimmed email, compared case-sensitively: nothing in `ContactRepository` lower-cases the key.

## Findings

| source | as written | input that shows it | evidently intended | confidence | as-written member | corrected member |
|---|---|---|---|---|---|---|
| EmailClient/MailSender/AadGraphApiDelegatedClient.cs:143-145 | after three throttled attempts the operation is invoked a fourth time, outside the retry guard. The delay computed after the third attempt is never awaited | three 429 responses without Retry-After, then success: four calls, waits of 3 s and 6 s only, and the run succeeds | at most `maxAttempts` invocations, the last throttling failure propagating (or the computed delay awaited before any further call) | not executed | Throttling.ExecuteWithThrottlingRetries (Throttling.ForcedFinalCallExceedsMaxAttempts) | Throttling.ExecuteWithBoundedRetries |

=== FILE: Base64.dfy ===
/** The standard base64 alphabet and padding (RFC 4648, section 4), enough of
    `Convert.ToBase64String` / `Convert.FromBase64String` to state that
    encoding and then decoding returns the original bytes. */
module Base64 {
  import opened Wrappers

  newtype byte = x: int | 0 <= x < 256

  /** The 6-bit value a base64 digit stands for. */
  type sextet = x: int | 0 <= x < 64

  function IndexToChar(i: sextet): char {
    if i < 26 then ('A' as int + i) as char
    else if i < 52 then ('a' as int + (i - 26)) as char
    else if i < 62 then ('0' as int + (i - 52)) as char
    else if i == 62 then '+'
    else '/'
  }

  function CharToIndex(c: char): (r: Option<sextet>)
    ensures r.Some? ==> IndexToChar(r.value) == c
  {
    if 'A' <= c <= 'Z' then Some(c as int - 'A' as int)
    else if 'a' <= c <= 'z' then Some(c as int - 'a' as int + 26)
    else if '0' <= c <= '9' then Some(c as int - '0' as int + 52)
    else if c == '+' then Some(62)
    else if c == '/' then Some(63)
    else None
  }

  lemma CharIndexRoundTrip(i: sextet)
    ensures CharToIndex(IndexToChar(i)) == Some(i)
  {
  }

  const Pad: char := '='

  /** Three bytes become four digits. */
  function EncodeTriple(b0: byte, b1: byte, b2: byte): string {
    var i0, i1, i2 := b0 as int, b1 as int, b2 as int;
    [IndexToChar(i0 / 4), IndexToChar((i0 % 4) * 16 + i1 / 16), IndexToChar((i1 % 16) * 4 + i2 / 64), IndexToChar(i2 % 64)]
  }

  /** One trailing byte: two digits and two pads. */
  function EncodeOne(b0: byte): string {
    var i0 := b0 as int;
    [IndexToChar(i0 / 4), IndexToChar((i0 % 4) * 16), Pad, Pad]
  }

  /** Two trailing bytes: three digits and one pad. */
  function EncodeTwo(b0: byte, b1: byte): string {
    var i0, i1 := b0 as int, b1 as int;
    [IndexToChar(i0 / 4), IndexToChar((i0 % 4) * 16 + i1 / 16), IndexToChar((i1 % 16) * 4), Pad]
  }

  /** `Convert.ToBase64String`: whole triples, then a padded tail. */
  function Encode(data: seq<byte>): (r: string)
    ensures |r| % 4 == 0
    ensures |r| == 4 * ((|data| + 2) / 3)
    decreases |data|
  {
    if |data| == 0 then ""
    else if |data| == 1 then EncodeOne(data[0])
    else if |data| == 2 then EncodeTwo(data[0], data[1])
    else EncodeTriple(data[0], data[1], data[2]) + Encode(data[3..])
  }

  /** Four digits (the last one or two possibly padding) back to bytes. */
  function DecodeQuad(q: string): (r: Option<seq<byte>>)
    requires |q| == 4
  {
    var c0 := CharToIndex(q[0]);
    var c1 := CharToIndex(q[1]);
    var c2 := CharToIndex(q[2]);
    var c3 := CharToIndex(q[3]);
    if c0.None? || c1.None? then None
    else
      var b0 := (c0.value * 4 + c1.value / 16) as byte;
      if q[2] == Pad && q[3] == Pad then Some([b0])
      else if c2.None? then None
      else
        var b1 := ((c1.value % 16) * 16 + c2.value / 4) as byte;
        if q[3] == Pad then Some([b0, b1])
        else if c3.None? then None
        else Some([b0, b1, ((c2.value % 4) * 64 + c3.value) as byte])
  }

  /** `Convert.FromBase64String` on canonical input (no whitespace, padding
      only in the last quadruple); `None` stands for the `FormatException`. */
  function Decode(s: string): (r: Option<seq<byte>>)
    decreases |s|
  {
    if |s| == 0 then Some([])
    else if |s| < 4 then None
    else
      match DecodeQuad(s[..4])
      case None => None
      case Some(head) =>
        if |head| < 3 && |s| > 4 then None
        else
          match Decode(s[4..])
          case None => None
          case Some(tail) => Some(head + tail)
  }

  lemma Pack16(hi: int, lo: int)
    requires 0 <= lo < 16
    ensures (hi * 16 + lo) / 16 == hi && (hi * 16 + lo) % 16 == lo
  {
  }

  lemma Pack4(hi: int, lo: int)
    requires 0 <= lo < 4
    ensures (hi * 4 + lo) / 4 == hi && (hi * 4 + lo) % 4 == lo
  {
  }

  /** The digit arithmetic of one quadruple inverts the byte arithmetic. */
  lemma DigitArithmetic(b0: int, b1: int, b2: int)
    requires 0 <= b0 < 256 && 0 <= b1 < 256 && 0 <= b2 < 256
    ensures var c1 := (b0 % 4) * 16 + b1 / 16;
            var c2 := (b1 % 16) * 4 + b2 / 64;
            && (b0 / 4) * 4 + c1 / 16 == b0
            && (c1 % 16) * 16 + c2 / 4 == b1
            && (c2 % 4) * 64 + b2 % 64 == b2
  {
    Pack16(b0 % 4, b1 / 16);
    Pack4(b1 % 16, b2 / 64);
  }

  lemma TripleRoundTrip(b0: byte, b1: byte, b2: byte)
    ensures DecodeQuad(EncodeTriple(b0, b1, b2)) == Some([b0, b1, b2])
  {
    var i0, i1, i2 := b0 as int, b1 as int, b2 as int;
    DigitArithmetic(i0, i1, i2);
    CharIndexRoundTrip(i0 / 4);
    CharIndexRoundTrip((i0 % 4) * 16 + i1 / 16);
    CharIndexRoundTrip((i1 % 16) * 4 + i2 / 64);
    CharIndexRoundTrip(i2 % 64);
  }

  /** A single valid quadruple decodes on its own. */
  lemma DecodeLastQuad(q: string)
    requires |q| == 4 && DecodeQuad(q).Some?
    ensures Decode(q) == DecodeQuad(q)
  {
    assert q[..4] == q;
    assert q[4..] == "";
    assert DecodeQuad(q).value + [] == DecodeQuad(q).value;
  }

  lemma OneRoundTrip(b0: byte)
    ensures DecodeQuad(EncodeOne(b0)) == Some([b0])
  {
    var i0 := b0 as int;
    CharIndexRoundTrip(i0 / 4);
    CharIndexRoundTrip((i0 % 4) * 16);
    Pack16(i0 % 4, 0);
  }

  lemma TwoRoundTrip(b0: byte, b1: byte)
    ensures DecodeQuad(EncodeTwo(b0, b1)) == Some([b0, b1])
  {
    var i0, i1 := b0 as int, b1 as int;
    DigitArithmetic(i0, i1, 0);
    CharIndexRoundTrip(i0 / 4);
    CharIndexRoundTrip((i0 % 4) * 16 + i1 / 16);
    CharIndexRoundTrip((i1 % 16) * 4);
    Pack4(i1 % 16, 0);
  }

  /** A full quadruple followed by a decodable rest decodes to both parts. */
  lemma DecodeFullQuadThen(h: string, t: string, x: seq<byte>, y: seq<byte>)
    requires |h| == 4 && DecodeQuad(h) == Some(x) && |x| == 3 && Decode(t) == Some(y)
    ensures Decode(h + t) == Some(x + y)
  {
    assert (h + t)[..4] == h;
    assert (h + t)[4..] == t;
  }

  /** The padded tail: one or two bytes round-trip through one quadruple. */
  lemma ShortDecodeEncode(data: seq<byte>)
    requires 1 <= |data| <= 2
    ensures Decode(Encode(data)) == Some(data)
  {
    if |data| == 1 {
      assert Encode(data) == EncodeOne(data[0]);
      assert Decode(EncodeOne(data[0])) == Some([data[0]]) by {
        OneRoundTrip(data[0]);
        DecodeLastQuad(EncodeOne(data[0]));
      }
      assert data == [data[0]];
    } else if |data| == 2 {
      assert Encode(data) == EncodeTwo(data[0], data[1]);
      assert Decode(EncodeTwo(data[0], data[1])) == Some([data[0], data[1]]) by {
        TwoRoundTrip(data[0], data[1]);
        DecodeLastQuad(EncodeTwo(data[0], data[1]));
      }
      assert data == [data[0], data[1]];
    }
  }

  /** Decoding an encoding gives back the bytes. */
  lemma {:induction false} DecodeEncode(data: seq<byte>)
    ensures Decode(Encode(data)) == Some(data)
    decreases |data|
  {
    if 1 <= |data| <= 2 {
      ShortDecodeEncode(data);
    } else if |data| >= 3 {
      var head, rest := [data[0], data[1], data[2]], data[3..];
      assert Encode(data) == EncodeTriple(data[0], data[1], data[2]) + Encode(rest);
      assert Decode(Encode(rest)) == Some(rest) by {
        DecodeEncode(rest);
      }
      assert Decode(EncodeTriple(data[0], data[1], data[2]) + Encode(rest)) == Some(head + rest) by {
        TripleRoundTrip(data[0], data[1], data[2]);
        DecodeFullQuadThen(EncodeTriple(data[0], data[1], data[2]), Encode(rest), head, rest);
      }
      assert data == head + rest;
    }
  }
}

=== FILE: ContactImport.dfy ===
/** Importing contacts from a CSV file (`ImportContacts`,
    `ReadContactsFromCsv`): the first record with fields is checked for an
    email/company/person header; without one the columns default to company,
    point person and email, in that order, as far as that first record
    reaches. Rows with a blank email are skipped; a malformed line or a row
    without the email column aborts the whole import. The records are the
    reads of the CSV reader, as in `CsvSend`. */
module ContactImport {
  import opened Wrappers
  import opened Text
  import Headers
  import Contacts
  import Ledger
  import CsvSend

  const EmailColumnMessage: string := "CSV file must contain an Email column."
  const ImportFailedPrefix: string := "Unable to import contacts.\n"

  /** Column of the email, company and point-person cells; -1 for none. */
  datatype Columns = Columns(email: int, company: int, pointPerson: int)

  /** The columns a contact header names (its first role is the email). */
  function HeaderColumns(m: Headers.ColumnMap): (c: Columns)
    ensures c.email == m.first && c.company == m.second && c.pointPerson == m.third
  {
    Columns(m.first, m.second, m.third)
  }

  /** Without a header: company, point person and email in the first three
      cells, each only if the first record has that cell. */
  function DefaultColumns(fields: seq<string>): (c: Columns)
    ensures c.email >= 0 <==> |fields| > 2
    ensures c.email >= 0 ==> (c.company, c.pointPerson, c.email) == (0, 1, 2)
  {
    var company := if |fields| > 0 then 0 else -1;
    var pointPerson := if |fields| > 1 then 1 else -1;
    var email := if |fields| > 2 then 2 else -1;
    Columns(email, company, pointPerson)
  }

  /** An optional cell, trimmed; empty when the column is missing. */
  function CellOrEmpty(fields: seq<string>, index: int): string {
    if 0 <= index < |fields| then Trim(Headers.GetFieldValue(fields, index)) else ""
  }

  /** The contact one data row yields, or none when its email is blank. */
  function RowContact(fields: seq<string>, c: Columns): Option<Contacts.ContactRecord>
    requires 0 <= c.email < |fields|
  {
    var email := Trim(fields[c.email]);
    if email == "" then None
    else Some(Contacts.ContactRecord(CellOrEmpty(fields, c.company), CellOrEmpty(fields, c.pointPerson), email, None))
  }

  /** A row yields a contact exactly when its email cell is not blank; the
      contact holds the trimmed cells and no timestamp. */
  lemma RowContactSpec(fields: seq<string>, c: Columns)
    requires 0 <= c.email < |fields|
    ensures var r := RowContact(fields, c);
            && (r.Some? <==> !IsBlank(fields[c.email]))
            && (r.Some? ==> && r.value.email == Trim(fields[c.email])
                            && r.value.company == CellOrEmpty(fields, c.company)
                            && r.value.pointPerson == CellOrEmpty(fields, c.pointPerson)
                            && r.value.lastEmailSentUtc.None?)
  {
    TrimBlank(fields[c.email]);
  }

  /** How the first record with fields is recognised as a header, and the
      columns it names; `ReadContactsFromCsv` uses the contact header rule. */
  type HeaderRule = seq<string> -> Headers.HeaderMatch

  /** The read loop from record `i` on; `cols` is `None` until the first
      record with fields has been looked at. */
  function ReadFrom(records: seq<CsvSend.CsvRecord>, i: nat, cols: Option<Columns>, header: HeaderRule)
    : (r: Result<seq<Contacts.ContactRecord>, string>)
    requires i <= |records|
    ensures r.Success? ==> |r.value| <= |records| - i
    decreases |records| - i, 1
  {
    if i == |records| then Success([])
    else
      match records[i]
      case Malformed(msg) => Failure(CsvSend.ErrorLine(i + 1, msg))
      case NoFields => ReadFrom(records, i + 1, cols, header)
      case Fields(cells) =>
        if cols.Some? then ReadRow(records, i, cells, cols.value, header)
        else
          var h := header(cells);
          if h.found then ReadFrom(records, i + 1, Some(HeaderColumns(h.columns)), header)
          else ReadRow(records, i, cells, DefaultColumns(cells), header)
  }

  /** One data row under the columns `c`, then the rest of the file. */
  function ReadRow(records: seq<CsvSend.CsvRecord>, i: nat, cells: seq<string>, c: Columns, header: HeaderRule)
    : (r: Result<seq<Contacts.ContactRecord>, string>)
    requires i < |records|
    ensures r.Success? ==> |r.value| <= |records| - i
    decreases |records| - i, 0
  {
    if c.email < 0 || c.email >= |cells| then Failure(EmailColumnMessage)
    else
      var rest := ReadFrom(records, i + 1, Some(c), header);
      if rest.Failure? then rest
      else
        match RowContact(cells, c)
        case None => rest
        case Some(contact) => Success([contact] + rest.value)
  }

  /** `ReadContactsFromCsv` once the file is open. */
  function ReadContactsFromCsv(records: seq<CsvSend.CsvRecord>): (r: Result<seq<Contacts.ContactRecord>, string>)
    ensures r.Success? ==> |r.value| <= |records|
  {
    ReadFrom(records, 0, None, Headers.TryMapContactHeader)
  }

  /** A contact as the reader builds it: a trimmed, non-blank email and no timestamp. */
  predicate WellFormed(c: Contacts.ContactRecord) {
    !IsBlank(c.email) && Trim(c.email) == c.email && c.lastEmailSentUtc.None?
  }

  predicate AllWellFormed(cs: seq<Contacts.ContactRecord>) {
    forall k :: 0 <= k < |cs| ==> WellFormed(cs[k])
  }

  lemma RowContactWellFormed(fields: seq<string>, c: Columns)
    requires 0 <= c.email < |fields|
    ensures RowContact(fields, c).Some? ==> WellFormed(RowContact(fields, c).value)
  {
    TrimIdempotent(fields[c.email]);
    TrimBlank(fields[c.email]);
    TrimBlank(Trim(fields[c.email]));
  }

  /** Every contact read has a trimmed, non-blank email and no timestamp. */
  lemma {:induction false} ReadFromWellFormed(records: seq<CsvSend.CsvRecord>, i: nat, cols: Option<Columns>, header: HeaderRule)
    requires i <= |records|
    ensures var r := ReadFrom(records, i, cols, header);
            r.Success? ==> AllWellFormed(r.value)
    decreases |records| - i, 1
  {
    if i < |records| {
      match records[i]
      case Malformed(_) =>
      case NoFields => ReadFromWellFormed(records, i + 1, cols, header);
      case Fields(cells) =>
        if cols.Some? {
          ReadRowWellFormed(records, i, cells, cols.value, header);
        } else {
          var h := header(cells);
          if h.found {
            ReadFromWellFormed(records, i + 1, Some(HeaderColumns(h.columns)), header);
          } else {
            ReadRowWellFormed(records, i, cells, DefaultColumns(cells), header);
          }
        }
    }
  }

  lemma {:induction false} ReadRowWellFormed(records: seq<CsvSend.CsvRecord>, i: nat, cells: seq<string>, c: Columns, header: HeaderRule)
    requires i < |records|
    ensures var r := ReadRow(records, i, cells, c, header);
            r.Success? ==> AllWellFormed(r.value)
    decreases |records| - i, 0
  {
    if 0 <= c.email < |cells| {
      var rest := ReadFrom(records, i + 1, Some(c), header);
      assert rest.Success? ==> AllWellFormed(rest.value) by {
        ReadFromWellFormed(records, i + 1, Some(c), header);
      }
      var contact := RowContact(cells, c);
      assert contact.Some? ==> WellFormed(contact.value) by {
        RowContactWellFormed(cells, c);
      }
      var r := ReadRow(records, i, cells, c, header);
      if rest.Failure? || contact.None? {
        assert r == rest;
      } else {
        assert r == Success([contact.value] + rest.value);
        ConsWellFormed(contact.value, rest.value);
      }
    }
  }

  lemma ConsWellFormed(c: Contacts.ContactRecord, cs: seq<Contacts.ContactRecord>)
    requires WellFormed(c) && AllWellFormed(cs)
    ensures AllWellFormed([c] + cs)
  {
    forall k | 0 <= k < |[c] + cs|
      ensures WellFormed(([c] + cs)[k])
    {
      if k > 0 {
        assert ([c] + cs)[k] == cs[k - 1];
      }
    }
  }

  /** A malformed line anywhere aborts the import. */
  lemma {:induction false} MalformedAborts(records: seq<CsvSend.CsvRecord>, i: nat, cols: Option<Columns>, header: HeaderRule, j: nat)
    requires i <= j < |records| && records[j].Malformed?
    ensures ReadFrom(records, i, cols, header).Failure?
    decreases |records| - i, 1
  {
    if i < j {
      match records[i]
      case Malformed(_) =>
      case NoFields =>
        assert ReadFrom(records, i + 1, cols, header).Failure? by { MalformedAborts(records, i + 1, cols, header, j); }
      case Fields(cells) =>
        if cols.Some? {
          MalformedAbortsRow(records, i, cells, cols.value, header, j);
        } else {
          var h := header(cells);
          if h.found {
            assert ReadFrom(records, i + 1, Some(HeaderColumns(h.columns)), header).Failure? by {
              MalformedAborts(records, i + 1, Some(HeaderColumns(h.columns)), header, j);
            }
          } else {
            MalformedAbortsRow(records, i, cells, DefaultColumns(cells), header, j);
          }
        }
    }
  }

  lemma {:induction false} MalformedAbortsRow(records: seq<CsvSend.CsvRecord>, i: nat, cells: seq<string>, c: Columns, header: HeaderRule, j: nat)
    requires i < j < |records| && records[j].Malformed?
    ensures ReadRow(records, i, cells, c, header).Failure?
    decreases |records| - i, 0
  {
    if 0 <= c.email < |cells| {
      assert ReadFrom(records, i + 1, Some(c), header).Failure? by { MalformedAborts(records, i + 1, Some(c), header, j); }
    }
  }

  /** A malformed first line is reported with its line number. */
  lemma MalformedFirstLine(records: seq<CsvSend.CsvRecord>, msg: string)
    requires |records| > 0 && records[0] == CsvSend.Malformed(msg)
    ensures ReadContactsFromCsv(records) == Failure("Line 1: " + msg)
  {
    assert DigitChar(1) == '1';
    assert NatToString(1) == "1";
    assert "Line " + "1" + ": " == "Line 1: ";
    assert CsvSend.ErrorLine(1, msg) == "Line " + NatToString(1) + ": " + msg;
    assert ReadFrom(records, 0, None, Headers.TryMapContactHeader) == Failure(CsvSend.ErrorLine(1, msg));
  }

  /** Without a header, a first record of fewer than three cells has no
      email column, and the import fails. */
  lemma ShortFirstRowFails(records: seq<CsvSend.CsvRecord>)
    requires |records| > 0 && records[0].Fields? && |records[0].cells| < 3
    requires !Headers.TryMapContactHeader(records[0].cells).found
    ensures ReadContactsFromCsv(records) == Failure(EmailColumnMessage)
  {
    var cells := records[0].cells;
    assert ReadFrom(records, 0, None, Headers.TryMapContactHeader) == ReadRow(records, 0, cells, DefaultColumns(cells), Headers.TryMapContactHeader);
  }

  /** A record the columns `c` can read: a blank line, or fields that reach
      the email column. */
  predicate Readable(rec: CsvSend.CsvRecord, c: Columns) {
    rec.NoFields? || (rec.Fields? && 0 <= c.email < |rec.cells|)
  }

  /** Every record from `i` on can be read under `c`. */
  predicate Clean(records: seq<CsvSend.CsvRecord>, i: nat, c: Columns) {
    forall j :: i <= j < |records| ==> Readable(records[j], c)
  }

  /** The error an unreadable record at line `lineNumber` reports. */
  function RecordError(rec: CsvSend.CsvRecord, lineNumber: nat): string {
    if rec.Malformed? then CsvSend.ErrorLine(lineNumber, rec.message) else EmailColumnMessage
  }

  /** The contacts of the data records from `i` on, in file order: one per
      row whose email is not blank. */
  function Collect(records: seq<CsvSend.CsvRecord>, i: nat, c: Columns): seq<Contacts.ContactRecord>
    requires i <= |records| && Clean(records, i, c)
    decreases |records| - i
  {
    if i == |records| then []
    else
      var here := if records[i].Fields? && RowContact(records[i].cells, c).Some?
                  then [RowContact(records[i].cells, c).value] else [];
      here + Collect(records, i + 1, c)
  }

  /** Once the columns are known, a file whose remaining records are all
      readable imports the contacts of its data rows, in order. */
  lemma {:induction false} ReadFromCollects(records: seq<CsvSend.CsvRecord>, i: nat, c: Columns, header: HeaderRule)
    requires i <= |records| && Clean(records, i, c)
    ensures ReadFrom(records, i, Some(c), header) == Success(Collect(records, i, c))
    decreases |records| - i
  {
    if i < |records| {
      ReadFromCollects(records, i + 1, c, header);
      var r := ReadFrom(records, i, Some(c), header);
      var rest := ReadFrom(records, i + 1, Some(c), header);
      var later := Collect(records, i + 1, c);
      assert Readable(records[i], c);
      match records[i]
      case NoFields =>
        assert r == rest;
        assert Collect(records, i, c) == [] + later == later;
      case Fields(cells) =>
        assert r == ReadRow(records, i, cells, c, header);
        if RowContact(cells, c).None? {
          assert r == rest;
          assert Collect(records, i, c) == [] + later == later;
        } else {
          assert r == Success([RowContact(cells, c).value] + rest.value);
          assert Collect(records, i, c) == [RowContact(cells, c).value] + later;
        }
    }
  }

  /** Once the columns are known, the first unreadable record fails the
      import: a malformed line with its line number, a row too short for
      the email column with the column message. */
  lemma {:induction false} ReadFromFirstError(records: seq<CsvSend.CsvRecord>, i: nat, c: Columns, header: HeaderRule, j: nat)
    requires i <= j < |records| && !Readable(records[j], c) && Clean(records[..j], i, c)
    ensures ReadFrom(records, i, Some(c), header) == Failure(RecordError(records[j], j + 1))
    decreases |records| - i
  {
    var r := ReadFrom(records, i, Some(c), header);
    if i == j {
      match records[i]
      case Malformed(msg) =>
      case Fields(cells) =>
        assert r == ReadRow(records, i, cells, c, header);
    } else {
      assert Readable(records[..j][i], c);
      assert Clean(records[..j], i + 1, c);
      ReadFromFirstError(records, i + 1, c, header, j);
      var rest := ReadFrom(records, i + 1, Some(c), header);
      match records[i]
      case NoFields =>
        assert r == rest;
      case Fields(cells) =>
        assert r == ReadRow(records, i, cells, c, header);
    }
  }

  /** Blank lines before the first record with fields are skipped. */
  lemma {:induction false} SkipBlankLines(records: seq<CsvSend.CsvRecord>, i: nat, h: nat, header: HeaderRule)
    requires i <= h <= |records|
    requires forall k :: i <= k < h ==> records[k].NoFields?
    ensures ReadFrom(records, i, None, header) == ReadFrom(records, h, None, header)
    decreases h - i
  {
    if i < h {
      assert records[i].NoFields?;
      SkipBlankLines(records, i + 1, h, header);
    }
  }

  /** The read loop from the start of a file, under any header rule: after
      the leading blank lines, the first record with fields `h` is either a
      header, read past, with the columns it names, or the first data row
      under the default columns. From there the file reads exactly when
      every record is readable, and yields the contacts of its data rows. */
  lemma ReadFromStartCollects(records: seq<CsvSend.CsvRecord>, h: nat, header: HeaderRule)
    requires h < |records| && records[h].Fields?
    requires forall k :: 0 <= k < h ==> records[k].NoFields?
    ensures var m := header(records[h].cells);
            var start := if m.found then h + 1 else h;
            var c := if m.found then HeaderColumns(m.columns) else DefaultColumns(records[h].cells);
            && (Clean(records, start, c) ==> ReadFrom(records, 0, None, header) == Success(Collect(records, start, c)))
            && (!Clean(records, start, c) ==> ReadFrom(records, 0, None, header).Failure?)
  {
    var m := header(records[h].cells);
    var start := if m.found then h + 1 else h;
    var c := if m.found then HeaderColumns(m.columns) else DefaultColumns(records[h].cells);
    FirstFieldsRecord(records, h, header);
    if Clean(records, start, c) {
      ReadFromCollects(records, start, c, header);
    } else {
      FirstUnreadable(records, start, c);
      var j :| start <= j < |records| && !Readable(records[j], c) && Clean(records[..j], start, c);
      ReadFromFirstError(records, start, c, header, j);
    }
  }

  /** A whole import: after the leading blank lines, the first record with
      fields `h` is either the contact header, read past, with the columns
      it names, or the first data row under the default columns. From there
      the file imports exactly when every record is readable, and yields
      the contacts of its data rows; a short row or a malformed line
      anywhere fails it. */
  lemma ReadContactsCollects(records: seq<CsvSend.CsvRecord>, h: nat)
    requires h < |records| && records[h].Fields?
    requires forall k :: 0 <= k < h ==> records[k].NoFields?
    ensures var m := Headers.TryMapContactHeader(records[h].cells);
            var start := if m.found then h + 1 else h;
            var c := if m.found then HeaderColumns(m.columns) else DefaultColumns(records[h].cells);
            && (Clean(records, start, c) ==> ReadContactsFromCsv(records) == Success(Collect(records, start, c)))
            && (!Clean(records, start, c) ==> ReadContactsFromCsv(records).Failure?)
  {
    ReadFromStartCollects(records, h, Headers.TryMapContactHeader);
  }

  /** The read loop from the first record with fields on: it continues
      after a header with the columns it names, and otherwise reads that
      record as data under the default columns. */
  lemma FirstFieldsRecord(records: seq<CsvSend.CsvRecord>, h: nat, header: HeaderRule)
    requires h < |records| && records[h].Fields?
    requires forall k :: 0 <= k < h ==> records[k].NoFields?
    ensures var m := header(records[h].cells);
            ReadFrom(records, 0, None, header)
            == if m.found then ReadFrom(records, h + 1, Some(HeaderColumns(m.columns)), header)
               else ReadFrom(records, h, Some(DefaultColumns(records[h].cells)), header)
  {
    SkipBlankLines(records, 0, h, header);
  }

  /** A file with an unreadable record has a first one. */
  lemma {:induction false} FirstUnreadable(records: seq<CsvSend.CsvRecord>, i: nat, c: Columns)
    requires i <= |records| && !Clean(records, i, c)
    ensures exists j :: i <= j < |records| && !Readable(records[j], c) && Clean(records[..j], i, c)
    decreases |records| - i
  {
    if Readable(records[i], c) {
      FirstUnreadable(records, i + 1, c);
      var j :| i + 1 <= j < |records| && !Readable(records[j], c) && Clean(records[..j], i + 1, c);
      assert Clean(records[..j], i, c);
    } else {
      assert Clean(records[..i], i, c);
    }
  }

  /** What an import shows and leaves in the ledger. */
  datatype ImportReport = ImportReport(table: Ledger.Table, message: string)

  /** `ImportContacts` once a file was chosen: read, then upsert; any
      exception leaves the ledger as it was and is shown. */
  function ImportContacts(t: Ledger.Table, records: seq<CsvSend.CsvRecord>): (r: ImportReport)
    ensures ReadContactsFromCsv(records).Failure? ==>
              r == ImportReport(t, ImportFailedPrefix + ReadContactsFromCsv(records).error)
  {
    match ReadContactsFromCsv(records)
    case Failure(e) => ImportReport(t, ImportFailedPrefix + e)
    case Success(cs) =>
      var u := Ledger.UpsertContacts(t, Some(cs));
      match u.result
      case Success(count) => ImportReport(u.table, "Imported or updated " + NatToString(count) + " contact(s).")
      case Failure(_) => ImportReport(t, ImportFailedPrefix + "Email is required for a contact record.")
  }

  /** The emails of a batch. */
  function Emails(cs: seq<Contacts.ContactRecord>): set<string> {
    set k | 0 <= k < |cs| :: cs[k].email
  }

  /** Well-formed records are stored under their own email. */
  lemma KeysOfWellFormed(cs: seq<Contacts.ContactRecord>)
    requires AllWellFormed(cs)
    ensures Ledger.KeysOf(Ledger.BindAll(cs)) == Emails(cs)
  {
    var bs := Ledger.BindAll(cs);
    forall x | x in Emails(cs) ensures x in Ledger.KeysOf(bs) {
      var k :| 0 <= k < |cs| && cs[k].email == x;
      assert WellFormed(cs[k]);
      assert bs[k].email == x;
    }
    forall x | x in Ledger.KeysOf(bs) ensures x in Emails(cs) {
      var k :| 0 <= k < |bs| && bs[k].email == x;
      assert WellFormed(cs[k]);
    }
  }

  /** A file that reads cleanly is always stored: the count is the number of
      rows read, and the ledger gains exactly their emails as keys, so the
      upsert's blank-email failure cannot be reached from an import. */
  lemma ImportStoresEveryRow(t: Ledger.Table, records: seq<CsvSend.CsvRecord>)
    requires ReadContactsFromCsv(records).Success?
    ensures var cs := ReadContactsFromCsv(records).value;
            var r := ImportContacts(t, records);
            && r.message == "Imported or updated " + NatToString(|cs|) + " contact(s)."
            && r.table.Keys == t.Keys + Emails(cs)
  {
    var cs := ReadContactsFromCsv(records).value;
    ReadFromWellFormed(records, 0, None, Headers.TryMapContactHeader);
    KeysOfWellFormed(cs);
    assert forall k :: 0 <= k < |cs| ==> Ledger.HasEmail(cs[k]) by {
      forall k | 0 <= k < |cs| ensures Ledger.HasEmail(cs[k]) {
        assert WellFormed(cs[k]);
      }
    }
  }

  /** A row whose email cell trims to `email` and whose other cells are
      already trimmed yields exactly those values. */
  lemma TrimmedRow(cells: seq<string>, email: string)
    requires |cells| == 3 && Trim(cells[0]) == email && email != ""
    requires Trim(cells[1]) == cells[1] && Trim(cells[2]) == cells[2]
    ensures RowContact(cells, Columns(0, 1, 2)) == Some(Contacts.ContactRecord(cells[1], cells[2], email, None))
  {
    TrimBlank(cells[0]);
  }

  /** A value with no whitespace at either end. */
  predicate Tight(v: string) {
    |v| > 0 && !IsWhiteSpace(v[0]) && !IsWhiteSpace(v[|v| - 1])
  }

  /** A data row with a padded email: the email is trimmed and the other
      cells are kept. */
  lemma PaddedRowExample(email: string, company: string, pointPerson: string)
    requires Tight(email) && Tight(company) && Tight(pointPerson)
    ensures RowContact([" " + email + "\t", company, pointPerson], Columns(0, 1, 2))
            == Some(Contacts.ContactRecord(company, pointPerson, email, None))
  {
    var padded := " " + email + "\t";
    TrimPadded(email);
    TrimKeepsTrimmed(company);
    TrimKeepsTrimmed(pointPerson);
    TrimmedRow([padded, company, pointPerson], email);
  }

  /** A header and one data row: the header row is not imported and the
      row is read under the columns the header names. */
  lemma HeaderThenRow(header: seq<string>, row: seq<string>)
    requires Headers.TryMapContactHeader(header).found
    requires 0 <= HeaderColumns(Headers.TryMapContactHeader(header).columns).email < |row|
    ensures var c := HeaderColumns(Headers.TryMapContactHeader(header).columns);
            var r := ReadContactsFromCsv([CsvSend.Fields(header), CsvSend.Fields(row)]);
            && (RowContact(row, c).None? ==> r == Success([]))
            && (RowContact(row, c).Some? ==> r == Success([RowContact(row, c).value]))
  {
    var records := [CsvSend.Fields(header), CsvSend.Fields(row)];
    var c := HeaderColumns(Headers.TryMapContactHeader(header).columns);
    assert ReadFrom(records, 0, None, Headers.TryMapContactHeader) == ReadFrom(records, 1, Some(c), Headers.TryMapContactHeader);
    assert ReadFrom(records, 2, Some(c), Headers.TryMapContactHeader) == Success([]);
    assert ReadFrom(records, 1, Some(c), Headers.TryMapContactHeader) == ReadRow(records, 1, row, c, Headers.TryMapContactHeader);
    if RowContact(row, c).Some? {
      assert [RowContact(row, c).value] + [] == [RowContact(row, c).value];
    }
  }

  /** Without a header the first record is data, read as company, point
      person and email. */
  lemma NoHeaderUsesDefaultColumns(row: seq<string>)
    requires !Headers.TryMapContactHeader(row).found && |row| > 2
    ensures var c := Columns(2, 0, 1);
            var r := ReadContactsFromCsv([CsvSend.Fields(row)]);
            && (RowContact(row, c).None? ==> r == Success([]))
            && (RowContact(row, c).Some? ==> r == Success([RowContact(row, c).value]))
  {
    var records := [CsvSend.Fields(row)];
    var c := Columns(2, 0, 1);
    assert DefaultColumns(row) == c;
    assert ReadFrom(records, 0, None, Headers.TryMapContactHeader) == ReadRow(records, 0, row, c, Headers.TryMapContactHeader);
    assert ReadFrom(records, 1, Some(c), Headers.TryMapContactHeader) == Success([]);
    if RowContact(row, c).Some? {
      assert [RowContact(row, c).value] + [] == [RowContact(row, c).value];
    }
  }

  /** The header Email, Company, Contact followed by a row with a padded email: one contact, email trimmed. */
  lemma HeaderFileExample(header: seq<string>, email: string, company: string, pointPerson: string)
    requires header == ["Email", "Company", "Contact"]
    requires Tight(email) && Tight(company) && Tight(pointPerson)
    ensures ReadContactsFromCsv([CsvSend.Fields(header), CsvSend.Fields([" " + email + "\t", company, pointPerson])])
            == Success([Contacts.ContactRecord(company, pointPerson, email, None)])
  {
    var row := [" " + email + "\t", company, pointPerson];
    assert Headers.TryMapContactHeader(header) == Headers.HeaderMatch(true, Headers.ColumnMap(0, 1, 2))
      by { Headers.ContactHeaderExample(); }
    assert RowContact(row, Columns(0, 1, 2)) == Some(Contacts.ContactRecord(company, pointPerson, email, None))
      by { PaddedRowExample(email, company, pointPerson); }
    HeaderThenRow(header, row);
  }
}

=== FILE: Contacts.dfy ===
/** The contact record read from the ledger (`ContactRecord`) and its display
    projection with the derived follow-up signal (`ContactDisplay`).
    Instants are UTC ticks of 100 ns; `now` is a parameter. */
module Contacts {
  import opened Wrappers
  import Text

  const TicksPerDay: int := 864_000_000_000
  /** `FollowUpThreshold`: seven days. */
  const FollowUpThreshold: int := 7 * TicksPerDay

  const NeverContactedText: string := "Never contacted"
  const RecentlyContactedText: string := "Recently contacted"
  const NeverText: string := "Never"

  datatype ContactRecord = ContactRecord(company: string, pointPerson: string, email: string, lastEmailSentUtc: Option<int>)

  /** `new ContactRecord()`: every text property empty, no timestamp. */
  function NewContactRecord(): (r: ContactRecord)
    ensures r.company == "" && r.pointPerson == "" && r.email == ""
    ensures r.lastEmailSentUtc.None?
  {
    ContactRecord("", "", "", None)
  }

  datatype ContactDisplay = ContactDisplay(company: string, pointPerson: string, email: string, lastEmailSentUtc: Option<int>)

  /** `FromRecord`: copies the four displayed properties. */
  function FromRecord(record: ContactRecord): (d: ContactDisplay)
    ensures d.company == record.company && d.pointPerson == record.pointPerson
    ensures d.email == record.email && d.lastEmailSentUtc == record.lastEmailSentUtc
  {
    ContactDisplay(record.company, record.pointPerson, record.email, record.lastEmailSentUtc)
  }

  /** `Math.Round` of `ticks / TicksPerDay` (midpoints to even), computed on
      the exact quotient. */
  function RoundDays(ticks: nat): (r: nat)
    ensures 2 * (ticks - r * TicksPerDay) <= TicksPerDay
    ensures 2 * (r * TicksPerDay - ticks) <= TicksPerDay
    ensures 2 * (ticks - r * TicksPerDay) == TicksPerDay || 2 * (r * TicksPerDay - ticks) == TicksPerDay ==> r % 2 == 0
  {
    var q := ticks / TicksPerDay;
    var rem := ticks % TicksPerDay;
    if 2 * rem < TicksPerDay then q
    else if 2 * rem > TicksPerDay then q + 1
    else if q % 2 == 0 then q else q + 1
  }

  /** The follow-up state `FollowUpStatus` renders. */
  datatype FollowUp = NeverContacted | Recent | Overdue(days: nat)

  function Classify(d: ContactDisplay, now: int): (f: FollowUp)
    ensures f.NeverContacted? <==> d.lastEmailSentUtc.None?
    ensures f.Recent? <==> d.lastEmailSentUtc.Some? && now - d.lastEmailSentUtc.value < FollowUpThreshold
    ensures f.Overdue? ==> f.days >= 7 && f.days == RoundDays(now - d.lastEmailSentUtc.value)
  {
    if d.lastEmailSentUtc.None? then NeverContacted
    else
      var delta := now - d.lastEmailSentUtc.value;
      if delta >= FollowUpThreshold then
        var days := RoundDays(delta);
        Overdue(if days < 1 then 1 else days)
      else Recent
  }

  function Render(f: FollowUp): string {
    match f
    case NeverContacted => NeverContactedText
    case Recent => RecentlyContactedText
    case Overdue(n) => "Follow-up overdue (" + Text.NatToString(n) + " days)"
  }

  /** The status text determines the follow-up state it was rendered from. */
  lemma {:induction false} RenderInjective(f: FollowUp, g: FollowUp)
    requires Render(f) == Render(g)
    ensures f == g
  {
    if f.Overdue? && g.Overdue? {
      var a, b := Text.NatToString(f.days), Text.NatToString(g.days);
      var prefix := "Follow-up overdue (";
      assert Render(f) == prefix + a + " days)";
      assert Render(g) == prefix + b + " days)";
      assert |a| == |b|;
      assert a == Render(f)[|prefix|..|prefix| + |a|];
      assert b == Render(g)[|prefix|..|prefix| + |b|];
      Text.NatToStringInjective(f.days, g.days);
    }
  }

  /** `FollowUpStatus`. */
  function FollowUpStatus(d: ContactDisplay, now: int): (s: string)
    ensures d.lastEmailSentUtc.None? ==> s == NeverContactedText
    ensures d.lastEmailSentUtc.Some? && now - d.lastEmailSentUtc.value < FollowUpThreshold ==> s == RecentlyContactedText
    ensures d.lastEmailSentUtc.Some? && now - d.lastEmailSentUtc.value >= FollowUpThreshold ==>
              s == "Follow-up overdue (" + Text.NatToString(RoundDays(now - d.lastEmailSentUtc.value)) + " days)"
  {
    Render(Classify(d, now))
  }

  /** `FollowUpDue`: never contacted, or at least seven days have passed. */
  function FollowUpDue(d: ContactDisplay, now: int): (due: bool)
    ensures due <==> FollowUpStatus(d, now) != RecentlyContactedText
  {
    var due := d.lastEmailSentUtc.None? || now - d.lastEmailSentUtc.value >= FollowUpThreshold;
    assert due ==> FollowUpStatus(d, now)[0] != 'R';
    due
  }

  /** `LastEmailDisplay`; the local-time rendering of a present timestamp is a parameter. */
  function LastEmailDisplay(d: ContactDisplay, formatLocal: int -> string): (s: string)
    ensures d.lastEmailSentUtc.None? ==> s == NeverText
  {
    if d.lastEmailSentUtc.None? then NeverText else formatLocal(d.lastEmailSentUtc.value)
  }

  /** Six days ago is recent; eight days ago is eight days overdue. */
  lemma FollowUpExamples(now: int, email: string)
    ensures var six := ContactDisplay("", "", email, Some(now - 6 * TicksPerDay));
            FollowUpStatus(six, now) == RecentlyContactedText && !FollowUpDue(six, now)
    ensures var eight := ContactDisplay("", "", email, Some(now - 8 * TicksPerDay));
            FollowUpStatus(eight, now) == "Follow-up overdue (8 days)" && FollowUpDue(eight, now)
  {
    var eight := ContactDisplay("", "", email, Some(now - 8 * TicksPerDay));
    assert RoundDays(8 * TicksPerDay) == 8;
    assert Classify(eight, now) == Overdue(8);
  }
}

=== FILE: CsvSend.dfy ===
/** Bulk sending from a CSV file (`SendEmailsFromCsv`): each data row
    becomes one message, at most `BatchLimit` sends are attempted per run,
    failures are counted and the first few are quoted in the summary, and
    every successful send stamps the recipient in the contact ledger.

    The file is given as the records the CSV reader returns, one per read;
    the mail transport is an oracle from (attempt number, message) to the
    outcome, and the clock an oracle from attempt number to UTC ticks. */
module CsvSend {
  import opened Wrappers
  import opened Text
  import Headers
  import Mail
  import HtmlBody
  import Ledger

  const BatchLimit: nat := 20
  const DelayBetweenEmailsSeconds: nat := 3
  const MaxErrorSamples: nat := 5

  const ColumnsMessage: string := "Expected columns for recipient, subject, and body."
  const MissingRecipientMessage: string := "Recipient address is missing."
  const MalformedPrefix: string := "Malformed CSV: "
  const LimitNotice: string :=
    "Processing stopped after 20 emails to avoid throttling. Re-run the import to send the remaining messages."

  /** One read of the CSV reader: a line it could not parse, a read that
      produced no fields, or the fields of one record. */
  datatype CsvRecord = Malformed(message: string) | NoFields | Fields(cells: seq<string>)

  /** What one `SendEmailAsync` call did: returned, or threw with a message. */
  datatype SendOutcome = Sent | SendFailed(message: string)

  type Transport = (nat, Mail.Message) -> SendOutcome

  /** One `UpdateContactEmailSent` call: the recipient and the send time. */
  datatype Stamp = Stamp(email: string, atUtc: int)

  /** The locals of one run. `failures` counts every failed row, of which
      `sendFailures` are the sends the transport rejected; `messages` are the
      messages handed to the transport, in order; `errors` is every failure
      line, of which the source keeps only the first `MaxErrorSamples` in
      `samples`; `stamps` are the ledger writes, in order. */
  datatype State = State(
    recipientIndex: nat, subjectIndex: nat, bodyIndex: nat, headerEvaluated: bool,
    successes: nat, failures: nat, sendFailures: nat, samples: seq<string>, attempted: nat, delays: nat,
    messages: seq<Mail.Message>, errors: seq<string>, stamps: seq<Stamp>)

  /** How a run ended: the final state, how many records were read, and
      whether records were left unread because the batch limit was hit. */
  datatype Run = Run(state: State, recordsRead: nat, batchLimitReached: bool)

  function Initial(): (st: State)
    ensures st.attempted == 0 && st.errors == [] && st.samples == [] && st.messages == [] && st.stamps == []
    ensures st.successes == 0 && st.failures == 0 && st.sendFailures == 0 && st.delays == 0
    ensures st.recipientIndex == 0 && st.subjectIndex == 1 && st.bodyIndex == 2 && !st.headerEvaluated
  {
    State(0, 1, 2, false, 0, 0, 0, [], 0, 0, [], [], [])
  }

  function Min(a: int, b: int): int {
    if a <= b then a else b
  }

  function Max(a: int, b: int): int {
    if a >= b then a else b
  }

  /** The text of one failure. */
  function ErrorLine(lineNumber: nat, message: string): (r: string)
    ensures |r| >= 5 && r[..5] == "Line "
  {
    "Line " + NatToString(lineNumber) + ": " + message
  }

  /** A failure line reads back as its line number and message: "Line ",
      the decimal digits of the number, ": ", then the message. */
  lemma ErrorLineReadsBack(lineNumber: nat, message: string)
    ensures var r := ErrorLine(lineNumber, message);
            var d := |r| - |message| - 2;
            && 6 <= d && r[..5] == "Line " && r[d..d + 2] == ": " && r[d + 2..] == message
            && IsDigits(r[5..d]) && ParseNat(r[5..d]) == lineNumber
  {
    var digits := NatToString(lineNumber);
    var r := ErrorLine(lineNumber, message);
    assert r == "Line " + digits + ": " + message;
    var d := |r| - |message| - 2;
    assert r[5..d] == digits;
    assert r[d..d + 2] == ": ";
    assert r[d + 2..] == message;
    NatToStringRoundTrip(lineNumber);
  }

  /** `AppendCsvError`: the line is kept only while fewer than five are kept. */
  function AppendCsvError(samples: seq<string>, lineNumber: nat, message: string): (r: seq<string>)
    ensures samples <= r && |r| <= |samples| + 1
    ensures |r| == |samples| + 1 <==> |samples| < MaxErrorSamples
    ensures |r| > |samples| ==> r[|samples|] == ErrorLine(lineNumber, message)
  {
    if |samples| < MaxErrorSamples then samples + [ErrorLine(lineNumber, message)] else samples
  }

  /** One failure: counted, logged, and quoted if there is room. */
  function Fail(st: State, lineNumber: nat, message: string): State {
    st.(failures := st.failures + 1,
        samples := AppendCsvError(st.samples, lineNumber, message),
        errors := st.errors + [ErrorLine(lineNumber, message)])
  }

  /** The message for one row: plain text when the signature is blank,
      otherwise HTML with the body and signature combined. */
  function ComposeMessage(recipient: string, subject: string, body: string, signature: string): (m: Mail.Message)
    ensures m.toRecipients == [recipient] && m.subject == subject
    ensures m.body.contentType == Mail.Html <==> !IsBlank(signature)
    ensures IsBlank(signature) ==> m.body.content == body
    ensures !IsBlank(signature) ==> m.body.content == HtmlBody.BuildHtmlBody(body, signature)
  {
    if IsBlank(signature) then Mail.CreateStandardEmail(recipient, subject, body)
    else Mail.CreateHtmlEmail(recipient, subject, HtmlBody.BuildHtmlBody(body, signature))
  }

  /** `r` is `st` after one failure logged as `message` on line `lineNumber`:
      nothing sent, one more failure, and the columns unchanged. */
  predicate FailedOnce(st: State, r: State, lineNumber: nat, message: string) {
    && r.attempted == st.attempted && r.messages == st.messages && r.stamps == st.stamps
    && r.successes == st.successes && r.failures == st.failures + 1 && r.sendFailures == st.sendFailures
    && r.errors == st.errors + [ErrorLine(lineNumber, message)]
    && (r.recipientIndex, r.subjectIndex, r.bodyIndex, r.headerEvaluated, r.delays)
       == (st.recipientIndex, st.subjectIndex, st.bodyIndex, st.headerEvaluated, st.delays)
  }

  /** A data row under the current column mapping: too few cells for the
      mapped columns, or a recipient that trims to blank, is one failure with
      its message and no send; any other row is one send of the message
      composed from the mapped cells. */
  function ProcessRow(st: State, cells: seq<string>, lineNumber: nat, signature: string,
                      send: Transport, clock: nat -> int): (r: State)
    ensures r.attempted == st.attempted || r.attempted == st.attempted + 1
    ensures |cells| <= Max(st.recipientIndex, Max(st.subjectIndex, st.bodyIndex)) ==>
              FailedOnce(st, r, lineNumber, ColumnsMessage)
    ensures |cells| > Max(st.recipientIndex, Max(st.subjectIndex, st.bodyIndex)) && IsBlank(Trim(cells[st.recipientIndex])) ==>
              FailedOnce(st, r, lineNumber, MissingRecipientMessage)
    ensures |cells| > Max(st.recipientIndex, Max(st.subjectIndex, st.bodyIndex)) && !IsBlank(Trim(cells[st.recipientIndex])) ==>
              var m := ComposeMessage(Trim(cells[st.recipientIndex]), cells[st.subjectIndex], cells[st.bodyIndex], signature);
              SendRecorded(st, r, m, lineNumber, send(st.attempted, m), clock(st.attempted))
  {
    if |cells| <= Max(st.recipientIndex, Max(st.subjectIndex, st.bodyIndex)) then
      Fail(st, lineNumber, ColumnsMessage)
    else
      var recipient := Trim(cells[st.recipientIndex]);
      if IsBlank(recipient) then Fail(st, lineNumber, MissingRecipientMessage)
      else
        Attempt(st, ComposeMessage(recipient, cells[st.subjectIndex], cells[st.bodyIndex], signature),
                lineNumber, send, clock)
  }

  /** One send: counted as attempted whatever the outcome; a success also
      stamps the recipient in the ledger with the current time, a failure is
      counted and logged with the transport's message. */
  function Attempt(st: State, m: Mail.Message, lineNumber: nat, send: Transport, clock: nat -> int): (r: State)
    requires Addressed(m)
    ensures SendRecorded(st, r, m, lineNumber, send(st.attempted, m), clock(st.attempted))
  {
    var st1 := st.(attempted := st.attempted + 1, messages := st.messages + [m]);
    match send(st.attempted, m)
    case Sent =>
      st1.(successes := st.successes + 1, stamps := st.stamps + [Stamp(m.toRecipients[0], clock(st.attempted))])
    case SendFailed(msg) => Fail(st1, lineNumber, msg).(sendFailures := st.sendFailures + 1)
  }

  /** `r` is `st` after handing `m` to the transport, which answered
      `outcome` at instant `at`: one more attempt and message; a success is
      counted and stamps the first recipient; a failure is counted as a
      failed send and as a failure, and logged with the transport's message;
      the columns stay as they were. */
  predicate SendRecorded(st: State, r: State, m: Mail.Message, lineNumber: nat, outcome: SendOutcome, at: int) {
    && |m.toRecipients| > 0
    && r.attempted == st.attempted + 1 && r.messages == st.messages + [m]
    && (outcome.Sent? ==>
          && r.successes == st.successes + 1 && r.sendFailures == st.sendFailures
          && r.failures == st.failures && r.errors == st.errors && r.samples == st.samples
          && r.stamps == st.stamps + [Stamp(m.toRecipients[0], at)])
    && (outcome.SendFailed? ==>
          && r.successes == st.successes && r.sendFailures == st.sendFailures + 1
          && r.failures == st.failures + 1 && r.errors == st.errors + [ErrorLine(lineNumber, outcome.message)]
          && r.stamps == st.stamps)
    && (r.recipientIndex, r.subjectIndex, r.bodyIndex, r.headerEvaluated, r.delays)
       == (st.recipientIndex, st.subjectIndex, st.bodyIndex, st.headerEvaluated, st.delays)
  }

  /** One read. The first record with fields is checked for a header; a
      header only remaps the columns it names and is not sent. */
  function Step(st: State, rec: CsvRecord, lineNumber: nat, signature: string,
                send: Transport, clock: nat -> int): (r: State)
    ensures r.attempted == st.attempted || r.attempted == st.attempted + 1
    ensures rec.Malformed? ==> FailedOnce(st, r, lineNumber, MalformedPrefix + rec.message)
    ensures rec.NoFields? ==> r == st
    ensures rec.Fields? && st.headerEvaluated ==> r == ProcessRow(st, rec.cells, lineNumber, signature, send, clock)
    ensures rec.Fields? && !st.headerEvaluated && !Headers.TryMapHeader(rec.cells).found ==>
              r == ProcessRow(st.(headerEvaluated := true), rec.cells, lineNumber, signature, send, clock)
    ensures rec.Fields? && !st.headerEvaluated && Headers.TryMapHeader(rec.cells).found ==>
              HeaderApplied(st, r, Headers.TryMapHeader(rec.cells).columns)
  {
    match rec
    case Malformed(msg) => Fail(st, lineNumber, MalformedPrefix + msg)
    case NoFields => st
    case Fields(cells) =>
      if st.headerEvaluated then ProcessRow(st, cells, lineNumber, signature, send, clock)
      else
        var h := Headers.TryMapHeader(cells);
        var st1 := st.(headerEvaluated := true);
        if h.found then
          var c := h.columns;
          st1.(recipientIndex := if c.first >= 0 then c.first else st.recipientIndex,
               subjectIndex := if c.second >= 0 then c.second else st.subjectIndex,
               bodyIndex := if c.third >= 0 then c.third else st.bodyIndex)
        else ProcessRow(st1, cells, lineNumber, signature, send, clock)
  }

  /** `r` is `st` after a header row: nothing sent or logged, the header is
      marked as seen, and each column the header names replaces the default;
      a column it does not name keeps its default. */
  predicate HeaderApplied(st: State, r: State, c: Headers.ColumnMap) {
    && r.headerEvaluated
    && r.attempted == st.attempted && r.messages == st.messages && r.stamps == st.stamps
    && r.errors == st.errors && r.samples == st.samples
    && r.successes == st.successes && r.failures == st.failures && r.sendFailures == st.sendFailures
    && r.delays == st.delays
    && r.recipientIndex == (if c.first >= 0 then c.first else st.recipientIndex)
    && r.subjectIndex == (if c.second >= 0 then c.second else st.subjectIndex)
    && r.bodyIndex == (if c.third >= 0 then c.third else st.bodyIndex)
  }

  /** A first row Subject, TO, Body is a header: nothing is sent or logged,
      and the recipient, subject and body move to columns 1, 0 and 2. */
  lemma HeaderRowRemaps(header: seq<string>, signature: string, send: Transport, clock: nat -> int)
    requires header == ["Subject", "TO", "Body"]
    ensures var r := Step(Initial(), Fields(header), 1, signature, send, clock);
            && r.headerEvaluated && r.attempted == 0 && r.errors == [] && r.messages == []
            && (r.recipientIndex, r.subjectIndex, r.bodyIndex) == (1, 0, 2)
  {
    assert Headers.TryMapHeader(header) == Headers.HeaderMatch(true, Headers.ColumnMap(1, 0, 2))
      by { Headers.SendHeaderExample(); }
  }

  /** The ledger writes the first `n` messages cause: one per accepted
      message, stamped with the clock at its attempt. */
  function Stamps(send: Transport, clock: nat -> int, messages: seq<Mail.Message>, n: nat): (r: seq<Stamp>)
    requires n <= |messages| && forall k :: 0 <= k < n ==> Addressed(messages[k])
    ensures |r| <= n
  {
    if n == 0 then []
    else
      var m := messages[n - 1];
      assert Addressed(m);
      Stamps(send, clock, messages, n - 1)
      + (if send(n - 1, m).Sent? then [Stamp(m.toRecipients[0], clock(n - 1))] else [])
  }

  /** A message the run could have produced: one recipient, trimmed and not blank. */
  predicate Addressed(m: Mail.Message) {
    |m.toRecipients| == 1 && !IsBlank(m.toRecipients[0])
  }

  /** The failure count is the number of lines logged, and the quoted lines
      are the first ones logged. */
  predicate Logged(st: State) {
    && st.failures == |st.errors|
    && st.samples == st.errors[..Min(|st.errors|, MaxErrorSamples)]
  }

  /** What holds of the locals between reads. */
  predicate Consistent(st: State, send: Transport, clock: nat -> int) {
    && Logged(st)
    && |st.messages| == st.attempted
    && (forall k :: 0 <= k < |st.messages| ==> Addressed(st.messages[k]))
    && st.stamps == Stamps(send, clock, st.messages, st.attempted)
    && st.successes == |st.stamps|
    && st.successes + st.sendFailures == st.attempted
    && st.sendFailures <= st.failures
  }

  /** A failure of a row keeps the locals consistent. */
  lemma FailConsistent(st: State, send: Transport, clock: nat -> int, lineNumber: nat, message: string)
    requires Consistent(st, send, clock)
    ensures Consistent(Fail(st, lineNumber, message), send, clock)
  {
    FailLogged(st, lineNumber, message);
  }

  /** `AppendCsvError` keeps the quoted lines the first ones logged. */
  lemma FailLogged(st: State, lineNumber: nat, message: string)
    requires Logged(st)
    ensures Logged(Fail(st, lineNumber, message))
  {
    var r := Fail(st, lineNumber, message);
    var n := |st.errors|;
    if n < MaxErrorSamples {
      assert r.errors[..n + 1] == st.errors[..n] + [ErrorLine(lineNumber, message)];
    } else {
      assert r.errors[..MaxErrorSamples] == st.errors[..MaxErrorSamples];
    }
  }

  /** A row either fails without a send or makes exactly one send, and the
      locals stay consistent. */
  lemma ProcessRowConsistent(st: State, cells: seq<string>, lineNumber: nat, signature: string,
                             send: Transport, clock: nat -> int)
    requires Consistent(st, send, clock)
    ensures var r := ProcessRow(st, cells, lineNumber, signature, send, clock);
            && Consistent(r, send, clock)
            && st.messages <= r.messages && st.errors <= r.errors && st.stamps <= r.stamps
            && (r.recipientIndex, r.subjectIndex, r.bodyIndex, r.headerEvaluated, r.delays)
               == (st.recipientIndex, st.subjectIndex, st.bodyIndex, st.headerEvaluated, st.delays)
  {
    if |cells| <= Max(st.recipientIndex, Max(st.subjectIndex, st.bodyIndex)) {
      FailConsistent(st, send, clock, lineNumber, ColumnsMessage);
    } else {
      var recipient := Trim(cells[st.recipientIndex]);
      if IsBlank(recipient) {
        FailConsistent(st, send, clock, lineNumber, MissingRecipientMessage);
      } else {
        var m := ComposeMessage(recipient, cells[st.subjectIndex], cells[st.bodyIndex], signature);
        AttemptConsistent(st, m, lineNumber, send, clock);
      }
    }
  }

  /** One send keeps the locals consistent and adds exactly one message. */
  lemma AttemptConsistent(st: State, m: Mail.Message, lineNumber: nat, send: Transport, clock: nat -> int)
    requires Consistent(st, send, clock) && Addressed(m)
    ensures var r := Attempt(st, m, lineNumber, send, clock);
            && Consistent(r, send, clock)
            && st.errors <= r.errors && st.stamps <= r.stamps
            && (r.recipientIndex, r.subjectIndex, r.bodyIndex, r.headerEvaluated, r.delays)
               == (st.recipientIndex, st.subjectIndex, st.bodyIndex, st.headerEvaluated, st.delays)
  {
    var n := st.attempted;
    var msgs := st.messages + [m];
    assert forall k :: 0 <= k < n ==> msgs[k] == st.messages[k];
    StampsPrefix(send, clock, st.messages, msgs, n);
    if send(n, m).SendFailed? {
      FailLogged(st.(attempted := n + 1, messages := msgs), lineNumber, send(n, m).message);
    }
  }

  /** The stamps only look at the messages they cover. */
  lemma {:induction false} StampsPrefix(send: Transport, clock: nat -> int, a: seq<Mail.Message>, b: seq<Mail.Message>, n: nat)
    requires n <= |a| && n <= |b| && forall k :: 0 <= k < n ==> a[k] == b[k] && Addressed(a[k])
    ensures Stamps(send, clock, a, n) == Stamps(send, clock, b, n)
  {
    if n > 0 {
      StampsPrefix(send, clock, a, b, n - 1);
    }
  }

  lemma StepConsistent(st: State, rec: CsvRecord, lineNumber: nat, signature: string,
                       send: Transport, clock: nat -> int)
    requires Consistent(st, send, clock)
    ensures var r := Step(st, rec, lineNumber, signature, send, clock);
            && Consistent(r, send, clock)
            && st.messages <= r.messages && st.errors <= r.errors && st.stamps <= r.stamps
            && r.delays == st.delays
  {
    match rec
    case Malformed(msg) => FailConsistent(st, send, clock, lineNumber, MalformedPrefix + msg);
    case NoFields =>
    case Fields(cells) =>
      if st.headerEvaluated {
        ProcessRowConsistent(st, cells, lineNumber, signature, send, clock);
      } else {
        ProcessRowConsistent(st.(headerEvaluated := true), cells, lineNumber, signature, send, clock);
      }
  }

  /** One read as a function of the locals, the record and its line number. */
  type Reader = (State, CsvRecord, nat) -> State

  /** `Step` with the run's signature, transport and clock fixed. */
  function StepWith(signature: string, send: Transport, clock: nat -> int): Reader {
    (st: State, rec: CsvRecord, lineNumber: nat) => Step(st, rec, lineNumber, signature, send, clock)
  }

  /** The read loop from record `i` on, for the per-record step `read`.
      After each send below the limit the run waits
      `DelayBetweenEmailsSeconds`; the wait is never cancelled. The send
      that reaches the limit ends the run without a wait, and the limit
      counts as reached only if records are left unread. */
  function Process(records: seq<CsvRecord>, i: nat, st: State, read: Reader): (r: Run)
    requires i <= |records| && st.attempted < BatchLimit
    ensures i <= r.recordsRead <= |records|
    ensures r.batchLimitReached <==> r.recordsRead < |records|
    ensures r.recordsRead < |records| ==> r.state.attempted >= BatchLimit
    ensures r.state.attempted < BatchLimit ==> r.recordsRead == |records|
    decreases |records| - i
  {
    if i == |records| then Run(st, i, false)
    else
      var st1 := read(st, records[i], i + 1);
      var sent := st1.attempted > st.attempted;
      if sent && st1.attempted >= BatchLimit then Run(st1, i + 1, i + 1 < |records|)
      else Process(records, i + 1, if sent then st1.(delays := st1.delays + 1) else st1, read)
  }

  /** What one read may do to locals that satisfy `inv`: keep `inv`, make
      at most one send, only add messages, log lines and stamps, and not wait. */
  predicate Advances(st: State, r: State, inv: State -> bool) {
    && inv(r)
    && (r.attempted == st.attempted || r.attempted == st.attempted + 1)
    && st.messages <= r.messages && st.errors <= r.errors && st.stamps <= r.stamps
    && r.delays == st.delays
  }

  /** Every read advances locals that satisfy `inv`, and the waits between
      reads do not disturb `inv`. */
  ghost predicate ReadAdvances(read: Reader, inv: State -> bool) {
    && (forall st: State, d: nat :: inv(st) ==> inv(st.(delays := d)))
    && (forall st: State, rec: CsvRecord, lineNumber: nat ::
          inv(st) ==> Advances(st, read(st, rec, lineNumber), inv))
  }

  /** `Consistent` for a fixed transport and clock. */
  function ConsistentWith(send: Transport, clock: nat -> int): State -> bool {
    (st: State) => Consistent(st, send, clock)
  }

  lemma ConsistentWithIs(send: Transport, clock: nat -> int, st: State)
    ensures ConsistentWith(send, clock)(st) == Consistent(st, send, clock)
  {
  }

  /** `Step` is such a read for `Consistent`. */
  lemma StepAdvances(signature: string, send: Transport, clock: nat -> int)
    ensures ReadAdvances(StepWith(signature, send, clock), ConsistentWith(send, clock))
  {
    var inv := ConsistentWith(send, clock);
    forall st: State, d: nat | inv(st)
      ensures inv(st.(delays := d))
    {
      assert Consistent(st, send, clock);
    }
    forall st: State, rec: CsvRecord, lineNumber: nat | inv(st)
      ensures Advances(st, StepWith(signature, send, clock)(st, rec, lineNumber), inv)
    {
      StepConsistent(st, rec, lineNumber, signature, send, clock);
    }
  }

  /** The read loop keeps the locals consistent, stays within the batch
      limit, only adds messages, log lines and stamps, and waits once after
      every send but the one that reaches the limit. */
  lemma {:induction false} ProcessConsistent(records: seq<CsvRecord>, i: nat, st: State, read: Reader,
                                             inv: State -> bool)
    requires i <= |records| && st.attempted < BatchLimit
    requires ReadAdvances(read, inv)
    requires inv(st) && st.delays == st.attempted
    ensures var r := Process(records, i, st, read);
            && inv(r.state)
            && st.attempted <= r.state.attempted <= BatchLimit
            && r.state.delays == (if r.state.attempted == BatchLimit then BatchLimit - 1 else r.state.attempted)
            && st.messages <= r.state.messages && st.errors <= r.state.errors
            && st.stamps <= r.state.stamps
    decreases |records| - i
  {
    if i < |records| {
      var st1 := read(st, records[i], i + 1);
      assert Advances(st, st1, inv);
      var r := Process(records, i, st, read);
      if st1.attempted > st.attempted && st1.attempted < BatchLimit {
        var st2 := st1.(delays := st1.delays + 1);
        assert inv(st2);
        assert r == Process(records, i + 1, st2, read);
        ProcessConsistent(records, i + 1, st2, read, inv);
      } else if st1.attempted == st.attempted {
        assert r == Process(records, i + 1, st1, read);
        ProcessConsistent(records, i + 1, st1, read, inv);
      } else {
        assert r == Run(st1, i + 1, i + 1 < |records|);
      }
    }
  }

  /** A record the default column order can send: at least three cells,
      a recipient that is not blank, and not mistaken for a header. */
  predicate Sendable(rec: CsvRecord) {
    && rec.Fields? && |rec.cells| >= 3 && !IsBlank(Trim(rec.cells[0]))
    && !Headers.TryMapHeader(rec.cells).found
  }

  /** The columns are recipient, subject and body, in that order. */
  predicate DefaultColumns(st: State) {
    (st.recipientIndex, st.subjectIndex, st.bodyIndex) == (0, 1, 2)
  }

  /** A sendable record is one attempt under the default columns. */
  lemma SendableStep(st: State, rec: CsvRecord, lineNumber: nat, signature: string, send: Transport, clock: nat -> int)
    requires Sendable(rec) && DefaultColumns(st)
    ensures var r := Step(st, rec, lineNumber, signature, send, clock);
            r.attempted == st.attempted + 1 && DefaultColumns(r)
  {
    var cells := rec.cells;
    var st0 := if st.headerEvaluated then st else st.(headerEvaluated := true);
    var m := ComposeMessage(Trim(cells[0]), cells[1], cells[2], signature);
    assert Step(st, rec, lineNumber, signature, send, clock) == Attempt(st0, m, lineNumber, send, clock);
  }

  ghost predicate ReadSendsSendable(read: Reader) {
    forall st: State, rec: CsvRecord, lineNumber: nat | Sendable(rec) && DefaultColumns(st) ::
      read(st, rec, lineNumber).attempted == st.attempted + 1 && DefaultColumns(read(st, rec, lineNumber))
  }

  /** `Step` sends every sendable record. */
  lemma StepSendsSendable(signature: string, send: Transport, clock: nat -> int)
    ensures ReadSendsSendable(StepWith(signature, send, clock))
  {
    forall st: State, rec: CsvRecord, lineNumber: nat | Sendable(rec) && DefaultColumns(st)
      ensures StepWith(signature, send, clock)(st, rec, lineNumber).attempted == st.attempted + 1
      ensures DefaultColumns(StepWith(signature, send, clock)(st, rec, lineNumber))
    {
      SendableStep(st, rec, lineNumber, signature, send, clock);
    }
  }

  /** With every remaining record sendable, the run sends each of them until
      the batch limit, and reports the limit exactly when more were left. */
  lemma {:induction false} AllSendableRun(records: seq<CsvRecord>, i: nat, st: State, read: Reader)
    requires i <= |records| && st.attempted < BatchLimit && DefaultColumns(st)
    requires ReadSendsSendable(read)
    requires forall j :: i <= j < |records| ==> Sendable(records[j])
    ensures var r := Process(records, i, st, read);
            && r.state.attempted == Min(st.attempted + (|records| - i), BatchLimit)
            && (r.batchLimitReached <==> st.attempted + (|records| - i) > BatchLimit)
            && r.recordsRead == i + Min(|records| - i, BatchLimit - st.attempted)
    decreases |records| - i
  {
    if i < |records| {
      var st1 := read(st, records[i], i + 1);
      assert st1.attempted == st.attempted + 1 && DefaultColumns(st1);
      var r := Process(records, i, st, read);
      if st1.attempted < BatchLimit {
        var st2 := st1.(delays := st1.delays + 1);
        assert r == Process(records, i + 1, st2, read);
        AllSendableRun(records, i + 1, st2, read);
      } else {
        assert r == Run(st1, i + 1, i + 1 < |records|);
      }
    }
  }

  /** Twenty-five sendable rows: twenty are sent and the summary ends with
      the notice that the run stopped. */
  lemma TwentyFiveRowsStopAtTwenty(records: seq<CsvRecord>, signature: string, send: Transport,
                                   clock: nat -> int, ledger: Ledger.Table, svc: Mail.EmailService)
    requires |records| == 25 && forall j :: 0 <= j < |records| ==> Sendable(records[j])
    ensures var r := SendEmailsFromCsv(records, signature, send, clock, ledger, svc);
            && r.run.state.attempted == BatchLimit && r.run.batchLimitReached
            && r.run.recordsRead == BatchLimit
  {
    StepSendsSendable(signature, send, clock);
    AllSendableRun(records, 0, Initial(), StepWith(signature, send, clock));
  }

  /** The lines of `BuildCsvSummary`, before each gets its line terminator. */
  function SummaryLines(successes: nat, failures: nat, samples: seq<string>, batchLimitReached: bool): seq<string> {
    ["Emails sent successfully: " + NatToString(successes), "Emails failed: " + NatToString(failures)]
    + (if |samples| > 0 then ["", "Sample errors:"] + samples + (if failures > |samples| then ["..."] else []) else [])
    + (if batchLimitReached then ["", LimitNotice] else [])
  }

  /** `StringBuilder.AppendLine` on each line in turn. */
  function AppendLines(lines: seq<string>): (r: string)
    ensures |r| >= 2 * |lines|
    decreases |lines|
  {
    if |lines| == 0 then "" else lines[0] + HtmlBody.NewLine + AppendLines(lines[1..])
  }

  /** The summary text ends with the limit notice when the run stopped at
      the limit; otherwise with "..." when failures went unquoted, with the
      last quoted failure, or, with none quoted, with the failure count. */
  function BuildCsvSummary(successes: nat, failures: nat, samples: seq<string>, batchLimitReached: bool): (r: string)
    ensures var last := if batchLimitReached then LimitNotice
                        else if |samples| > 0 && failures > |samples| then "..."
                        else if |samples| > 0 then samples[|samples| - 1]
                        else "Emails failed: " + NatToString(failures);
            var tail := last + HtmlBody.NewLine;
            |tail| <= |r| && r[|r| - |tail|..] == tail
  {
    var lines := SummaryLines(successes, failures, samples, batchLimitReached);
    AppendLinesEndsWithLast(lines);
    AppendLines(lines)
  }

  /** The text of a non-empty run of lines ends with its last line and a terminator. */
  lemma AppendLinesEndsWithLast(lines: seq<string>)
    requires |lines| > 0
    ensures var tail := lines[|lines| - 1] + HtmlBody.NewLine;
            var r := AppendLines(lines);
            |tail| <= |r| && r[|r| - |tail|..] == tail
  {
    var n := |lines| - 1;
    AppendLinesConcat(lines[..n], [lines[n]]);
    assert lines[..n] + [lines[n]] == lines;
    assert AppendLines([lines[n]]) == lines[n] + HtmlBody.NewLine + AppendLines([]);
  }

  /** Appending two runs of lines is appending their concatenation. */
  lemma {:induction false} AppendLinesConcat(a: seq<string>, b: seq<string>)
    ensures AppendLines(a + b) == AppendLines(a) + AppendLines(b)
    decreases |a|
  {
    if |a| > 0 {
      assert (a + b)[0] == a[0];
      assert (a + b)[1..] == a[1..] + b;
      AppendLinesConcat(a[1..], b);
    } else {
      assert a + b == b;
    }
  }

  /** `StringBuilder.AppendLine` one line at a time: the text grows by the
      line and its terminator, starting from the empty text. */
  lemma AppendLinesSnoc(lines: seq<string>, line: string)
    ensures AppendLines([]) == ""
    ensures AppendLines(lines + [line]) == AppendLines(lines) + line + HtmlBody.NewLine
  {
    AppendLinesConcat(lines, [line]);
    assert AppendLines([line]) == line + HtmlBody.NewLine + AppendLines([]);
  }

  /** Where each part of the summary sits: the two counts first, the
      sample block only when something was quoted (with "..." when more
      failed than were quoted), and the limit notice last exactly when the
      batch limit was reached. */
  lemma SummaryLayout(successes: nat, failures: nat, samples: seq<string>, batchLimitReached: bool)
    ensures var lines := SummaryLines(successes, failures, samples, batchLimitReached);
            && lines[0] == "Emails sent successfully: " + NatToString(successes)
            && lines[1] == "Emails failed: " + NatToString(failures)
            && |lines| == 2 + (if |samples| > 0 then 2 + |samples| + (if failures > |samples| then 1 else 0) else 0)
                            + (if batchLimitReached then 2 else 0)
            && (|samples| > 0 ==> lines[3] == "Sample errors:" && lines[4..4 + |samples|] == samples)
            && (|samples| > 0 && failures > |samples| ==> lines[4 + |samples|] == "...")
            && (batchLimitReached ==> lines[|lines| - 1] == LimitNotice)
  {
  }

  /** The summary text opens with the success count on its own line. */
  lemma SummaryStartsWithCount(successes: nat, failures: nat, samples: seq<string>, batchLimitReached: bool)
    ensures var head := "Emails sent successfully: " + NatToString(successes) + HtmlBody.NewLine;
            BuildCsvSummary(successes, failures, samples, batchLimitReached)[..|head|] == head
  {
    var lines := SummaryLines(successes, failures, samples, batchLimitReached);
    AppendLinesConcat([lines[0]], lines[1..]);
    assert [lines[0]] + lines[1..] == lines;
    assert AppendLines([lines[0]]) == lines[0] + HtmlBody.NewLine + "";
  }

  /** The ledger after the first `n` of a run's writes, applied in order. */
  function RecordSends(t: Ledger.Table, stamps: seq<Stamp>, n: nat): Ledger.Table
    requires n <= |stamps|
  {
    if n == 0 then t
    else Ledger.UpdateLastEmailSent(RecordSends(t, stamps, n - 1), stamps[n - 1].email, stamps[n - 1].atUtc)
  }

  /** A write for another key leaves a row as it was. */
  lemma UpdateKeepsOtherRow(t: Ledger.Table, email: string, ts: int, k: string)
    requires k in t && (!IsBlank(email) ==> Trim(email) != k)
    ensures k in Ledger.UpdateLastEmailSent(t, email, ts)
    ensures Ledger.UpdateLastEmailSent(t, email, ts)[k] == t[k]
  {
  }

  /** A write stamps its own key. */
  lemma UpdateStampsRow(t: Ledger.Table, email: string, ts: int)
    requires !IsBlank(email)
    ensures Trim(email) in Ledger.UpdateLastEmailSent(t, email, ts)
    ensures Ledger.UpdateLastEmailSent(t, email, ts)[Trim(email)].lastEmailSent == Some(ts)
  {
  }

  /** Every written recipient ends up in the ledger and no row is removed. */
  lemma {:induction false} RecordSendsKeys(t: Ledger.Table, stamps: seq<Stamp>, n: nat)
    requires n <= |stamps|
    ensures t.Keys <= RecordSends(t, stamps, n).Keys
    ensures forall i :: 0 <= i < n && !IsBlank(stamps[i].email) ==> Trim(stamps[i].email) in RecordSends(t, stamps, n)
  {
    if n > 0 {
      RecordSendsKeys(t, stamps, n - 1);
    }
  }

  /** A recipient's timestamp is the one of its last write. */
  lemma {:induction false} RecordSendsLastWins(t: Ledger.Table, stamps: seq<Stamp>, n: nat, i: nat)
    requires i < n <= |stamps| && !IsBlank(stamps[i].email)
    requires forall j :: i < j < n ==> Trim(stamps[j].email) != Trim(stamps[i].email)
    ensures Trim(stamps[i].email) in RecordSends(t, stamps, n)
    ensures RecordSends(t, stamps, n)[Trim(stamps[i].email)].lastEmailSent == Some(stamps[i].atUtc)
  {
    var prev := RecordSends(t, stamps, n - 1);
    assert RecordSends(t, stamps, n) == Ledger.UpdateLastEmailSent(prev, stamps[n - 1].email, stamps[n - 1].atUtc);
    if i < n - 1 {
      RecordSendsLastWins(t, stamps, n - 1, i);
      UpdateKeepsOtherRow(prev, stamps[n - 1].email, stamps[n - 1].atUtc, Trim(stamps[i].email));
    } else {
      UpdateStampsRow(prev, stamps[i].email, stamps[i].atUtc);
    }
  }

  /** A whole run from locals that are consistent and have not sent yet
      stays consistent and within the batch limit. */
  lemma RunConsistent(records: seq<CsvRecord>, st0: State, signature: string, send: Transport, clock: nat -> int)
    requires Consistent(st0, send, clock) && st0.attempted == 0 && st0.delays == 0
    ensures var st := Process(records, 0, st0, StepWith(signature, send, clock)).state;
            Consistent(st, send, clock) && st.attempted <= BatchLimit
  {
    var read := StepWith(signature, send, clock);
    var inv := ConsistentWith(send, clock);
    ConsistentWithIs(send, clock, st0);
    StepAdvances(signature, send, clock);
    ProcessConsistent(records, 0, st0, read, inv);
    ConsistentWithIs(send, clock, Process(records, 0, st0, read).state);
  }

  /** What one run shows and leaves behind. */
  datatype Report = Report(summary: string, run: Run, ledger: Ledger.Table, service: Mail.EmailService)

  /** `SendEmailsFromCsv` once a file was chosen: the read loop, then the
      summary, then the shared attachments cleared. */
  function SendEmailsFromCsv(records: seq<CsvRecord>, signature: string, send: Transport, clock: nat -> int,
                             ledger: Ledger.Table, svc: Mail.EmailService): (r: Report)
    ensures var st := r.run.state;
            && Consistent(st, send, clock)
            && st.successes + st.sendFailures == st.attempted && st.sendFailures <= st.failures
            && st.attempted <= BatchLimit
            && (r.run.batchLimitReached <==> r.run.recordsRead < |records|)
            && (r.run.batchLimitReached ==> st.attempted == BatchLimit)
            && r.ledger == RecordSends(ledger, st.stamps, |st.stamps|)
            && r.summary == BuildCsvSummary(st.successes, st.failures, st.samples, r.run.batchLimitReached)
            && r.service.attachments == []
    ensures r.run == Process(records, 0, Initial(), StepWith(signature, send, clock))
  {
    var run := Process(records, 0, Initial(), StepWith(signature, send, clock));
    RunConsistent(records, Initial(), signature, send, clock);
    var st := run.state;
    Report(BuildCsvSummary(st.successes, st.failures, st.samples, run.batchLimitReached), run,
           RecordSends(ledger, st.stamps, |st.stamps|), Mail.ClearAttachments(svc))
  }
}

=== FILE: Headers.dfy ===
/** Header detection shared by the two CSV readers (`TryMapHeader`,
    `TryMapContactHeader`, `Matches`, `GetFieldValue`). Both scan the first
    record's cells once, left to right; each cell is offered to the roles in
    a fixed order and taken by the first role that is still unassigned and
    whose synonyms it equals, ignoring case and without trimming. */
module Headers {
  import opened Text

  /** `Matches`: the value equals one of the candidates, ignoring case. */
  predicate Matches(value: string, candidates: seq<string>) {
    exists k :: 0 <= k < |candidates| && EqualsIgnoreCase(value, candidates[k])
  }

  /** Synonym lists of the three roles, in the order they are tried. */
  datatype Roles = Roles(first: seq<string>, second: seq<string>, third: seq<string>)

  /** The column of each role, -1 when no cell was taken for it. */
  datatype ColumnMap = ColumnMap(first: int, second: int, third: int)

  /** Recipient, subject and body columns of the send CSV. */
  const SendRoles: Roles := Roles(
    ["recipient", "email", "emailaddress", "to"],
    ["subject", "title"],
    ["body", "message", "content"])

  /** Email, company and point-person columns of the contact CSV. */
  const ContactRoles: Roles := Roles(
    ["email", "emailaddress", "contactemail"],
    ["company", "organization", "account", "business"],
    ["pointperson", "contact", "name", "representative", "person"])

  /** Which of the three roles one cell names. */
  datatype Hits = Hits(first: bool, second: bool, third: bool)

  function CellHits(value: string, roles: Roles): Hits {
    Hits(Matches(value, roles.first), Matches(value, roles.second), Matches(value, roles.third))
  }

  /** The role hits of every cell, in order. */
  function HitsOf(fields: seq<string>, roles: Roles): (hs: seq<Hits>)
    ensures |hs| == |fields| && forall i :: 0 <= i < |fields| ==> hs[i] == CellHits(fields[i], roles)
  {
    seq(|fields|, i requires 0 <= i < |fields| => CellHits(fields[i], roles))
  }

  /** The scan over cells `0 .. n-1`, given the roles each cell names. Each
      role gets the first cell that names it and was not already taken by an
      earlier role. */
  function Scan(hs: seq<Hits>, n: nat): (m: ColumnMap)
    requires n <= |hs|
    ensures -1 <= m.first < n && -1 <= m.second < n && -1 <= m.third < n
    ensures m.first >= 0 ==> hs[m.first].first
    ensures forall i :: 0 <= i < n && (m.first < 0 || i < m.first) ==> !hs[i].first
    ensures m.second >= 0 ==> m.second != m.first && hs[m.second].second
    ensures m.third >= 0 ==> m.third != m.first && m.third != m.second && hs[m.third].third
  {
    if n == 0 then ColumnMap(-1, -1, -1)
    else
      var m := Scan(hs, n - 1);
      var h := hs[n - 1];
      if m.first < 0 && h.first then m.(first := n - 1)
      else if m.second < 0 && h.second then m.(second := n - 1)
      else if m.third < 0 && h.third then m.(third := n - 1)
      else m
  }

  lemma {:induction false} ScanSecondRole(hs: seq<Hits>, n: nat)
    requires n <= |hs|
    ensures var m := Scan(hs, n);
            forall i :: 0 <= i < n && i != m.first && (m.second < 0 || i < m.second) ==> !hs[i].second
  {
    if n > 0 {
      ScanSecondRole(hs, n - 1);
    }
  }

  lemma {:induction false} ScanThirdRole(hs: seq<Hits>, n: nat)
    requires n <= |hs|
    ensures var m := Scan(hs, n);
            forall i :: 0 <= i < n && i != m.first && i != m.second && (m.third < 0 || i < m.third) ==> !hs[i].third
  {
    if n > 0 {
      ScanThirdRole(hs, n - 1);
    }
  }

  /** The scan of `TryMapHeader` and `TryMapContactHeader` over cells `0 .. n-1`:
      each role gets the first cell that matches it and was not already taken
      by an earlier role. */
  function MapColumns(fields: seq<string>, roles: Roles, n: nat): (m: ColumnMap)
    requires n <= |fields|
    ensures -1 <= m.first < n && -1 <= m.second < n && -1 <= m.third < n
    ensures m.first >= 0 ==> Matches(fields[m.first], roles.first)
    ensures forall i :: 0 <= i < n && (m.first < 0 || i < m.first) ==> !Matches(fields[i], roles.first)
    ensures m.second >= 0 ==> m.second != m.first && Matches(fields[m.second], roles.second)
    ensures m.third >= 0 ==> m.third != m.first && m.third != m.second && Matches(fields[m.third], roles.third)
  {
    var hs := HitsOf(fields, roles);
    assert forall i :: 0 <= i < n ==> hs[i].first == Matches(fields[i], roles.first);
    Scan(hs, n)
  }

  /** The second role gets the first cell that matches it among those the
      first role did not take. */
  lemma MapColumnsSecondRole(fields: seq<string>, roles: Roles, n: nat)
    requires n <= |fields|
    ensures var m := MapColumns(fields, roles, n);
            forall i :: 0 <= i < n && i != m.first && (m.second < 0 || i < m.second) ==> !Matches(fields[i], roles.second)
  {
    ScanSecondRole(HitsOf(fields, roles), n);
  }

  /** The third role gets the first cell that matches it among those the
      first two roles did not take. */
  lemma MapColumnsThirdRole(fields: seq<string>, roles: Roles, n: nat)
    requires n <= |fields|
    ensures var m := MapColumns(fields, roles, n);
            forall i :: 0 <= i < n && i != m.first && i != m.second && (m.third < 0 || i < m.third)
              ==> !Matches(fields[i], roles.third)
  {
    ScanThirdRole(HitsOf(fields, roles), n);
  }

  /** What a header check reports: whether the row is a header, and the columns. */
  datatype HeaderMatch = HeaderMatch(found: bool, columns: ColumnMap)

  /** A row is a header exactly when some cell names the first role. */
  function DetectHeader(fields: seq<string>, roles: Roles): (r: HeaderMatch)
    ensures r.found <==> exists i :: 0 <= i < |fields| && Matches(fields[i], roles.first)
    ensures r.columns == MapColumns(fields, roles, |fields|)
  {
    var m := MapColumns(fields, roles, |fields|);
    HeaderMatch(m.first >= 0, m)
  }

  /** `TryMapHeader`: recipient, subject and body columns of a send CSV. */
  function TryMapHeader(fields: seq<string>): (r: HeaderMatch)
    ensures r.found <==> exists i :: 0 <= i < |fields| && Matches(fields[i], SendRoles.first)
  {
    DetectHeader(fields, SendRoles)
  }

  /** `TryMapContactHeader`: email, company and point-person columns. */
  function TryMapContactHeader(fields: seq<string>): (r: HeaderMatch)
    ensures r.found <==> exists i :: 0 <= i < |fields| && Matches(fields[i], ContactRoles.first)
  {
    DetectHeader(fields, ContactRoles)
  }

  /** `GetFieldValue`: the cell, or empty when the index is out of range. */
  function GetFieldValue(fields: seq<string>, index: int): string {
    if 0 <= index < |fields| then fields[index] else ""
  }

  /** A cell inside the row is read as it is; a short row reads as if
      padded with empty cells; and an unmapped column (index -1) reads as
      empty. */
  lemma ShortRowReadsAsPadded(fields: seq<string>, padding: seq<string>, index: int)
    requires forall k :: 0 <= k < |padding| ==> padding[k] == ""
    ensures 0 <= index < |fields| ==> GetFieldValue(fields, index) == fields[index]
    ensures GetFieldValue(fields, index) == GetFieldValue(fields + padding, index)
    ensures GetFieldValue(fields, -1) == ""
  {
  }

  /** Candidates that are their own folding (no upper-case letters). */
  predicate AllFolded(candidates: seq<string>) {
    forall k :: 0 <= k < |candidates| ==> Fold(candidates[k]) == candidates[k]
  }

  /** Against folded candidates, matching is membership of the folded value. */
  lemma MatchesFolded(value: string, candidates: seq<string>)
    requires AllFolded(candidates)
    ensures Matches(value, candidates) <==> Fold(value) in candidates
  {
    if Fold(value) in candidates {
      var k :| 0 <= k < |candidates| && candidates[k] == Fold(value);
      assert EqualsIgnoreCase(value, candidates[k]);
    }
  }

  lemma SendRolesFolded()
    ensures AllFolded(SendRoles.first) && AllFolded(SendRoles.second) && AllFolded(SendRoles.third)
  {
    assert Fold("recipient") == "recipient" by { FoldedFixed("recipient"); }
    assert Fold("email") == "email" by { FoldedFixed("email"); }
    assert Fold("emailaddress") == "emailaddress" by { FoldedFixed("emailaddress"); }
    assert Fold("to") == "to" by { FoldedFixed("to"); }
    assert Fold("subject") == "subject" by { FoldedFixed("subject"); }
    assert Fold("title") == "title" by { FoldedFixed("title"); }
    assert Fold("body") == "body" by { FoldedFixed("body"); }
    assert Fold("message") == "message" by { FoldedFixed("message"); }
    assert Fold("content") == "content" by { FoldedFixed("content"); }
  }

  lemma ContactRolesFolded()
    ensures AllFolded(ContactRoles.first) && AllFolded(ContactRoles.second) && AllFolded(ContactRoles.third)
  {
    assert Fold("email") == "email" by { FoldedFixed("email"); }
    assert Fold("emailaddress") == "emailaddress" by { FoldedFixed("emailaddress"); }
    assert Fold("contactemail") == "contactemail" by { FoldedFixed("contactemail"); }
    assert Fold("company") == "company" by { FoldedFixed("company"); }
    assert Fold("organization") == "organization" by { FoldedFixed("organization"); }
    assert Fold("account") == "account" by { FoldedFixed("account"); }
    assert Fold("business") == "business" by { FoldedFixed("business"); }
    assert Fold("pointperson") == "pointperson" by { FoldedFixed("pointperson"); }
    assert Fold("contact") == "contact" by { FoldedFixed("contact"); }
    assert Fold("name") == "name" by { FoldedFixed("name"); }
    assert Fold("representative") == "representative" by { FoldedFixed("representative"); }
    assert Fold("person") == "person" by { FoldedFixed("person"); }
  }

  /** The contact header Email, Company, Contact is recognised and maps columns 0, 1 and 2. */
  lemma ContactHeaderExample()
    ensures TryMapContactHeader(["Email", "Company", "Contact"]) == HeaderMatch(true, ColumnMap(0, 1, 2))
  {
    var f := ["Email", "Company", "Contact"];
    ContactRolesFolded();
    assert Fold(f[0]) == "email";
    assert Fold(f[1]) == "company";
    assert Fold(f[2]) == "contact";
    MatchesFolded(f[0], ContactRoles.first);
    assert MapColumns(f, ContactRoles, 1) == ColumnMap(0, -1, -1);
    MatchesFolded(f[1], ContactRoles.second);
    assert MapColumns(f, ContactRoles, 2) == ColumnMap(0, 1, -1);
    MatchesFolded(f[2], ContactRoles.third);
    assert MapColumns(f, ContactRoles, 3) == ColumnMap(0, 1, 2);
  }

  /** A send-CSV header in mixed case and shuffled order. */
  lemma SendHeaderExample()
    ensures TryMapHeader(["Subject", "TO", "Body"]) == HeaderMatch(true, ColumnMap(1, 0, 2))
  {
    var f := ["Subject", "TO", "Body"];
    SendRolesFolded();
    assert Fold(f[0]) == "subject";
    assert Fold(f[1]) == "to";
    assert Fold(f[2]) == "body";
    MatchesFolded(f[0], SendRoles.first);
    MatchesFolded(f[0], SendRoles.second);
    assert MapColumns(f, SendRoles, 1) == ColumnMap(-1, 0, -1);
    MatchesFolded(f[1], SendRoles.first);
    assert MapColumns(f, SendRoles, 2) == ColumnMap(1, 0, -1);
    MatchesFolded(f[2], SendRoles.third);
    assert MapColumns(f, SendRoles, 3) == ColumnMap(1, 0, 2);
  }
}

=== FILE: HtmlBody.dfy ===
/** Composition of the HTML body sent when a signature is present
    (`BuildHtmlBody` and its helpers), and the rule that appends an inline
    image tag to the signature (`AddInlineImage`). */
module HtmlBody {
  import opened Text

  const LineBreak: string := "<br/>"
  /** What separates the body from the signature. */
  const Separator: string := "<br/><br/>"
  /** `Environment.NewLine` on Windows. */
  const NewLine: string := "\r\n"

  /** The tag prefixes whose presence marks a signature as block-level HTML. */
  const BlockLevelTags: seq<string> := [
    "<article", "<div", "<footer", "<header", "<h1", "<h2", "<h3", "<h4", "<h5", "<h6",
    "<li", "<ol", "<p", "<section", "<table", "<tbody", "<td", "<tfoot", "<th", "<thead", "<tr", "<ul"]

  /** The entity `WebUtility.HtmlEncode` writes for one character. */
  function EncodeChar(c: char): string {
    if c == '<' then "&lt;"
    else if c == '>' then "&gt;"
    else if c == '"' then "&quot;"
    else if c == '\'' then "&#39;"
    else if c == '&' then "&amp;"
    else [c]
  }

  /** Stand-in for `WebUtility.HtmlEncode` on the five markup characters. */
  function HtmlEncode(s: string): (r: string)
    ensures '<' !in r && '>' !in r
    ensures '\n' in r <==> '\n' in s
    ensures '\r' in r <==> '\r' in s
    decreases |s|
  {
    if |s| == 0 then "" else EncodeChar(s[0]) + HtmlEncode(s[1..])
  }

  /** The inverse of `HtmlEncode`: the five entities back to characters. */
  function HtmlDecode(s: string): string
    decreases |s|
  {
    if |s| == 0 then ""
    else if |s| >= 4 && s[..4] == "&lt;" then "<" + HtmlDecode(s[4..])
    else if |s| >= 4 && s[..4] == "&gt;" then ">" + HtmlDecode(s[4..])
    else if |s| >= 6 && s[..6] == "&quot;" then "\"" + HtmlDecode(s[6..])
    else if |s| >= 5 && s[..5] == "&#39;" then "'" + HtmlDecode(s[5..])
    else if |s| >= 5 && s[..5] == "&amp;" then "&" + HtmlDecode(s[5..])
    else [s[0]] + HtmlDecode(s[1..])
  }

  lemma DecodeAfterEntity(e: string, c: char, rest: string)
    requires e == EncodeChar(c)
    ensures HtmlDecode(e + rest) == [c] + HtmlDecode(rest)
  {
    var s := e + rest;
    assert s[..|e|] == e;
    assert s[|e|..] == rest;
    if |e| == 1 {
      assert s[0] == c && c != '&';
      assert |s| >= 4 ==> s[..4][0] != '&';
      assert |s| >= 5 ==> s[..5][0] != '&';
      assert |s| >= 6 ==> s[..6][0] != '&';
      assert s[1..] == rest;
    }
  }

  /** Encoding loses nothing: decoding gives back the original text. */
  lemma {:induction false} HtmlEncodeRoundTrip(s: string)
    ensures HtmlDecode(HtmlEncode(s)) == s
    decreases |s|
  {
    if |s| > 0 {
      DecodeAfterEntity(EncodeChar(s[0]), s[0], HtmlEncode(s[1..]));
      HtmlEncodeRoundTrip(s[1..]);
      assert s == [s[0]] + s[1..];
    }
  }

  /** `ContainsLikelyHtml`. */
  predicate ContainsLikelyHtml(value: string) {
    !IsBlank(value) && '<' in value && '>' in value
  }

  /** The blank test adds nothing: markup characters are not whitespace. */
  lemma LikelyHtmlIffBrackets(value: string)
    ensures ContainsLikelyHtml(value) <==> '<' in value && '>' in value
  {
    if '<' in value {
      var i :| 0 <= i < |value| && value[i] == '<';
      assert !IsWhiteSpace(value[i]);
    }
  }

  /** The plain-text body path: encode, then every line ending becomes a break. */
  function EscapeBody(body: string): (r: string)
    ensures '\n' !in r
    ensures r == EscapeLines(body)
  {
    var encoded := HtmlEncode(body);
    ReplaceRemovesChar(Replace(encoded, "\r\n", LineBreak), '\n', LineBreak);
    EscapeByReplace(body);
    Replace(Replace(encoded, "\r\n", LineBreak), "\n", LineBreak)
  }

  /** The escaped body read character by character: "\r\n" and a lone "\n"
      each become one break, a lone "\r" is kept, and every other character
      is HTML-encoded. */
  function EscapeLines(s: string): string
    decreases |s|
  {
    if |s| == 0 then ""
    else if |s| >= 2 && s[0] == '\r' && s[1] == '\n' then LineBreak + EscapeLines(s[2..])
    else if s[0] == '\n' then LineBreak + EscapeLines(s[1..])
    else EncodeChar(s[0]) + EscapeLines(s[1..])
  }

  lemma EncodeCharFacts(c: char)
    ensures |EncodeChar(c)| >= 1 && '<' !in EncodeChar(c)
    ensures '\r' in EncodeChar(c) <==> c == '\r'
    ensures '\n' in EncodeChar(c) <==> c == '\n'
    ensures EncodeChar(c)[0] == '\n' ==> c == '\n'
  {
  }

  /** The two `Replace` passes of the plain-text body path. */
  function EscapePasses(s: string): string {
    Replace(Replace(HtmlEncode(s), "\r\n", LineBreak), "\n", LineBreak)
  }

  lemma EscapePassesCrLf(s: string)
    requires |s| >= 2 && s[0] == '\r' && s[1] == '\n'
    ensures EscapePasses(s) == LineBreak + EscapePasses(s[2..])
  {
    var tail := s[2..];
    assert s[1..][1..] == tail;
    var et := HtmlEncode(tail);
    assert HtmlEncode(s[1..]) == "\n" + et;
    assert HtmlEncode(s) == "\r" + ("\n" + et);
    assert "\r" + ("\n" + et) == "\r\n" + et;
    ReplaceAtPattern("\r\n", et, LineBreak);
    ReplaceSkip(LineBreak, Replace(HtmlEncode(tail), "\r\n", LineBreak), "\n", LineBreak);
  }

  lemma EscapePassesLf(s: string)
    requires |s| > 0 && s[0] == '\n'
    ensures EscapePasses(s) == LineBreak + EscapePasses(s[1..])
  {
    var rest := s[1..];
    assert HtmlEncode(s) == "\n" + HtmlEncode(rest);
    ReplaceSkip("\n", HtmlEncode(rest), "\r\n", LineBreak);
    ReplaceAtPattern("\n", Replace(HtmlEncode(rest), "\r\n", LineBreak), LineBreak);
  }

  lemma EscapePassesLoneCr(s: string)
    requires |s| > 0 && s[0] == '\r' && !(|s| >= 2 && s[1] == '\n')
    ensures EscapePasses(s) == "\r" + EscapePasses(s[1..])
  {
    var rest := s[1..];
    var e := HtmlEncode(s);
    assert e == "\r" + HtmlEncode(rest);
    if |rest| > 0 {
      EncodeCharFacts(rest[0]);
      assert e[1] == EncodeChar(rest[0])[0];
    }
    ReplaceNoMatchHere(e, "\r\n", LineBreak);
    assert e[1..] == HtmlEncode(rest);
    ReplaceSkip("\r", Replace(HtmlEncode(rest), "\r\n", LineBreak), "\n", LineBreak);
  }

  lemma EscapePassesOther(s: string)
    requires |s| > 0 && s[0] != '\r' && s[0] != '\n'
    ensures EscapePasses(s) == EncodeChar(s[0]) + EscapePasses(s[1..])
  {
    var rest := s[1..];
    EncodeCharFacts(s[0]);
    ReplaceSkip(EncodeChar(s[0]), HtmlEncode(rest), "\r\n", LineBreak);
    ReplaceSkip(EncodeChar(s[0]), Replace(HtmlEncode(rest), "\r\n", LineBreak), "\n", LineBreak);
  }

  /** The two `Replace` passes over the encoded body give `EscapeLines`. */
  lemma {:induction false} EscapeByReplace(s: string)
    ensures EscapePasses(s) == EscapeLines(s)
    decreases |s|
  {
    if |s| > 0 {
      if |s| >= 2 && s[0] == '\r' && s[1] == '\n' {
        EscapePassesCrLf(s);
        EscapeByReplace(s[2..]);
      } else {
        if s[0] == '\n' {
          EscapePassesLf(s);
        } else if s[0] == '\r' {
          EscapePassesLoneCr(s);
        } else {
          EscapePassesOther(s);
        }
        EscapeByReplace(s[1..]);
      }
    }
  }

  /** The escaped body loses only the difference between "\r\n" and "\n":
      turning each break back into a line feed and decoding gives the body
      with its "\r\n" endings unified to "\n". */
  lemma {:induction false} EscapeLinesRoundTrip(s: string)
    ensures HtmlDecode(Replace(EscapeLines(s), LineBreak, "\n")) == Replace(s, "\r\n", "\n")
    decreases |s|
  {
    if |s| > 0 {
      var rest := s[1..];
      if |s| >= 2 && s[0] == '\r' && s[1] == '\n' {
        var tail := s[2..];
        ReplaceAtPattern(LineBreak, EscapeLines(tail), "\n");
        DecodeAfterEntity("\n", '\n', Replace(EscapeLines(tail), LineBreak, "\n"));
        assert s == "\r\n" + tail;
        ReplaceAtPattern("\r\n", tail, "\n");
        EscapeLinesRoundTrip(tail);
      } else if s[0] == '\n' {
        ReplaceAtPattern(LineBreak, EscapeLines(rest), "\n");
        DecodeAfterEntity("\n", '\n', Replace(EscapeLines(rest), LineBreak, "\n"));
        assert s == "\n" + rest;
        ReplaceSkip("\n", rest, "\r\n", "\n");
        EscapeLinesRoundTrip(rest);
      } else {
        EncodeCharFacts(s[0]);
        ReplaceSkip(EncodeChar(s[0]), EscapeLines(rest), LineBreak, "\n");
        DecodeAfterEntity(EncodeChar(s[0]), s[0], Replace(EscapeLines(rest), LineBreak, "\n"));
        ReplaceNoMatchHere(s, "\r\n", "\n");
        EscapeLinesRoundTrip(rest);
      }
    }
  }

  /** The escaped plain body gives back its text, line endings unified. */
  lemma EscapeBodyRoundTrip(body: string)
    ensures HtmlDecode(Replace(EscapeBody(body), LineBreak, "\n")) == Replace(body, "\r\n", "\n")
  {
    EscapeLinesRoundTrip(body);
  }

  /** `ContainsBlockLevelHtml`. */
  predicate ContainsBlockLevelHtml(value: string) {
    !IsBlank(value) && exists k :: 0 <= k < |BlockLevelTags| && ContainsIgnoreCase(value, BlockLevelTags[k])
  }

  /** Text around block-level HTML does not hide it: whatever is put before
      or after, the tag is still found and the value is still not blank. */
  lemma BlockLevelSurvivesExtension(value: string, before: string, after: string)
    requires ContainsBlockLevelHtml(value)
    ensures ContainsBlockLevelHtml(before + value + after)
  {
    var k :| 0 <= k < |BlockLevelTags| && ContainsIgnoreCase(value, BlockLevelTags[k]);
    var tag := BlockLevelTags[k];
    var i :| 0 <= i <= |value| && OccursAt(value, tag, i);
    var j :| 0 <= j < |value| && !IsWhiteSpace(value[j]);
    var s := before + value + after;
    assert s[|before| + i..|before| + i + |tag|] == value[i..i + |tag|];
    assert OccursAt(s, tag, |before| + i);
    assert s[|before| + j] == value[j];
  }

  /** Every block-level tag starts with '<', so text without '<' is never
      taken for block-level HTML. */
  lemma NoAngleBracketNotBlockLevel(value: string)
    requires forall i :: 0 <= i < |value| ==> value[i] != '<'
    ensures !ContainsBlockLevelHtml(value)
  {
    forall k, i | 0 <= k < |BlockLevelTags| && 0 <= i <= |value|
      ensures !OccursAt(value, BlockLevelTags[k], i)
    {
      assert BlockLevelTags[k][0] == '<';
    }
  }

  /** `NormalizeSignatureContent`: block-level HTML is kept verbatim; any other
      signature has each of "\r\n", "\r" and "\n" turned into one break. */
  function NormalizeSignatureContent(signature: string): (r: string)
    ensures signature == "" ==> r == ""
    ensures ContainsBlockLevelHtml(signature) ==> r == signature
    ensures !ContainsBlockLevelHtml(signature) ==> '\r' !in r && '\n' !in r
    ensures signature != "" && !ContainsBlockLevelHtml(signature) ==> r == BreakLines(signature)
  {
    if signature == "" then ""
    else if ContainsBlockLevelHtml(signature) then signature
    else
      var unified := Replace(Replace(signature, "\r\n", "\n"), "\r", "\n");
      ReplaceRemovesChar(Replace(signature, "\r\n", "\n"), '\r', "\n");
      ReplaceKeepsAbsent(unified, "\n", LineBreak, '\r');
      ReplaceRemovesChar(unified, '\n', LineBreak);
      BreakLinesByReplace(signature);
      Replace(unified, "\n", LineBreak)
  }

  /** A plain signature read character by character: "\r\n", a lone "\r"
      and a lone "\n" each become one break; everything else is kept. */
  function BreakLines(s: string): string
    decreases |s|
  {
    if |s| == 0 then ""
    else if |s| >= 2 && s[0] == '\r' && s[1] == '\n' then LineBreak + BreakLines(s[2..])
    else if s[0] == '\r' || s[0] == '\n' then LineBreak + BreakLines(s[1..])
    else [s[0]] + BreakLines(s[1..])
  }

  /** The three `Replace` passes over a plain signature give `BreakLines`. */
  lemma {:induction false} BreakLinesByReplace(s: string)
    ensures Replace(Replace(Replace(s, "\r\n", "\n"), "\r", "\n"), "\n", LineBreak) == BreakLines(s)
    decreases |s|
  {
    if |s| > 0 {
      var rest := s[1..];
      if |s| >= 2 && s[0] == '\r' && s[1] == '\n' {
        var tail := s[2..];
        assert s == "\r\n" + tail;
        ReplaceAtPattern("\r\n", tail, "\n");
        var u1 := Replace(tail, "\r\n", "\n");
        ReplaceSkip("\n", u1, "\r", "\n");
        ReplaceAtPattern("\n", Replace(u1, "\r", "\n"), LineBreak);
        BreakLinesByReplace(tail);
      } else {
        var u1 := Replace(rest, "\r\n", "\n");
        if s[0] == '\r' {
          ReplaceNoMatchHere(s, "\r\n", "\n");
          ReplaceAtPattern("\r", u1, "\n");
          ReplaceAtPattern("\n", Replace(u1, "\r", "\n"), LineBreak);
        } else if s[0] == '\n' {
          assert s == "\n" + rest;
          ReplaceSkip("\n", rest, "\r\n", "\n");
          ReplaceSkip("\n", u1, "\r", "\n");
          ReplaceAtPattern("\n", Replace(u1, "\r", "\n"), LineBreak);
        } else {
          assert s == [s[0]] + rest;
          ReplaceSkip([s[0]], rest, "\r\n", "\n");
          ReplaceSkip([s[0]], u1, "\r", "\n");
          ReplaceSkip([s[0]], Replace(u1, "\r", "\n"), "\n", LineBreak);
        }
        BreakLinesByReplace(rest);
      }
    }
  }

  /** A line ending as the signature box may hold it. */
  predicate IsLineEnding(sep: string) {
    sep == "\r\n" || sep == "\r" || sep == "\n"
  }

  predicate PlainLine(line: string) {
    '\r' !in line && '\n' !in line
  }

  /** `lines[0] + seps[0] + lines[1] + ... + lines[n]`. */
  function JoinLines(lines: seq<string>, seps: seq<string>): string
    requires |lines| == |seps| + 1
    decreases |seps|
  {
    if |seps| == 0 then lines[0] else lines[0] + seps[0] + JoinLines(lines[1..], seps[1..])
  }

  /** The lines joined by breaks. */
  function JoinWithBreaks(lines: seq<string>): string
    requires |lines| > 0
    decreases |lines|
  {
    if |lines| == 1 then lines[0] else lines[0] + LineBreak + JoinWithBreaks(lines[1..])
  }

  /** The joined text reads back as these lines: a "\r" ending is not
      followed by an empty line and then a "\n" ending, which together would
      read as one "\r\n". */
  predicate Unambiguous(lines: seq<string>, seps: seq<string>)
    requires |lines| == |seps| + 1
  {
    forall i :: 0 <= i < |seps| - 1 && seps[i] == "\r" && lines[i + 1] == "" ==> seps[i + 1] != "\n"
  }

  predicate WellJoined(lines: seq<string>, seps: seq<string>) {
    && |lines| == |seps| + 1
    && (forall i :: 0 <= i < |lines| ==> PlainLine(lines[i]))
    && (forall i :: 0 <= i < |seps| ==> IsLineEnding(seps[i]))
    && Unambiguous(lines, seps)
  }

  lemma {:induction false} BreakLinesPlain(line: string, rest: string)
    requires PlainLine(line)
    ensures BreakLines(line + rest) == line + BreakLines(rest)
    decreases |line|
  {
    if |line| > 0 {
      var s := line + rest;
      assert s[0] == line[0];
      assert s[1..] == line[1..] + rest;
      BreakLinesPlain(line[1..], rest);
      assert [line[0]] + line[1..] == line;
    } else {
      assert line + rest == rest;
    }
  }

  /** A joined text starts with a line feed only when its first line is
      empty and its first ending is "\n". */
  lemma JoinFirst(lines: seq<string>, seps: seq<string>)
    requires WellJoined(lines, seps)
    ensures var j := JoinLines(lines, seps);
            |j| > 0 && j[0] == '\n' ==> lines[0] == "" && |seps| > 0 && seps[0] == "\n"
  {
    var j := JoinLines(lines, seps);
    if |lines[0]| > 0 {
      assert PlainLine(lines[0]);
      if |seps| > 0 {
        assert j[0] == lines[0][0];
      }
    } else if |seps| > 0 {
      assert IsLineEnding(seps[0]);
      assert j == seps[0] + JoinLines(lines[1..], seps[1..]);
    }
  }

  lemma WellJoinedTail(lines: seq<string>, seps: seq<string>)
    requires WellJoined(lines, seps) && |seps| > 0
    ensures WellJoined(lines[1..], seps[1..])
  {
    var ls, ss := lines[1..], seps[1..];
    forall i | 0 <= i < |ss| - 1 && ss[i] == "\r" && ls[i + 1] == ""
      ensures ss[i + 1] != "\n"
    {
      assert seps[i + 1] == "\r" && lines[i + 2] == "";
    }
  }

  /** Lines free of CR and LF, joined by any mix of "\r\n", "\r" and "\n",
      come out joined by breaks. */
  lemma {:induction false} BreakLinesJoin(lines: seq<string>, seps: seq<string>)
    requires WellJoined(lines, seps)
    ensures BreakLines(JoinLines(lines, seps)) == JoinWithBreaks(lines)
    decreases |seps|
  {
    assert PlainLine(lines[0]);
    if |seps| == 0 {
      BreakLinesPlain(lines[0], "");
      assert lines[0] + "" == lines[0];
    } else {
      WellJoinedTail(lines, seps);
      var tail := JoinLines(lines[1..], seps[1..]);
      var s := seps[0] + tail;
      assert JoinLines(lines, seps) == lines[0] + s;
      BreakLinesPlain(lines[0], s);
      assert IsLineEnding(seps[0]);
      if seps[0] == "\r\n" {
        assert s[2..] == tail;
      } else {
        assert s[1..] == tail;
        if seps[0] == "\r" && |tail| > 0 {
          JoinFirst(lines[1..], seps[1..]);
          assert s[1] == tail[0];
        }
      }
      assert BreakLines(s) == LineBreak + BreakLines(tail);
      BreakLinesJoin(lines[1..], seps[1..]);
    }
  }

  /** A plain signature written as lines comes out as those lines joined by breaks. */
  lemma NormalizeJoinedLines(lines: seq<string>, seps: seq<string>)
    requires WellJoined(lines, seps)
    requires !ContainsBlockLevelHtml(JoinLines(lines, seps))
    ensures NormalizeSignatureContent(JoinLines(lines, seps)) == JoinWithBreaks(lines)
  {
    BreakLinesJoin(lines, seps);
    if JoinLines(lines, seps) == "" {
      assert |seps| == 0;
    }
  }

  /** `BuildHtmlBody`: the body (verbatim when it looks like HTML, escaped
      otherwise), two breaks, then the normalised signature. */
  function BuildHtmlBody(body: string, signature: string): (r: string)
    ensures ContainsLikelyHtml(body) ==> r == body + Separator + NormalizeSignatureContent(signature)
    ensures !ContainsLikelyHtml(body) ==> r == EscapeBody(body) + Separator + NormalizeSignatureContent(signature)
  {
    var bodyContent := if ContainsLikelyHtml(body) then body else EscapeBody(body);
    bodyContent + Separator + NormalizeSignatureContent(signature)
  }

  /** What a reader of the composed body gets back: an HTML body verbatim; a
      plain body's text, line endings unified, from the part before the two
      breaks; then the signature, verbatim when block-level and otherwise
      with every line ending a break. */
  lemma BuildHtmlBodyReadsBack(body: string, signature: string)
    ensures var r := BuildHtmlBody(body, signature);
            var k := if ContainsLikelyHtml(body) then |body| else |EscapeLines(body)|;
            && k + |Separator| <= |r|
            && r[k..k + |Separator|] == Separator
            && (ContainsLikelyHtml(body) ==> r[..k] == body)
            && (!ContainsLikelyHtml(body) ==>
                  '\n' !in r[..k] && HtmlDecode(Replace(r[..k], LineBreak, "\n")) == Replace(body, "\r\n", "\n"))
            && (ContainsBlockLevelHtml(signature) ==> r[k + |Separator|..] == signature)
            && (!ContainsBlockLevelHtml(signature) ==>
                  '\r' !in r[k + |Separator|..] && '\n' !in r[k + |Separator|..]
                  && (signature != "" ==> r[k + |Separator|..] == BreakLines(signature)))
  {
    var r := BuildHtmlBody(body, signature);
    var head := if ContainsLikelyHtml(body) then body else EscapeBody(body);
    var sig := NormalizeSignatureContent(signature);
    assert r == head + Separator + sig;
    assert r[..|head|] == head;
    assert r[|head|..|head| + |Separator|] == Separator;
    assert r[|head| + |Separator|..] == sig;
    if !ContainsLikelyHtml(body) {
      EscapeBodyRoundTrip(body);
    }
  }

  /** The tag `AddInlineImage` inserts for an inline attachment. */
  function ImageTag(contentId: string, name: string): string {
    "<img src=\"cid:" + contentId + "\" alt=\"" + name + "\" />"
  }

  /** `AddInlineImage`'s signature rule: a non-blank signature loses its
      trailing whitespace, gains a break unless it already ends with one
      (ignoring case), then a new line; the image tag follows. */
  function AppendInlineImage(signature: string, contentId: string, name: string): (r: string)
    ensures var tag := ImageTag(contentId, name);
            && |r| >= |tag| && r[|r| - |tag|..] == tag
            && (IsBlank(signature) ==> r == signature + tag)
            && (!IsBlank(signature) ==>
                  var head := r[..|r| - |tag|];
                  var kept := TrimEnd(signature);
                  && |head| >= |kept| + |NewLine|
                  && head[..|kept|] == kept
                  && head[|head| - |NewLine|..] == NewLine
                  && EndsWithIgnoreCase(head[..|head| - |NewLine|], LineBreak)
                  && (EndsWithIgnoreCase(kept, LineBreak) <==> |head| == |kept| + |NewLine|)
                  && (EndsWithIgnoreCase(kept, LineBreak) ==> head == kept + NewLine)
                  && (!EndsWithIgnoreCase(kept, LineBreak) ==> head == kept + LineBreak + NewLine))
  {
    var tag := ImageTag(contentId, name);
    if IsBlank(signature) then signature + tag
    else
      var kept := TrimEnd(signature);
      var withBreak := if EndsWithIgnoreCase(kept, LineBreak) then kept else kept + LineBreak;
      assert withBreak[|withBreak| - |LineBreak|..] == LineBreak || EndsWithIgnoreCase(kept, LineBreak);
      assert (withBreak + NewLine)[..|withBreak|] == withBreak;
      assert (withBreak + NewLine + tag)[..|withBreak + NewLine|] == withBreak + NewLine;
      withBreak + NewLine + tag
  }
}

=== FILE: Ledger.dfy ===
/** The contact ledger (`ContactRepository`): the `Contacts` table as a map
    from the trimmed email (compared exactly, so case matters) to the row's
    other columns. Timestamps are UTC ticks; the ISO-8601 text the table
    stores is read back as the same instant, so it is kept as the instant. */
module Ledger {
  import opened Wrappers
  import opened Text
  import Contacts

  /** One row of the table; a NULL column is `None`. */
  datatype Row = Row(company: Option<string>, pointPerson: Option<string>, lastEmailSent: Option<int>)

  type Table = map<string, Row>

  /** The `InvalidOperationException` thrown for a record without an email. */
  datatype UpsertError = EmailRequired

  /** The table after the call (the old one when the transaction did not
      commit) and what the call returned or threw. */
  datatype UpsertOutcome = UpsertOutcome(table: Table, result: Result<nat, UpsertError>)

  /** A blank text parameter is bound as NULL. */
  function NullIfBlank(s: string): (r: Option<string>)
    ensures r.None? <==> IsBlank(s)
    ensures r.Some? ==> r.value == s
  {
    if IsBlank(s) then None else Some(s)
  }

  /** The key a record is stored under. */
  function Key(c: Contacts.ContactRecord): string {
    Trim(c.email)
  }

  predicate HasEmail(c: Contacts.ContactRecord) {
    !IsBlank(c.email)
  }

  /** The parameters one execution of the upsert statement binds: the
      trimmed email, NULL for a blank company or person, and the timestamp. */
  datatype Binding = Binding(email: string, company: Option<string>, pointPerson: Option<string>, lastEmail: Option<int>)

  function Bind(c: Contacts.ContactRecord): (b: Binding)
    ensures b.email == Key(c) && b.lastEmail == c.lastEmailSentUtc
    ensures b.company == NullIfBlank(c.company) && b.pointPerson == NullIfBlank(c.pointPerson)
  {
    Binding(Key(c), NullIfBlank(c.company), NullIfBlank(c.pointPerson), c.lastEmailSentUtc)
  }

  function BindAll(cs: seq<Contacts.ContactRecord>): (bs: seq<Binding>)
    ensures |bs| == |cs| && forall i :: 0 <= i < |cs| ==> bs[i] == Bind(cs[i])
  {
    seq(|cs|, i requires 0 <= i < |cs| => Bind(cs[i]))
  }

  /** The keys a batch writes. */
  function KeysOf(bs: seq<Binding>): set<string> {
    set i | 0 <= i < |bs| :: bs[i].email
  }

  /** The keys of a batch are those of all but its last binding, plus the last one's. */
  lemma KeysOfSnoc(bs: seq<Binding>)
    requires |bs| > 0
    ensures KeysOf(bs) == KeysOf(bs[..|bs| - 1]) + {bs[|bs| - 1].email}
  {
    var n := |bs| - 1;
    assert forall i :: 0 <= i < n ==> bs[..n][i] == bs[i];
  }

  /** One execution of the `INSERT ... ON CONFLICT(Email) DO UPDATE` statement:
      a new key gets the bound company, person and timestamp; an existing
      key gets only company and person overwritten. */
  function UpsertOne(t: Table, b: Binding): (r: Table)
    ensures r.Keys == t.Keys + {b.email}
    ensures forall k :: k in t && k != b.email ==> r[k] == t[k]
    ensures r[b.email].company == b.company && r[b.email].pointPerson == b.pointPerson
    ensures r[b.email].lastEmailSent == if b.email in t then t[b.email].lastEmailSent else b.lastEmail
  {
    var k := b.email;
    if k in t then t[k := t[k].(company := b.company, pointPerson := b.pointPerson)]
    else t[k := Row(b.company, b.pointPerson, b.lastEmail)]
  }

  /** The statements of one transaction, in batch order. Keys the batch
      does not write are untouched. */
  function ApplyAll(t: Table, bs: seq<Binding>): Table
    decreases |bs|
  {
    if |bs| == 0 then t
    else
      var n := |bs| - 1;
      UpsertOne(ApplyAll(t, bs[..n]), bs[n])
  }

  /** A batch adds exactly its keys and leaves the rows of other keys alone. */
  lemma {:induction false} ApplyAllKeys(t: Table, bs: seq<Binding>)
    ensures ApplyAll(t, bs).Keys == t.Keys + KeysOf(bs)
    ensures forall k :: k in t && k !in KeysOf(bs) ==> ApplyAll(t, bs)[k] == t[k]
    decreases |bs|
  {
    if |bs| > 0 {
      var n := |bs| - 1;
      var prefix := bs[..n];
      var prev := ApplyAll(t, prefix);
      var r := UpsertOne(prev, bs[n]);
      assert ApplyAll(t, bs) == r;
      assert prev.Keys == t.Keys + KeysOf(prefix) by { ApplyAllKeys(t, prefix); }
      assert forall k :: k in t && k !in KeysOf(prefix) ==> prev[k] == t[k] by { ApplyAllKeys(t, prefix); }
      assert KeysOf(bs) == KeysOf(prefix) + {bs[n].email} by { KeysOfSnoc(bs); }
      forall k | k in t && k !in KeysOf(bs)
        ensures r[k] == t[k]
      {
        assert k != bs[n].email && k !in KeysOf(prefix);
      }
    }
  }

  /** Company and person of a key come from the last binding of the batch with that key. */
  lemma {:induction false} ApplyAllLastBindingWins(t: Table, bs: seq<Binding>, i: nat)
    requires i < |bs| && forall j :: i < j < |bs| ==> bs[j].email != bs[i].email
    ensures bs[i].email in ApplyAll(t, bs)
    ensures ApplyAll(t, bs)[bs[i].email].company == bs[i].company
    ensures ApplyAll(t, bs)[bs[i].email].pointPerson == bs[i].pointPerson
    decreases |bs|
  {
    var n := |bs| - 1;
    var prefix := bs[..n];
    var prev := ApplyAll(t, prefix);
    var k := bs[i].email;
    var r := UpsertOne(prev, bs[n]);
    assert ApplyAll(t, bs) == r;
    if i < n {
      assert prefix[i] == bs[i];
      assert k in prev && prev[k].company == bs[i].company && prev[k].pointPerson == bs[i].pointPerson by {
        assert forall j :: i < j < n ==> prefix[j] == bs[j];
        ApplyAllLastBindingWins(t, prefix, i);
      }
      assert bs[n].email != k;
      assert r[k] == prev[k];
    }
  }

  /** A stored timestamp survives any batch. */
  lemma {:induction false} ApplyAllKeepsTimestamp(t: Table, bs: seq<Binding>, k: string)
    requires k in t
    ensures k in ApplyAll(t, bs)
    ensures ApplyAll(t, bs)[k].lastEmailSent == t[k].lastEmailSent
    decreases |bs|
  {
    if |bs| > 0 {
      ApplyAllKeepsTimestamp(t, bs[..|bs| - 1], k);
    }
  }

  /** A key new to the table takes the timestamp of the first binding with that key. */
  lemma {:induction false} ApplyAllFirstBindingTimestamp(t: Table, bs: seq<Binding>, i: nat)
    requires i < |bs| && bs[i].email !in t
    requires forall j :: 0 <= j < i ==> bs[j].email != bs[i].email
    ensures bs[i].email in ApplyAll(t, bs)
    ensures ApplyAll(t, bs)[bs[i].email].lastEmailSent == bs[i].lastEmail
    decreases |bs|
  {
    var n := |bs| - 1;
    var prefix := bs[..n];
    var prev := ApplyAll(t, prefix);
    assert ApplyAll(t, bs) == UpsertOne(prev, bs[n]);
    if i < n {
      assert prefix[i] == bs[i];
      ApplyAllFirstBindingTimestamp(t, prefix, i);
    } else {
      assert bs[n].email !in KeysOf(prefix) by {
        assert forall j :: 0 <= j < n ==> prefix[j].email != bs[n].email;
      }
      assert bs[n].email !in prev by { ApplyAllKeys(t, prefix); }
    }
  }

  /** `UpsertContacts`: `None` is a null batch. A record with a blank email
      anywhere aborts the transaction, so nothing of the batch is kept. */
  function UpsertContacts(t: Table, contacts: Option<seq<Contacts.ContactRecord>>): (r: UpsertOutcome)
    ensures contacts.None? ==> r == UpsertOutcome(t, Success(0))
    ensures contacts.Some? && (exists i :: 0 <= i < |contacts.value| && !HasEmail(contacts.value[i])) ==>
              r == UpsertOutcome(t, Failure(EmailRequired))
    ensures contacts.Some? && (forall i :: 0 <= i < |contacts.value| ==> HasEmail(contacts.value[i])) ==>
              r.result == Success(|contacts.value|) && r.table.Keys == t.Keys + KeysOf(BindAll(contacts.value))
    ensures contacts.Some? && (forall i :: 0 <= i < |contacts.value| ==> HasEmail(contacts.value[i])) ==>
              forall k :: k in t && k !in KeysOf(BindAll(contacts.value)) ==> r.table[k] == t[k]
  {
    if contacts.None? then UpsertOutcome(t, Success(0))
    else if exists i :: 0 <= i < |contacts.value| && !HasEmail(contacts.value[i]) then
      UpsertOutcome(t, Failure(EmailRequired))
    else
      ApplyAllKeys(t, BindAll(contacts.value));
      UpsertOutcome(ApplyAll(t, BindAll(contacts.value)), Success(|contacts.value|))
  }

  /** `UpdateLastEmailSent`: a blank email changes nothing; a known key gets
      only its timestamp replaced; an unknown key is inserted with NULL
      company and person. */
  function UpdateLastEmailSent(t: Table, email: string, timestampUtc: int): (r: Table)
    ensures IsBlank(email) ==> r == t
    ensures !IsBlank(email) ==>
              var k := Trim(email);
              && r.Keys == t.Keys + {k}
              && r[k].lastEmailSent == Some(timestampUtc)
              && (k in t ==> r[k].company == t[k].company && r[k].pointPerson == t[k].pointPerson)
              && (k !in t ==> r[k].company.None? && r[k].pointPerson.None?)
              && (forall k' :: k' in t && k' != k ==> r[k'] == t[k'])
  {
    if IsBlank(email) then t
    else
      var k := Trim(email);
      if k in t then t[k := t[k].(lastEmailSent := Some(timestampUtc))]
      else t[k := Row(None, None, Some(timestampUtc))]
  }

  /** Ordinal order of strings, shorter prefix first (SQLite's `memcmp`). */
  predicate LexLe(a: string, b: string)
    decreases |a|
  {
    |a| == 0 || (|b| > 0 && (a[0] < b[0] || (a[0] == b[0] && LexLe(a[1..], b[1..]))))
  }

  lemma {:induction false} LexLeTotal(a: string, b: string)
    ensures LexLe(a, b) || LexLe(b, a)
    decreases |a|
  {
    if |a| > 0 && |b| > 0 && a[0] == b[0] {
      LexLeTotal(a[1..], b[1..]);
    }
  }

  lemma {:induction false} LexLeTransitive(a: string, b: string, c: string)
    requires LexLe(a, b) && LexLe(b, c)
    ensures LexLe(a, c)
    decreases |a|
  {
    if |a| > 0 && a[0] == b[0] && b[0] == c[0] {
      LexLeTransitive(a[1..], b[1..], c[1..]);
    }
  }

  /** `ORDER BY Company COLLATE NOCASE`: NULL first, then ASCII-folded ordinal order. */
  predicate CompanyLe(x: Option<string>, y: Option<string>) {
    x.None? || (y.Some? && LexLe(Fold(x.value), Fold(y.value)))
  }

  lemma CompanyLeTotal(x: Option<string>, y: Option<string>)
    ensures CompanyLe(x, y) || CompanyLe(y, x)
  {
    if x.Some? && y.Some? {
      LexLeTotal(Fold(x.value), Fold(y.value));
    }
  }

  lemma CompanyLeTransitive(x: Option<string>, y: Option<string>, z: Option<string>)
    requires CompanyLe(x, y) && CompanyLe(y, z)
    ensures CompanyLe(x, z)
  {
    if x.Some? {
      LexLeTransitive(Fold(x.value), Fold(y.value), Fold(z.value));
    }
  }

  /** Keys listed in company order. */
  predicate SortedByCompany(t: Table, ks: seq<string>)
    requires forall i :: 0 <= i < |ks| ==> ks[i] in t
  {
    forall i, j :: 0 <= i < j < |ks| ==> CompanyLe(t[ks[i]].company, t[ks[j]].company)
  }

  /** Inserts one more key before the first key of a later company. */
  function InsertByCompany(t: Table, ks: seq<string>, k: string): (r: seq<string>)
    requires k in t && forall i :: 0 <= i < |ks| ==> ks[i] in t
    requires SortedByCompany(t, ks)
    ensures |r| == |ks| + 1
    ensures forall x :: x in r <==> x in ks || x == k
    ensures forall i :: 0 <= i < |r| ==> r[i] in t
    ensures SortedByCompany(t, r)
    decreases |ks|
  {
    if |ks| == 0 then [k]
    else if CompanyLe(t[k].company, t[ks[0]].company) then
      forall j | 0 <= j < |ks| ensures CompanyLe(t[k].company, t[ks[j]].company) {
        if j > 0 {
          CompanyLeTransitive(t[k].company, t[ks[0]].company, t[ks[j]].company);
        }
      }
      [k] + ks
    else
      CompanyLeTotal(t[k].company, t[ks[0]].company);
      var rest := InsertByCompany(t, ks[1..], k);
      assert forall x :: x in ks[1..] ==> x in ks;
      forall j | 0 <= j < |rest| ensures CompanyLe(t[ks[0]].company, t[rest[j]].company) {
        assert rest[j] in rest;
        if rest[j] != k {
          var m :| 0 <= m < |ks[1..]| && ks[1..][m] == rest[j];
          assert ks[m + 1] == rest[j];
        }
      }
      [ks[0]] + rest
  }

  /** How `GetContacts` reads a row: NULL text becomes empty. */
  function ToRecord(email: string, row: Row): (c: Contacts.ContactRecord)
    ensures c.email == email && c.lastEmailSentUtc == row.lastEmailSent
    ensures c.company == row.company.GetOr("") && c.pointPerson == row.pointPerson.GetOr("")
  {
    Contacts.ContactRecord(row.company.GetOr(""), row.pointPerson.GetOr(""), email, row.lastEmailSent)
  }

  /** `GetContacts`: one record per stored email, in company order. Rows
      whose companies compare equal may come in any order. */
  method GetContacts(t: Table) returns (r: seq<Contacts.ContactRecord>)
    ensures |r| == |t|
    ensures forall i :: 0 <= i < |r| ==> r[i].email in t && r[i] == ToRecord(r[i].email, t[r[i].email])
    ensures forall k :: k in t ==> exists i :: 0 <= i < |r| && r[i].email == k
    ensures forall i, j :: 0 <= i < j < |r| ==> CompanyLe(t[r[i].email].company, t[r[j].email].company)
  {
    var pending := t.Keys;
    var sorted: seq<string> := [];
    while pending != {}
      invariant pending <= t.Keys
      invariant forall x :: x in sorted ==> x in t && x !in pending
      invariant forall k :: k in t ==> k in pending || k in sorted
      invariant |sorted| + |pending| == |t|
      invariant SortedByCompany(t, sorted)
      decreases |pending|
    {
      var k :| k in pending;
      sorted := InsertByCompany(t, sorted, k);
      pending := pending - {k};
    }
    r := seq(|sorted|, i requires 0 <= i < |sorted| => ToRecord(sorted[i], t[sorted[i]]));
    forall k | k in t
      ensures exists i :: 0 <= i < |r| && r[i].email == k
    {
      var i :| 0 <= i < |sorted| && sorted[i] == k;
      assert r[i].email == k;
    }
  }

  /** A committed batch: company and person of a key come from the last
      record carrying that key, blank values stored as NULL. */
  lemma UpsertLastRecordWins(t: Table, cs: seq<Contacts.ContactRecord>, i: nat)
    requires forall j :: 0 <= j < |cs| ==> HasEmail(cs[j])
    requires i < |cs| && forall j :: i < j < |cs| ==> Key(cs[j]) != Key(cs[i])
    ensures Key(cs[i]) in UpsertContacts(t, Some(cs)).table
    ensures UpsertContacts(t, Some(cs)).table[Key(cs[i])].company == NullIfBlank(cs[i].company)
    ensures UpsertContacts(t, Some(cs)).table[Key(cs[i])].pointPerson == NullIfBlank(cs[i].pointPerson)
  {
    var bs := BindAll(cs);
    assert forall j :: i < j < |bs| ==> bs[j].email != bs[i].email;
    ApplyAllLastBindingWins(t, bs, i);
  }

  /** An import never overwrites a stored last-email timestamp. */
  lemma UpsertKeepsTimestamp(t: Table, cs: Option<seq<Contacts.ContactRecord>>, k: string)
    requires k in t
    ensures k in UpsertContacts(t, cs).table
    ensures UpsertContacts(t, cs).table[k].lastEmailSent == t[k].lastEmailSent
  {
    if cs.Some? && forall j :: 0 <= j < |cs.value| ==> HasEmail(cs.value[j]) {
      ApplyAllKeepsTimestamp(t, BindAll(cs.value), k);
    }
  }

  /** A new key takes its timestamp from the first record carrying it. */
  lemma UpsertFirstRecordTimestamp(t: Table, cs: seq<Contacts.ContactRecord>, i: nat)
    requires forall j :: 0 <= j < |cs| ==> HasEmail(cs[j])
    requires i < |cs| && Key(cs[i]) !in t && forall j :: 0 <= j < i ==> Key(cs[j]) != Key(cs[i])
    ensures Key(cs[i]) in UpsertContacts(t, Some(cs)).table
    ensures UpsertContacts(t, Some(cs)).table[Key(cs[i])].lastEmailSent == cs[i].lastEmailSentUtc
  {
    var bs := BindAll(cs);
    assert forall j :: 0 <= j < i ==> bs[j].email != bs[i].email;
    ApplyAllFirstBindingTimestamp(t, bs, i);
  }

  lemma ApplyAllPair(t: Table, x: Binding, y: Binding)
    ensures ApplyAll(t, [x, y]) == UpsertOne(UpsertOne(t, x), y)
  {
    var bs := [x, y];
    var p := bs[..1];
    assert ApplyAll(t, bs) == UpsertOne(ApplyAll(t, p), y);
    assert p[..0] == [];
    assert ApplyAll(t, p[..0]) == t;
    assert ApplyAll(t, p) == UpsertOne(t, x);
  }

  /** A two-record batch is two upserts in order. */
  lemma UpsertPair(t: Table, a: Contacts.ContactRecord, b: Contacts.ContactRecord)
    requires HasEmail(a) && HasEmail(b)
    ensures UpsertContacts(t, Some([a, b])) == UpsertOutcome(UpsertOne(UpsertOne(t, Bind(a)), Bind(b)), Success(2))
  {
    var cs := [a, b];
    assert !exists i :: 0 <= i < |cs| && !HasEmail(cs[i]);
    assert BindAll(cs) == [Bind(a), Bind(b)];
    ApplyAllPair(t, Bind(a), Bind(b));
  }

  /** Two records whose emails trim to the same text share one row, and
      the later record's company and person win. */
  lemma SameKeyMerges(t: Table, a: Contacts.ContactRecord, b: Contacts.ContactRecord)
    requires HasEmail(a) && HasEmail(b) && Key(a) == Key(b)
    ensures UpsertContacts(t, Some([a, b])).table.Keys == t.Keys + {Key(a)}
    ensures UpsertContacts(t, Some([a, b])).table[Key(a)].company == NullIfBlank(b.company)
    ensures UpsertContacts(t, Some([a, b])).table[Key(a)].pointPerson == NullIfBlank(b.pointPerson)
  {
    UpsertPair(t, a, b);
  }

  /** Two records whose trimmed emails differ (in letter case, say) are two rows. */
  lemma DistinctKeysStayApart(t: Table, a: Contacts.ContactRecord, b: Contacts.ContactRecord)
    requires HasEmail(a) && HasEmail(b) && Key(a) != Key(b)
    ensures UpsertContacts(t, Some([a, b])).table.Keys == t.Keys + {Key(a), Key(b)}
    ensures UpsertContacts(t, Some([a, b])).table[Key(a)].company == NullIfBlank(a.company)
  {
    UpsertPair(t, a, b);
  }

  /** A recorded send is read back by `GetContacts` as the same instant,
      under the trimmed address. */
  method RecordSendThenRead(t: Table, email: string, timestampUtc: int) returns (r: seq<Contacts.ContactRecord>)
    requires !IsBlank(email)
    ensures exists i :: 0 <= i < |r| && r[i].email == Trim(email) && r[i].lastEmailSentUtc == Some(timestampUtc)
  {
    var t' := UpdateLastEmailSent(t, email, timestampUtc);
    r := GetContacts(t');
    var k := Trim(email);
    assert k in t';
    var i :| 0 <= i < |r| && r[i].email == k;
    assert r[i] == ToRecord(k, t'[k]);
  }
}

=== FILE: Mail.dfy ===
/** Message and attachment construction (`EmailService`).

    The service owns one attachment collection that every message it builds
    refers to; it is modelled as the service's state, and a message records
    only that it refers to that collection. `Path.GetFileName`,
    `Path.GetExtension` and `Guid.NewGuid` are replaced by stand-ins: the
    first two by the .NET Framework rules for Windows paths written out below, the third by a
    caller-supplied identifier. */
module Mail {
  import opened Wrappers
  import Str = Text
  import Base64

  datatype BodyType = Text | Html

  datatype ItemBody = ItemBody(contentType: BodyType, content: string)

  /** The service's one shared `MessageAttachmentsCollectionPage`. */
  datatype AttachmentsRef = SharedAttachments

  datatype Message = Message(subject: string, body: ItemBody, toRecipients: seq<string>, attachments: AttachmentsRef)

  datatype FileAttachment = FileAttachment(
    name: string,
    contentBytes: seq<Base64.byte>,
    contentType: string,
    isInline: bool,
    contentId: Option<string>)

  /** The state of one `EmailService`: its attachment collection, in insertion order. */
  datatype EmailService = EmailService(attachments: seq<FileAttachment>)

  /** `ArgumentNullException` and `ArgumentException`, with the parameter they name. */
  datatype ArgumentError = ArgumentNull(paramName: string) | Argument(paramName: string)

  const OctetStream: string := "application/octet-stream"

  /** `KnownMimeTypes`, keyed by the lower-case extension; lookups fold case. */
  const KnownMimeTypes: map<string, string> := map[
    ".jpg" := "image/jpeg", ".jpeg" := "image/jpeg", ".png" := "image/png", ".gif" := "image/gif",
    ".bmp" := "image/bmp", ".tif" := "image/tiff", ".tiff" := "image/tiff"]

  function NewEmailService(): (s: EmailService)
    ensures s.attachments == []
  {
    EmailService([])
  }

  function CreateStandardEmail(recipient: string, header: string, body: string): (m: Message)
    ensures m.subject == header
    ensures m.body == ItemBody(Text, body)
    ensures m.toRecipients == [recipient]
    ensures m.attachments == SharedAttachments
  {
    Message(header, ItemBody(Text, body), [recipient], SharedAttachments)
  }

  function CreateHtmlEmail(recipient: string, header: string, body: string): (m: Message)
    ensures m.subject == header
    ensures m.body == ItemBody(Html, body)
    ensures m.toRecipients == [recipient]
    ensures m.attachments == SharedAttachments
  {
    Message(header, ItemBody(Html, body), [recipient], SharedAttachments)
  }

  /** The two constructors differ only in the body's content type. */
  lemma HtmlEmailDiffersOnlyInBodyType(recipient: string, header: string, body: string)
    ensures CreateHtmlEmail(recipient, header, body)
         == CreateStandardEmail(recipient, header, body).(body := ItemBody(Html, body))
  {
  }

  /** A directory or volume separator; as on .NET Framework, ':' counts anywhere in the path. */
  predicate IsSeparator(c: char) {
    c == '\\' || c == '/' || c == ':'
  }

  /** Index of the last separator in `path[..n]`, or -1. */
  function LastSeparator(path: string, n: nat): (r: int)
    requires n <= |path|
    ensures -1 <= r < n
    ensures r >= 0 ==> IsSeparator(path[r])
    ensures forall i :: r < i < n ==> !IsSeparator(path[i])
  {
    if n == 0 then -1 else if IsSeparator(path[n - 1]) then n - 1 else LastSeparator(path, n - 1)
  }

  /** Stand-in for `Path.GetFileName`: what follows the last separator. */
  function GetFileName(path: string): (r: string)
    ensures |r| <= |path| && r == path[|path| - |r|..]
    ensures forall i :: 0 <= i < |r| ==> !IsSeparator(r[i])
    ensures |r| == |path| || IsSeparator(path[|path| - |r| - 1])
  {
    path[LastSeparator(path, |path|) + 1..]
  }

  /** Index of the last '.' or separator in `path[..n]`, or -1. */
  function LastDotOrSeparator(path: string, n: nat): (r: int)
    requires n <= |path|
    ensures -1 <= r < n
    ensures r >= 0 ==> path[r] == '.' || IsSeparator(path[r])
    ensures forall i :: r < i < n ==> path[i] != '.' && !IsSeparator(path[i])
  {
    if n == 0 then -1
    else if path[n - 1] == '.' || IsSeparator(path[n - 1]) then n - 1
    else LastDotOrSeparator(path, n - 1)
  }

  /** Stand-in for `Path.GetExtension`: from the last '.' of the file name to
      the end, or empty when there is no '.' or it is the last character. */
  function GetExtension(path: string): (r: string)
    ensures r == "" || (2 <= |r| <= |path| && r[0] == '.' && r == path[|path| - |r|..])
    ensures forall i :: 0 < i < |r| ==> r[i] != '.' && !IsSeparator(r[i])
  {
    var k := LastDotOrSeparator(path, |path|);
    if k >= 0 && path[k] == '.' && k < |path| - 1 then path[k..] else ""
  }

  /** A path has no extension exactly when its file name holds no '.' or
      ends with one. */
  lemma NoExtensionIff(path: string)
    ensures var n := GetFileName(path);
            GetExtension(path) == "" <==> (forall i :: 0 <= i < |n| ==> n[i] != '.') || n[|n| - 1] == '.'
  {
    LastDotInFileName(path);
  }

  /** The last '.' or separator is a '.' exactly when the file name holds a '.'. */
  lemma LastDotInFileName(path: string)
    ensures var k := LastDotOrSeparator(path, |path|);
            var n := GetFileName(path);
            (k >= 0 && path[k] == '.') <==> exists i :: 0 <= i < |n| && n[i] == '.'
  {
    var k := LastDotOrSeparator(path, |path|);
    var n := GetFileName(path);
    var start := |path| - |n|;
    if k >= 0 && path[k] == '.' {
      assert start <= k;
      assert n[k - start] == '.';
    }
    if i :| 0 <= i < |n| && n[i] == '.' {
      assert path[start + i] == '.';
      assert start + i <= k;
      assert !IsSeparator(path[k]) by {
        if k < start {
        } else {
          assert path[k] == n[k - start];
        }
      }
    }
  }

  /** `GetMimeType`: the known image type of the extension, ignoring case,
      or the generic binary type. */
  function GetMimeType(filePath: string): (r: string)
    ensures r == OctetStream || r in KnownMimeTypes.Values
    ensures Str.Fold(GetExtension(filePath)) in KnownMimeTypes ==> r == KnownMimeTypes[Str.Fold(GetExtension(filePath))]
    ensures Str.Fold(GetExtension(filePath)) !in KnownMimeTypes ==> r == OctetStream
  {
    var ext := GetExtension(filePath);
    if ext != "" && Str.Fold(ext) in KnownMimeTypes then KnownMimeTypes[Str.Fold(ext)] else OctetStream
  }

  /** Two paths whose extensions agree up to case get the same type. */
  lemma MimeTypeIgnoresCase(p: string, q: string)
    requires Str.EqualsIgnoreCase(GetExtension(p), GetExtension(q))
    ensures GetMimeType(p) == GetMimeType(q)
  {
  }

  /** An upper-case image extension is recognised; an unknown one is not. */
  lemma MimeTypeExamples()
    ensures GetMimeType("C:\\pics\\Logo.PNG") == "image/png"
    ensures GetMimeType("notes.txt") == OctetStream
  {
    assert LastDotOrSeparator("C:\\pics\\Logo.PNG", 16) == 12;
    assert GetExtension("C:\\pics\\Logo.PNG") == ".PNG";
    assert Str.Fold(".PNG") == ".png";
    assert LastDotOrSeparator("notes.txt", 9) == 5;
    assert Str.Fold(".txt") == ".txt";
  }

  /** `EncodeTobase64Bytes`: through base64 text and back. */
  function EncodeTobase64Bytes(rawData: seq<Base64.byte>): (r: seq<Base64.byte>)
    ensures r == rawData
  {
    Base64.DecodeEncode(rawData);
    Base64.Decode(Base64.Encode(rawData)).value
  }

  predicate IsNullOrEmpty(s: Option<string>) {
    s.None? || s.value == ""
  }

  /** `AddAttachment`. `rawData == None` is a null array; a null path is
      treated as blank. `newGuid` is the text of the GUID the runtime would
      generate. On success the new state and the added attachment are returned. */
  function AddAttachment(svc: EmailService, rawData: Option<seq<Base64.byte>>, filePath: string, isInline: bool,
                         contentId: Option<string>, contentType: Option<string>, newGuid: string)
    : (r: Result<(EmailService, FileAttachment), ArgumentError>)
    requires newGuid != ""
    ensures rawData.None? ==> r == Failure(ArgumentNull("rawData"))
    ensures rawData.Some? && Str.IsBlank(filePath) ==> r == Failure(Argument("filePath"))
    ensures rawData.Some? && !Str.IsBlank(filePath) ==> r.Success?
    ensures r.Success? ==>
              var (svc', a) := r.value;
              && svc'.attachments == svc.attachments + [a]
              && a.name == GetFileName(filePath)
              && a.contentBytes == rawData.value
              && a.contentType == (if contentType.Some? then contentType.value else GetMimeType(filePath))
              && a.isInline == isInline
              && (isInline ==> a.contentId.Some? && a.contentId.value != ""
                               && (IsNullOrEmpty(contentId) || a.contentId == contentId))
              && (!isInline ==> a.contentId == if IsNullOrEmpty(contentId) then None else contentId)
  {
    if rawData.None? then Failure(ArgumentNull("rawData"))
    else if Str.IsBlank(filePath) then Failure(Argument("filePath"))
    else
      var id := if isInline then Some(if IsNullOrEmpty(contentId) then newGuid else contentId.value)
                else if IsNullOrEmpty(contentId) then None
                else contentId;
      var a := FileAttachment(GetFileName(filePath), EncodeTobase64Bytes(rawData.value),
                              if contentType.Some? then contentType.value else GetMimeType(filePath),
                              isInline, id);
      Success((EmailService(svc.attachments + [a]), a))
  }

  /** `AddInlineAttachment`: `AddAttachment` with `isInline` set. */
  function AddInlineAttachment(svc: EmailService, rawData: Option<seq<Base64.byte>>, filePath: string,
                               contentId: Option<string>, contentType: Option<string>, newGuid: string)
    : (r: Result<(EmailService, FileAttachment), ArgumentError>)
    requires newGuid != ""
    ensures r.Success? ==> r.value.1.isInline && r.value.1.contentId.Some? && r.value.1.contentId.value != ""
    ensures r.Failure? ==> rawData.None? || Str.IsBlank(filePath)
  {
    AddAttachment(svc, rawData, filePath, true, contentId, contentType, newGuid)
  }

  function ClearAttachments(svc: EmailService): (r: EmailService)
    ensures r.attachments == []
  {
    EmailService([])
  }

  /** A rejected attachment leaves the collection as it was: the caller keeps
      its state, since a failure carries no new one; a successful add grows
      it by exactly one, and clearing afterwards empties it again. */
  lemma AddThenClear(svc: EmailService, rawData: seq<Base64.byte>, filePath: string, isInline: bool,
                     contentId: Option<string>, contentType: Option<string>, newGuid: string)
    requires newGuid != "" && !Str.IsBlank(filePath)
    ensures var r := AddAttachment(svc, Some(rawData), filePath, isInline, contentId, contentType, newGuid);
            && r.Success?
            && |r.value.0.attachments| == |svc.attachments| + 1
            && r.value.0.attachments[..|svc.attachments|] == svc.attachments
            && ClearAttachments(r.value.0).attachments == []
  {
    var r := AddAttachment(svc, Some(rawData), filePath, isInline, contentId, contentType, newGuid);
    assert r.value.0.attachments[..|svc.attachments|] == svc.attachments;
  }
}

=== FILE: Text.dfy ===
/** String helpers standing in for the .NET string library: whitespace as
    `char.IsWhiteSpace` defines it, `Trim`/`TrimEnd`, ordinal ignore-case
    comparison (ASCII folding), `Replace` and decimal formatting of counts. */
module Text {

  /** The characters `char.IsWhiteSpace` accepts (Unicode Zs, Zl, Zp and the
      control characters U+0009..U+000D, U+0085). */
  predicate IsWhiteSpace(c: char) {
    || c == ' ' || ('\t' <= c <= '\r') || c == '\U{85}' || c == '\U{A0}' || c == '\U{1680}'
    || ('\U{2000}' <= c <= '\U{200A}') || c == '\U{2028}' || c == '\U{2029}'
    || c == '\U{202F}' || c == '\U{205F}' || c == '\U{3000}'
  }

  /** `string.IsNullOrWhiteSpace` on a non-null string. */
  predicate IsBlank(s: string) {
    forall i :: 0 <= i < |s| ==> IsWhiteSpace(s[i])
  }

  /** The first position at or after `i` that does not hold whitespace. */
  function SkipWhiteSpace(s: string, i: nat): (j: nat)
    requires i <= |s|
    ensures i <= j <= |s|
    ensures j < |s| ==> !IsWhiteSpace(s[j])
    decreases |s| - i
  {
    if i < |s| && IsWhiteSpace(s[i]) then SkipWhiteSpace(s, i + 1) else i
  }

  /** The end of `s[..j]` once its trailing whitespace is dropped. */
  function BackOverWhiteSpace(s: string, j: nat): (i: nat)
    requires j <= |s|
    ensures i <= j
    ensures i > 0 ==> !IsWhiteSpace(s[i - 1])
  {
    if j > 0 && IsWhiteSpace(s[j - 1]) then BackOverWhiteSpace(s, j - 1) else j
  }

  /** `string.TrimStart()`: drops the longest all-whitespace prefix. */
  function TrimStart(s: string): (r: string)
    ensures |r| <= |s| && r == s[|s| - |r|..]
    ensures |r| > 0 ==> !IsWhiteSpace(r[0])
  {
    s[SkipWhiteSpace(s, 0)..]
  }

  /** `string.TrimEnd()`: drops the longest all-whitespace suffix. */
  function TrimEnd(s: string): (r: string)
    ensures |r| <= |s| && r == s[..|r|]
    ensures |r| > 0 ==> !IsWhiteSpace(r[|r| - 1])
  {
    s[..BackOverWhiteSpace(s, |s|)]
  }

  /** `string.Trim()`. */
  function Trim(s: string): string {
    TrimEnd(TrimStart(s))
  }

  /** Trimming removes nothing from a string that is already trimmed. */
  lemma TrimIdempotent(s: string)
    ensures Trim(Trim(s)) == Trim(s)
  {
    var t := Trim(s);
    if |t| > 0 {
      assert SkipWhiteSpace(t, 0) == 0;
      assert TrimStart(t) == t;
      assert BackOverWhiteSpace(t, |t|) == |t|;
      assert TrimEnd(t) == t;
    }
  }

  /** Everything `SkipWhiteSpace` steps over is whitespace. */
  lemma {:induction false} SkippedAreWhiteSpace(s: string, i: nat)
    requires i <= |s|
    ensures forall k :: i <= k < SkipWhiteSpace(s, i) ==> IsWhiteSpace(s[k])
    decreases |s| - i
  {
    if i < |s| && IsWhiteSpace(s[i]) {
      SkippedAreWhiteSpace(s, i + 1);
    }
  }

  /** Everything `BackOverWhiteSpace` steps over is whitespace. */
  lemma {:induction false} BackedOverAreWhiteSpace(s: string, j: nat)
    requires j <= |s|
    ensures forall k :: BackOverWhiteSpace(s, j) <= k < j ==> IsWhiteSpace(s[k])
  {
    if j > 0 && IsWhiteSpace(s[j - 1]) {
      BackedOverAreWhiteSpace(s, j - 1);
    }
  }

  /** What `TrimStart` drops is whitespace. */
  lemma TrimStartDropsWhiteSpace(s: string)
    ensures forall i :: 0 <= i < |s| - |TrimStart(s)| ==> IsWhiteSpace(s[i])
  {
    SkippedAreWhiteSpace(s, 0);
  }

  /** What `TrimEnd` drops is whitespace. */
  lemma TrimEndDropsWhiteSpace(s: string)
    ensures forall i :: |TrimEnd(s)| <= i < |s| ==> IsWhiteSpace(s[i])
  {
    BackedOverAreWhiteSpace(s, |s|);
  }

  /** A string trims to nothing exactly when it is blank. */
  lemma TrimBlank(s: string)
    ensures Trim(s) == "" <==> IsBlank(s)
  {
    TrimStartDropsWhiteSpace(s);
    TrimEndDropsWhiteSpace(TrimStart(s));
  }

  /** A string with no whitespace at either end trims to itself. */
  lemma TrimKeepsTrimmed(s: string)
    requires |s| > 0 ==> !IsWhiteSpace(s[0]) && !IsWhiteSpace(s[|s| - 1])
    ensures Trim(s) == s
  {
    assert SkipWhiteSpace(s, 0) == 0;
    assert BackOverWhiteSpace(s, |s|) == |s|;
  }

  /** A value padded with a space in front and a tab behind trims back to itself. */
  lemma TrimPadded(e: string)
    requires |e| > 0 && !IsWhiteSpace(e[0]) && !IsWhiteSpace(e[|e| - 1])
    ensures Trim(" " + e + "\t") == e
  {
    var s := " " + e + "\t";
    assert s[1] == e[0];
    assert SkipWhiteSpace(s, 1) == 1;
    assert SkipWhiteSpace(s, 0) == 1;
    var u := TrimStart(s);
    assert u == e + "\t";
    assert u[|u| - 2] == e[|e| - 1];
    assert BackOverWhiteSpace(u, |u| - 1) == |u| - 1;
    assert BackOverWhiteSpace(u, |u|) == |u| - 1;
    assert u[..|u| - 1] == e;
  }

  /** Surrounding whitespace goes, letter case stays. */
  lemma TrimExamples()
    ensures Trim(" ann@contoso.com\t") == "ann@contoso.com"
    ensures Trim("Ann@contoso.com") == "Ann@contoso.com"
  {
    var s := " ann@contoso.com\t";
    assert SkipWhiteSpace(s, 1) == 1;
    var u := TrimStart(s);
    assert u == "ann@contoso.com\t";
    assert BackOverWhiteSpace(u, |u| - 1) == |u| - 1;
    TrimKeepsTrimmed("Ann@contoso.com");
  }

  /** Ordinal ignore-case folding, restricted to ASCII letters. */
  function FoldChar(c: char): char {
    if 'A' <= c <= 'Z' then (c as int + 32) as char else c
  }

  function Fold(s: string): (r: string)
    ensures |r| == |s|
    ensures forall i :: 0 <= i < |s| ==> r[i] == FoldChar(s[i])
  {
    seq(|s|, i requires 0 <= i < |s| => FoldChar(s[i]))
  }

  /** `string.Equals(a, b, StringComparison.OrdinalIgnoreCase)`. */
  predicate EqualsIgnoreCase(a: string, b: string) {
    Fold(a) == Fold(b)
  }

  /** No upper-case ASCII letter: such a string is its own folding. */
  predicate IsFolded(s: string) {
    forall i :: 0 <= i < |s| ==> !('A' <= s[i] <= 'Z')
  }

  lemma FoldedFixed(s: string)
    requires IsFolded(s)
    ensures Fold(s) == s
  {
  }

  /** `value.IndexOf(t, StringComparison.OrdinalIgnoreCase) >= 0` for a non-empty `t`. */
  predicate ContainsIgnoreCase(s: string, t: string) {
    exists i | 0 <= i <= |s| :: OccursAt(s, t, i)
  }

  /** `t` occurs in `s` at position `i`, ignoring case. */
  predicate OccursAt(s: string, t: string, i: int) {
    0 <= i && i + |t| <= |s| && EqualsIgnoreCase(s[i..i + |t|], t)
  }

  /** `s.EndsWith(t, StringComparison.OrdinalIgnoreCase)`. */
  predicate EndsWithIgnoreCase(s: string, t: string) {
    |t| <= |s| && EqualsIgnoreCase(s[|s| - |t|..], t)
  }

  /** `s.Replace(pat, rep)`: every non-overlapping occurrence of `pat`,
      scanning left to right, is replaced by `rep`. */
  function Replace(s: string, pat: string, rep: string): string
    requires |pat| > 0
    decreases |s|
  {
    if |s| < |pat| then s
    else if s[..|pat|] == pat then rep + Replace(s[|pat|..], pat, rep)
    else [s[0]] + Replace(s[1..], pat, rep)
  }

  /** Where `pat` does not start, `Replace` keeps the first character. */
  lemma ReplaceNoMatchHere(s: string, pat: string, rep: string)
    requires |pat| > 0 && |s| > 0 && !(|s| >= |pat| && s[..|pat|] == pat)
    ensures Replace(s, pat, rep) == [s[0]] + Replace(s[1..], pat, rep)
  {
    if |s| < |pat| {
      assert [s[0]] + s[1..] == s;
    }
  }

  /** Where `pat` starts, `Replace` writes `rep` and carries on after it. */
  lemma ReplaceAtPattern(pat: string, rest: string, rep: string)
    requires |pat| > 0
    ensures Replace(pat + rest, pat, rep) == rep + Replace(rest, pat, rep)
  {
    var s := pat + rest;
    assert s[..|pat|] == pat;
    assert s[|pat|..] == rest;
  }

  /** A prefix that does not hold the pattern's first character is kept as is. */
  lemma {:induction false} ReplaceSkip(e: string, rest: string, pat: string, rep: string)
    requires |pat| > 0 && pat[0] !in e
    ensures Replace(e + rest, pat, rep) == e + Replace(rest, pat, rep)
    decreases |e|
  {
    if |e| > 0 {
      var s := e + rest;
      assert s[0] == e[0];
      ReplaceNoMatchHere(s, pat, rep);
      assert s[1..] == e[1..] + rest;
      ReplaceSkip(e[1..], rest, pat, rep);
      assert [e[0]] + e[1..] == e;
    } else {
      assert e + rest == rest;
    }
  }

  /** Replacing the one-character pattern `[c]` by text free of `c` leaves no `c`. */
  lemma {:induction false} ReplaceRemovesChar(s: string, c: char, rep: string)
    requires c !in rep
    ensures c !in Replace(s, [c], rep)
    decreases |s|
  {
    if |s| >= 1 {
      ReplaceRemovesChar(s[1..], c, rep);
    }
  }

  /** Replacing any pattern by text free of `c` introduces no new `c`. */
  lemma {:induction false} ReplaceKeepsAbsent(s: string, pat: string, rep: string, c: char)
    requires |pat| > 0 && c !in s && c !in rep
    ensures c !in Replace(s, pat, rep)
    decreases |s|
  {
    if |s| >= |pat| {
      if s[..|pat|] == pat {
        ReplaceKeepsAbsent(s[|pat|..], pat, rep, c);
      } else {
        ReplaceKeepsAbsent(s[1..], pat, rep, c);
      }
    }
  }

  function DigitChar(d: nat): char
    requires d < 10
  {
    ('0' as int + d) as char
  }

  /** Invariant-culture decimal rendering of a non-negative count. */
  function NatToString(n: nat): (r: string)
    ensures |r| > 0
    ensures forall i :: 0 <= i < |r| ==> '0' <= r[i] <= '9'
    decreases n
  {
    if n < 10 then [DigitChar(n)] else NatToString(n / 10) + [DigitChar(n % 10)]
  }

  predicate IsDigits(s: string) {
    forall i :: 0 <= i < |s| ==> '0' <= s[i] <= '9'
  }

  /** Reads back a string of decimal digits. */
  function ParseNat(s: string): nat
    requires IsDigits(s)
    decreases |s|
  {
    if |s| == 0 then 0 else 10 * ParseNat(s[..|s| - 1]) + (s[|s| - 1] as int - '0' as int)
  }

  /** Formatting a count is lossless: the digits read back as the count. */
  lemma {:induction false} NatToStringRoundTrip(n: nat)
    ensures ParseNat(NatToString(n)) == n
    decreases n
  {
    if n >= 10 {
      NatToStringRoundTrip(n / 10);
      var r := NatToString(n);
      assert r[..|r| - 1] == NatToString(n / 10);
    }
  }

  /** Distinct counts are rendered as distinct strings. */
  lemma NatToStringInjective(m: nat, n: nat)
    requires NatToString(m) == NatToString(n)
    ensures m == n
  {
    NatToStringRoundTrip(m);
    NatToStringRoundTrip(n);
  }
}

=== FILE: Throttling.dfy ===
/** The throttling retry policy that wraps every remote send
    (`ExecuteWithThrottlingRetries` and its helpers).

    The remote operation is an oracle: `call(k)` is the outcome of the k-th
    invocation (0-based), `clock(k)` is the UTC instant at which the failure of
    invocation k is examined, and `cancelled(k)` says whether the cancellation
    token fires during the wait that precedes invocation k. Instants and delays
    are whole ticks of 100 ns, as `DateTimeOffset` and `TimeSpan` count them. */
module Throttling {
  import opened Wrappers
  import Text

  const TicksPerSecond: int := 10_000_000
  const TicksPerMillisecond: int := 10_000
  /** The longest wait `Task.Delay` accepts, in whole milliseconds
      (`0xFFFFFFFE`, the runtime's largest supported timer timeout). */
  const MaxDelayMilliseconds: int := 4_294_967_294
  /** `maxAttempts` of the retry loop. */
  const MaxAttempts: nat := 3
  /** Upper bound of the exponential backoff, in seconds. */
  const MaxBackoffSeconds: int := 30
  /** Base of the exponential backoff, in seconds. */
  const BaseBackoffSeconds: int := 3

  const TooManyRequests: int := 429
  const ServiceUnavailable: int := 503

  /** One value of the Retry-After response header, as the two parsers of the
      runtime read it: the raw text, what `int.TryParse` (invariant culture)
      yields, and what `DateTimeOffset.TryParse` (assume universal) yields, in
      ticks. The parsers' grammars are not modelled; their verdicts are data. */
  datatype RetryAfterValue = RetryAfterValue(raw: string, asSeconds: Option<int>, asDate: Option<int>)

  /** A failure of the remote operation: a `ServiceException` carrying an HTTP
      status and, when its response headers hold one, the Retry-After values;
      or any other exception. */
  datatype Fault =
    | ServiceFault(status: int, retryAfter: Option<seq<RetryAfterValue>>)
    | OtherFault(description: string)

  datatype CallOutcome = Completed | Faulted(fault: Fault)

  /** How one run of the policy ends: the operation completed, an exception
      escaped from it, the token cancelled a wait, or `Task.Delay` refused a
      delay too long to wait and threw `ArgumentOutOfRangeException`. */
  datatype RetryResult = Succeeded | Failed(fault: Fault) | Cancelled | DelayRejected(delay: int)
  {
    /** The run ended with the outcome of an invocation, not in a wait. */
    predicate FromCall() {
      Succeeded? || Failed?
    }
  }

  /** Observable trace of one run: how it ended, how many times the operation
      was invoked, and the waits that were awaited in full, in order. */
  datatype RetryRun = RetryRun(result: RetryResult, calls: nat, waits: seq<int>)

  predicate IsThrottlingStatus(status: int) {
    status == TooManyRequests || status == ServiceUnavailable
  }

  /** The `catch (ServiceException ex) when (IsThrottlingStatus(ex))` filter. */
  predicate Throttled(o: CallOutcome) {
    o.Faulted? && o.fault.ServiceFault? && IsThrottlingStatus(o.fault.status)
  }

  /** `Task.Delay` rejects a delay whose whole milliseconds exceed the
      limit, that is, one of at least `MaxDelayMilliseconds + 1` ms. */
  predicate DelayTooLong(delay: int) {
    delay >= (MaxDelayMilliseconds + 1) * TicksPerMillisecond
  }

  /** `TryParseRetryAfterHeaderValue`: the delay, in ticks, one header value asks for. */
  function TryParseRetryAfterHeaderValue(v: RetryAfterValue, now: int): (r: Option<int>)
    ensures r.Some? ==> r.value > 0
    ensures Text.IsBlank(v.raw) ==> r == None
    ensures !Text.IsBlank(v.raw) && v.asSeconds.Some? && v.asSeconds.value > 0 ==>
              r == Some(v.asSeconds.value * TicksPerSecond)
    ensures !Text.IsBlank(v.raw) && !(v.asSeconds.Some? && v.asSeconds.value > 0)
            && v.asDate.Some? && v.asDate.value - now > 0 ==>
              r == Some(v.asDate.value - now)
    ensures r.None? <==> Text.IsBlank(v.raw)
                         || (!(v.asSeconds.Some? && v.asSeconds.value > 0)
                             && !(v.asDate.Some? && v.asDate.value - now > 0))
  {
    if Text.IsBlank(v.raw) then None
    else if v.asSeconds.Some? && v.asSeconds.value > 0 then Some(v.asSeconds.value * TicksPerSecond)
    else if v.asDate.Some? && v.asDate.value - now > 0 then Some(v.asDate.value - now)
    else None
  }

  predicate Usable(v: RetryAfterValue, now: int) {
    TryParseRetryAfterHeaderValue(v, now).Some?
  }

  /** The first usable value of a header, scanning in order. */
  function FirstUsable(vs: seq<RetryAfterValue>, now: int): (r: Option<int>)
    ensures r.Some? <==> exists i :: 0 <= i < |vs| && Usable(vs[i], now)
    ensures r.Some? ==> exists i :: 0 <= i < |vs| && TryParseRetryAfterHeaderValue(vs[i], now) == r
                                    && forall j :: 0 <= j < i ==> !Usable(vs[j], now)
    decreases |vs|
  {
    if |vs| == 0 then None
    else
      var d := TryParseRetryAfterHeaderValue(vs[0], now);
      if d.Some? then d
      else
        var rest := FirstUsable(vs[1..], now);
        assert forall i :: 1 <= i < |vs| ==> vs[i] == vs[1..][i - 1];
        rest
  }

  /** `TryParseRetryAfterHeaderValues`; `None` stands for the missing header. */
  function TryParseRetryAfterHeaderValues(values: Option<seq<RetryAfterValue>>, now: int): (r: Option<int>)
    ensures r.Some? ==> r.value > 0
    ensures values.None? ==> r == None
    ensures values.Some? ==> r == FirstUsable(values.value, now)
  {
    if values.None? then None else FirstUsable(values.value, now)
  }

  function Pow2(n: nat): (r: nat)
    ensures r >= 1
  {
    if n == 0 then 1 else 2 * Pow2(n - 1)
  }

  /** The exponential backoff of attempt `attempt`, in ticks. */
  function Backoff(attempt: nat): (r: int)
    ensures BaseBackoffSeconds * TicksPerSecond <= r <= MaxBackoffSeconds * TicksPerSecond
  {
    (if BaseBackoffSeconds * Pow2(attempt) < MaxBackoffSeconds then BaseBackoffSeconds * Pow2(attempt)
     else MaxBackoffSeconds) * TicksPerSecond
  }

  /** `GetRetryDelay`: the server's Retry-After if usable, otherwise the backoff. */
  function GetRetryDelay(retryAfter: Option<seq<RetryAfterValue>>, attempt: nat, now: int): (r: int)
    ensures r > 0
    ensures TryParseRetryAfterHeaderValues(retryAfter, now).None? ==> r == Backoff(attempt)
    ensures TryParseRetryAfterHeaderValues(retryAfter, now).Some? ==>
              r == TryParseRetryAfterHeaderValues(retryAfter, now).value
  {
    match TryParseRetryAfterHeaderValues(retryAfter, now)
    case Some(d) => d
    case None => Backoff(attempt)
  }

  /** The delay computed after the throttled invocation `k` (zero when `k` was not throttled). */
  function DelayAfter(call: nat -> CallOutcome, clock: nat -> int, k: nat): (r: int)
    ensures Throttled(call(k)) ==> r > 0
  {
    if Throttled(call(k)) then GetRetryDelay(call(k).fault.retryAfter, k, clock(k)) else 0
  }

  /** The delays computed after invocations `0 .. n-1`, in order. */
  function Delays(call: nat -> CallOutcome, clock: nat -> int, n: nat): (r: seq<int>)
    ensures |r| == n
  {
    if n == 0 then [] else Delays(call, clock, n - 1) + [DelayAfter(call, clock, n - 1)]
  }

  /** The i-th of the first `n` delays is the delay computed after invocation i. */
  lemma {:induction false} DelaysAt(call: nat -> CallOutcome, clock: nat -> int, n: nat)
    ensures forall i :: 0 <= i < n ==> Delays(call, clock, n)[i] == DelayAfter(call, clock, i)
  {
    if n > 0 {
      DelaysAt(call, clock, n - 1);
    }
  }

  function ResultOf(o: CallOutcome): RetryResult {
    match o
    case Completed => Succeeded
    case Faulted(f) => Failed(f)
  }

  /** Awaiting the pending delay, when there is one, extends the waits by
      the delay computed after the previous invocation. */
  lemma NextWaits(call: nat -> CallOutcome, clock: nat -> int, attempt: nat, delay: int, waits: seq<int>)
    requires attempt > 0 ==> Throttled(call(attempt - 1))
    requires delay == (if attempt == 0 then 0 else DelayAfter(call, clock, attempt - 1))
    requires waits == Delays(call, clock, if attempt == 0 then 0 else attempt - 1)
    ensures attempt > 0 ==> delay > 0
    ensures (if delay > 0 then waits + [delay] else waits) == Delays(call, clock, attempt)
  {
  }

  /** The loop of lines 127-143 from iteration `attempt` on, followed by the
      statement after it. With `forceFinalCall` the exhausted loop is followed
      by one more unguarded invocation, as written; without it the last
      throttling failure propagates instead. */
  function RetryLoop(call: nat -> CallOutcome, clock: nat -> int, cancelled: nat -> bool,
                     forceFinalCall: bool, attempt: nat, delay: int, waits: seq<int>): (r: RetryRun)
    requires attempt <= MaxAttempts
    requires attempt > 0 ==> Throttled(call(attempt - 1))
    ensures attempt <= r.calls
    decreases MaxAttempts - attempt
  {
    if attempt == MaxAttempts then
      if forceFinalCall then RetryRun(ResultOf(call(attempt)), attempt + 1, waits)
      else RetryRun(Failed(call(attempt - 1).fault), attempt, waits)
    else if DelayTooLong(delay) then
      RetryRun(DelayRejected(delay), attempt, waits)
    else if delay > 0 && cancelled(attempt) then
      RetryRun(Cancelled, attempt, waits)
    else
      var waits' := if delay > 0 then waits + [delay] else waits;
      var o := call(attempt);
      if Throttled(o) then
        RetryLoop(call, clock, cancelled, forceFinalCall, attempt + 1, DelayAfter(call, clock, attempt), waits')
      else
        RetryRun(ResultOf(o), attempt + 1, waits')
  }

  /** The shape of a run: every invocation but the last was throttled, and
      a run that ended with an invocation's outcome stayed within the bound. */
  lemma {:induction false} RetryLoopShape(call: nat -> CallOutcome, clock: nat -> int, cancelled: nat -> bool,
                                          forceFinalCall: bool, attempt: nat, delay: int, waits: seq<int>)
    requires attempt <= MaxAttempts
    requires forall k :: 0 <= k < attempt ==> Throttled(call(k))
    requires delay == (if attempt == 0 then 0 else DelayAfter(call, clock, attempt - 1))
    ensures var r := RetryLoop(call, clock, cancelled, forceFinalCall, attempt, delay, waits);
            && (forall k :: 0 <= k < r.calls - 1 ==> Throttled(call(k)))
            && (r.result.FromCall() ==> 0 < r.calls <= MaxAttempts + (if forceFinalCall then 1 else 0))
    decreases MaxAttempts - attempt
  {
    if attempt < MaxAttempts && !DelayTooLong(delay) && !(delay > 0 && cancelled(attempt)) {
      var waits' := if delay > 0 then waits + [delay] else waits;
      if Throttled(call(attempt)) {
        assert forall k :: 0 <= k < attempt + 1 ==> Throttled(call(k));
        RetryLoopShape(call, clock, cancelled, forceFinalCall, attempt + 1, DelayAfter(call, clock, attempt), waits');
      }
    }
  }

  /** A run that ended in a wait, cancelled or rejected, stopped after a
      throttled invocation and before invocation `calls`, below the bound. */
  lemma {:induction false} RetryLoopStopsInWait(call: nat -> CallOutcome, clock: nat -> int, cancelled: nat -> bool,
                                                forceFinalCall: bool, attempt: nat, delay: int, waits: seq<int>)
    requires attempt <= MaxAttempts
    requires attempt > 0 ==> Throttled(call(attempt - 1))
    requires delay == (if attempt == 0 then 0 else DelayAfter(call, clock, attempt - 1))
    ensures var r := RetryLoop(call, clock, cancelled, forceFinalCall, attempt, delay, waits);
            && (!r.result.FromCall() ==> 0 < r.calls < MaxAttempts && Throttled(call(r.calls - 1)))
            && (r.result.Cancelled? ==> cancelled(r.calls) && !DelayTooLong(DelayAfter(call, clock, r.calls - 1)))
    decreases MaxAttempts - attempt
  {
    if attempt < MaxAttempts && (DelayTooLong(delay) || (delay > 0 && cancelled(attempt))) {
      assert delay > 0;
      assert attempt > 0;
    } else if attempt < MaxAttempts {
      var waits' := if delay > 0 then waits + [delay] else waits;
      if Throttled(call(attempt)) {
        RetryLoopStopsInWait(call, clock, cancelled, forceFinalCall, attempt + 1, DelayAfter(call, clock, attempt), waits');
      }
    }
  }

  /** No wait before an invocation the run made was cancelled, whether or
      not the run then ended in a wait. */
  lemma {:induction false} RetryLoopUncancelled(call: nat -> CallOutcome, clock: nat -> int, cancelled: nat -> bool,
                                                forceFinalCall: bool, attempt: nat, delay: int, waits: seq<int>)
    requires attempt <= MaxAttempts
    requires forall k :: 0 <= k < attempt ==> Throttled(call(k))
    requires forall k :: 0 < k < attempt ==> !cancelled(k)
    requires delay == (if attempt == 0 then 0 else DelayAfter(call, clock, attempt - 1))
    ensures var r := RetryLoop(call, clock, cancelled, forceFinalCall, attempt, delay, waits);
            forall k :: 0 < k < r.calls && k < MaxAttempts ==> !cancelled(k)
    decreases MaxAttempts - attempt
  {
    if attempt < MaxAttempts && (DelayTooLong(delay) || (delay > 0 && cancelled(attempt))) {
      assert delay > 0;
      assert attempt > 0;
    } else if attempt < MaxAttempts {
      var waits' := if delay > 0 then waits + [delay] else waits;
      if Throttled(call(attempt)) {
        assert attempt > 0 ==> delay > 0 by {
          if attempt > 0 { assert Throttled(call(attempt - 1)); }
        }
        assert forall k :: 0 < k < attempt + 1 ==> !cancelled(k);
        assert forall k :: 0 <= k < attempt + 1 ==> Throttled(call(k));
        RetryLoopUncancelled(call, clock, cancelled, forceFinalCall, attempt + 1, DelayAfter(call, clock, attempt), waits');
      }
    }
  }

  /** No wait before an invocation the run made was longer than
      `Task.Delay` accepts. */
  lemma {:induction false} RetryLoopWithinLimit(call: nat -> CallOutcome, clock: nat -> int, cancelled: nat -> bool,
                                                forceFinalCall: bool, attempt: nat, delay: int, waits: seq<int>)
    requires attempt <= MaxAttempts
    requires forall k :: 0 <= k < attempt ==> Throttled(call(k))
    requires forall k :: 0 < k < attempt ==> !cancelled(k)
    requires forall j :: 0 <= j && j + 1 < attempt ==> !DelayTooLong(DelayAfter(call, clock, j))
    requires delay == (if attempt == 0 then 0 else DelayAfter(call, clock, attempt - 1))
    ensures var r := RetryLoop(call, clock, cancelled, forceFinalCall, attempt, delay, waits);
            forall j :: 0 <= j && j + 1 < r.calls && j + 1 < MaxAttempts ==> !DelayTooLong(DelayAfter(call, clock, j))
    decreases MaxAttempts - attempt
  {
    if attempt < MaxAttempts && (DelayTooLong(delay) || (delay > 0 && cancelled(attempt))) {
      assert delay > 0;
      assert attempt > 0;
    } else if attempt < MaxAttempts {
      var waits' := if delay > 0 then waits + [delay] else waits;
      assert forall j :: 0 <= j && j + 1 < attempt + 1 ==> !DelayTooLong(DelayAfter(call, clock, j)) by {
        forall j | 0 <= j && j + 1 < attempt + 1
          ensures !DelayTooLong(DelayAfter(call, clock, j))
        {
          if j + 1 == attempt {
            assert DelayAfter(call, clock, j) == delay;
          }
        }
      }
      if Throttled(call(attempt)) {
        assert attempt > 0 ==> delay > 0 by {
          if attempt > 0 { assert Throttled(call(attempt - 1)); }
        }
        assert forall k :: 0 < k < attempt + 1 ==> !cancelled(k);
        assert forall k :: 0 <= k < attempt + 1 ==> Throttled(call(k));
        RetryLoopWithinLimit(call, clock, cancelled, forceFinalCall, attempt + 1, DelayAfter(call, clock, attempt), waits');
      }
    }
  }

  /** How a run ends: with the outcome of its last invocation, which was not
      throttled unless the attempts ran out; or with the too-long delay
      computed after its last invocation. */
  lemma {:induction false} RetryLoopEnds(call: nat -> CallOutcome, clock: nat -> int, cancelled: nat -> bool,
                                         forceFinalCall: bool, attempt: nat, delay: int, waits: seq<int>)
    requires attempt <= MaxAttempts
    requires forall k :: 0 <= k < attempt ==> Throttled(call(k))
    requires forall k :: 0 < k < attempt ==> !cancelled(k)
    requires delay == (if attempt == 0 then 0 else DelayAfter(call, clock, attempt - 1))
    ensures var r := RetryLoop(call, clock, cancelled, forceFinalCall, attempt, delay, waits);
            var last := if forceFinalCall then MaxAttempts + 1 else MaxAttempts;
            && (r.result.FromCall() ==>
                  && r.result == ResultOf(call(r.calls - 1))
                  && (r.calls == last || !Throttled(call(r.calls - 1))))
            && (r.result.DelayRejected? ==>
                  0 < r.calls && r.result.delay == DelayAfter(call, clock, r.calls - 1) && DelayTooLong(r.result.delay))
    decreases MaxAttempts - attempt
  {
    if attempt < MaxAttempts && (DelayTooLong(delay) || (delay > 0 && cancelled(attempt))) {
      assert delay > 0;
      assert attempt > 0;
    } else if attempt < MaxAttempts {
      var waits' := if delay > 0 then waits + [delay] else waits;
      if Throttled(call(attempt)) {
        assert attempt > 0 ==> delay > 0 by {
          if attempt > 0 { assert Throttled(call(attempt - 1)); }
        }
        assert forall k :: 0 < k < attempt + 1 ==> !cancelled(k);
        assert forall k :: 0 <= k < attempt + 1 ==> Throttled(call(k));
        RetryLoopEnds(call, clock, cancelled, forceFinalCall, attempt + 1, DelayAfter(call, clock, attempt), waits');
      }
    }
  }

  /** The waits a run awaits: the delay of every throttled invocation that
      was retried. With the forced final invocation, the delay computed
      after the third attempt is never awaited. */
  lemma {:induction false} RetryLoopWaits(call: nat -> CallOutcome, clock: nat -> int, cancelled: nat -> bool,
                                          forceFinalCall: bool, attempt: nat, delay: int, waits: seq<int>)
    requires attempt <= MaxAttempts
    requires forall k :: 0 <= k < attempt ==> Throttled(call(k))
    requires forall k :: 0 < k < attempt ==> !cancelled(k)
    requires delay == (if attempt == 0 then 0 else DelayAfter(call, clock, attempt - 1))
    requires waits == Delays(call, clock, if attempt == 0 then 0 else attempt - 1)
    ensures var r := RetryLoop(call, clock, cancelled, forceFinalCall, attempt, delay, waits);
            r.waits == Delays(call, clock, if r.calls == MaxAttempts + 1 then MaxAttempts - 1 else r.calls - 1)
    decreases MaxAttempts - attempt
  {
    if attempt < MaxAttempts && (DelayTooLong(delay) || (delay > 0 && cancelled(attempt))) {
      assert delay > 0;
      assert attempt > 0;
    } else if attempt < MaxAttempts {
      var waits' := if delay > 0 then waits + [delay] else waits;
      assert waits' == Delays(call, clock, attempt) by { NextWaits(call, clock, attempt, delay, waits); }
      if Throttled(call(attempt)) {
        assert attempt > 0 ==> delay > 0 by {
          if attempt > 0 { assert Throttled(call(attempt - 1)); }
        }
        assert forall k :: 0 < k < attempt + 1 ==> !cancelled(k);
        assert forall k :: 0 <= k < attempt + 1 ==> Throttled(call(k));
        RetryLoopWaits(call, clock, cancelled, forceFinalCall, attempt + 1, DelayAfter(call, clock, attempt), waits');
      }
    }
  }

  /** `ExecuteWithThrottlingRetries` as written: at most three guarded
      attempts, then one more unguarded invocation without a wait. A wait
      longer than `Task.Delay` accepts ends the run before the next call. */
  function ExecuteWithThrottlingRetries(call: nat -> CallOutcome, clock: nat -> int, cancelled: nat -> bool): (r: RetryRun)
    ensures 1 <= r.calls <= MaxAttempts + 1
    ensures forall k :: 0 <= k < r.calls - 1 ==> Throttled(call(k))
    ensures r.result.FromCall() ==> r.result == ResultOf(call(r.calls - 1))
    ensures r.result.FromCall() && r.calls <= MaxAttempts ==> !Throttled(call(r.calls - 1))
    ensures r.result.Cancelled? ==>
              && r.calls < MaxAttempts && Throttled(call(r.calls - 1)) && cancelled(r.calls)
              && !DelayTooLong(DelayAfter(call, clock, r.calls - 1))
    ensures r.result.DelayRejected? ==>
              && r.calls < MaxAttempts && Throttled(call(r.calls - 1))
              && r.result.delay == DelayAfter(call, clock, r.calls - 1) && DelayTooLong(r.result.delay)
    ensures forall k :: 0 < k < r.calls && k < MaxAttempts ==> !cancelled(k)
    ensures forall j :: 0 <= j && j + 1 < r.calls && j + 1 < MaxAttempts ==> !DelayTooLong(DelayAfter(call, clock, j))
    ensures r.waits == Delays(call, clock, if r.calls == MaxAttempts + 1 then MaxAttempts - 1 else r.calls - 1)
    ensures forall i :: 0 <= i < |r.waits| ==> r.waits[i] > 0
  {
    RetryLoopEnds(call, clock, cancelled, true, 0, 0, []);
    RetryLoopShape(call, clock, cancelled, true, 0, 0, []);
    RetryLoopStopsInWait(call, clock, cancelled, true, 0, 0, []);
    RetryLoopUncancelled(call, clock, cancelled, true, 0, 0, []);
    RetryLoopWithinLimit(call, clock, cancelled, true, 0, 0, []);
    RetryLoopWaits(call, clock, cancelled, true, 0, 0, []);
    var r := RetryLoop(call, clock, cancelled, true, 0, 0, []);
    DelaysAt(call, clock, if r.calls == MaxAttempts + 1 then MaxAttempts - 1 else r.calls - 1);
    r
  }

  /** The policy with the forced final invocation removed: after the third
      throttled attempt the throttling failure itself propagates. */
  function ExecuteWithBoundedRetries(call: nat -> CallOutcome, clock: nat -> int, cancelled: nat -> bool): (r: RetryRun)
    ensures 1 <= r.calls <= MaxAttempts
    ensures forall k :: 0 <= k < r.calls - 1 ==> Throttled(call(k))
    ensures r.result.FromCall() ==> r.result == ResultOf(call(r.calls - 1))
    ensures r.result.FromCall() && r.calls < MaxAttempts ==> !Throttled(call(r.calls - 1))
    ensures r.result.Cancelled? ==>
              Throttled(call(r.calls - 1)) && cancelled(r.calls) && !DelayTooLong(DelayAfter(call, clock, r.calls - 1))
    ensures r.result.DelayRejected? ==>
              && Throttled(call(r.calls - 1))
              && r.result.delay == DelayAfter(call, clock, r.calls - 1) && DelayTooLong(r.result.delay)
    ensures forall k :: 0 < k < r.calls ==> !cancelled(k)
    ensures forall j :: 0 <= j && j + 1 < r.calls ==> !DelayTooLong(DelayAfter(call, clock, j))
    ensures r.waits == Delays(call, clock, r.calls - 1)
    ensures forall i :: 0 <= i < |r.waits| ==> r.waits[i] > 0
  {
    RetryLoopEnds(call, clock, cancelled, false, 0, 0, []);
    RetryLoopShape(call, clock, cancelled, false, 0, 0, []);
    RetryLoopStopsInWait(call, clock, cancelled, false, 0, 0, []);
    RetryLoopUncancelled(call, clock, cancelled, false, 0, 0, []);
    RetryLoopWithinLimit(call, clock, cancelled, false, 0, 0, []);
    RetryLoopWaits(call, clock, cancelled, false, 0, 0, []);
    var r := RetryLoop(call, clock, cancelled, false, 0, 0, []);
    DelaysAt(call, clock, r.calls - 1);
    r
  }

  /** A first invocation that completes ends the run: one call, no wait. */
  lemma FirstCallSucceeds(call: nat -> CallOutcome, clock: nat -> int, cancelled: nat -> bool)
    requires call(0) == Completed
    ensures ExecuteWithThrottlingRetries(call, clock, cancelled) == RetryRun(Succeeded, 1, [])
  {
  }

  /** A failure that is not a 429/503 `ServiceException` propagates after the
      single invocation that raised it, with no wait and no further call. */
  lemma NonThrottlingFailurePropagates(call: nat -> CallOutcome, clock: nat -> int, cancelled: nat -> bool)
    requires call(0).Faulted? && !(call(0).fault.ServiceFault? && call(0).fault.status in {TooManyRequests, ServiceUnavailable})
    ensures ExecuteWithThrottlingRetries(call, clock, cancelled) == RetryRun(Failed(call(0).fault), 1, [])
  {
  }

  /** Persistent throttling: four invocations, the outcome of the fourth is
      the result, and only two waits, so the fourth invocation follows the
      third immediately. */
  lemma PersistentThrottlingCallsFourTimes(call: nat -> CallOutcome, clock: nat -> int, cancelled: nat -> bool)
    requires forall k :: 0 <= k < MaxAttempts ==> Throttled(call(k))
    requires !cancelled(1) && !cancelled(2)
    requires !DelayTooLong(DelayAfter(call, clock, 0)) && !DelayTooLong(DelayAfter(call, clock, 1))
    ensures var r := ExecuteWithThrottlingRetries(call, clock, cancelled);
            && r.calls == 4
            && r.result == ResultOf(call(3))
            && r.waits == [DelayAfter(call, clock, 0), DelayAfter(call, clock, 1)]
  {
    assert Throttled(call(0)) && Throttled(call(1)) && Throttled(call(2));
  }

  /** Without any usable Retry-After the awaited waits are 3 s and then 6 s. */
  lemma BackoffWaitsWithoutRetryAfter(call: nat -> CallOutcome, clock: nat -> int, cancelled: nat -> bool)
    requires forall k :: 0 <= k < MaxAttempts ==> Throttled(call(k)) && call(k).fault.retryAfter == None
    requires !cancelled(1) && !cancelled(2)
    ensures ExecuteWithThrottlingRetries(call, clock, cancelled).waits == [3 * TicksPerSecond, 6 * TicksPerSecond]
  {
    assert Pow2(1) == 2;
    assert DelayAfter(call, clock, 0) == 3 * TicksPerSecond;
    assert DelayAfter(call, clock, 1) == 6 * TicksPerSecond;
    PersistentThrottlingCallsFourTimes(call, clock, cancelled);
  }

  /** The backoff doubles from 3 s and is capped at 30 s. */
  lemma {:induction false} BackoffSchedule(attempt: nat)
    ensures Backoff(0) == 3 * TicksPerSecond && Backoff(1) == 6 * TicksPerSecond && Backoff(2) == 12 * TicksPerSecond
    ensures attempt >= 4 ==> Backoff(attempt) == MaxBackoffSeconds * TicksPerSecond
  {
    assert Pow2(2) == 4;
    if attempt >= 4 {
      Pow2Monotone(4, attempt);
      assert Pow2(4) == 16;
    }
  }

  lemma {:induction false} Pow2Monotone(m: nat, n: nat)
    requires m <= n
    ensures Pow2(m) <= Pow2(n)
    decreases n
  {
    if m < n {
      Pow2Monotone(m, n - 1);
    }
  }

  /** A positive delta-seconds Retry-After is used verbatim, whatever the attempt. */
  lemma DeltaRetryAfterIgnoresAttempt(v: RetryAfterValue, rest: seq<RetryAfterValue>, a1: nat, a2: nat, now: int)
    requires !Text.IsBlank(v.raw) && v.asSeconds.Some? && v.asSeconds.value > 0
    ensures GetRetryDelay(Some([v] + rest), a1, now) == v.asSeconds.value * TicksPerSecond
    ensures GetRetryDelay(Some([v] + rest), a1, now) == GetRetryDelay(Some([v] + rest), a2, now)
  {
  }

  /** A cancelled wait ends the run before the next invocation. */
  lemma CancelledWaitStopsCalls(call: nat -> CallOutcome, clock: nat -> int, cancelled: nat -> bool)
    requires Throttled(call(0)) && cancelled(1) && !DelayTooLong(DelayAfter(call, clock, 0))
    ensures ExecuteWithThrottlingRetries(call, clock, cancelled) == RetryRun(Cancelled, 1, [])
  {
  }

  /** A Retry-After too long for `Task.Delay` ends the run after the first
      invocation, with no wait and no further call, whether or not the
      token fires. */
  lemma OverlongRetryAfterStopsCalls(call: nat -> CallOutcome, clock: nat -> int, cancelled: nat -> bool)
    requires Throttled(call(0)) && DelayTooLong(DelayAfter(call, clock, 0))
    ensures ExecuteWithThrottlingRetries(call, clock, cancelled) == RetryRun(DelayRejected(DelayAfter(call, clock, 0)), 1, [])
  {
  }

  /** A 429 asking for 5,000,000 s (about 58 days) is past the limit, while
      the longest backoff is well within it. */
  lemma {:induction false} OverlongRetryAfterExample(now: int)
    ensures var v := RetryAfterValue("5000000", Some(5_000_000), None);
            var call := (k: nat) => Faulted(ServiceFault(TooManyRequests, Some([v])));
            var clock := (k: nat) => now;
            var never := (k: nat) => false;
            ExecuteWithThrottlingRetries(call, clock, never) == RetryRun(DelayRejected(5_000_000 * TicksPerSecond), 1, [])
    ensures forall attempt: nat :: !DelayTooLong(Backoff(attempt))
  {
    var v := RetryAfterValue("5000000", Some(5_000_000), None);
    var call := (k: nat) => Faulted(ServiceFault(TooManyRequests, Some([v])));
    var clock := (k: nat) => now;
    var never := (k: nat) => false;
    assert !Text.IsWhiteSpace(v.raw[0]);
    DeltaRetryAfterIgnoresAttempt(v, [], 0, 0, now);
    assert DelayAfter(call, clock, 0) == 5_000_000 * TicksPerSecond;
    OverlongRetryAfterStopsCalls(call, clock, never);
  }

  /** The as-written policy invokes the operation a fourth time, without the
      delay it computed after the third throttled attempt, and can so succeed
      past `MaxAttempts`; the bounded policy stops at three invocations. */
  lemma ForcedFinalCallExceedsMaxAttempts()
    ensures var call := (k: nat) => if k < MaxAttempts then Faulted(ServiceFault(TooManyRequests, None)) else Completed;
            var clock := (k: nat) => 0;
            var never := (k: nat) => false;
            && ExecuteWithThrottlingRetries(call, clock, never) == RetryRun(Succeeded, MaxAttempts + 1, [3 * TicksPerSecond, 6 * TicksPerSecond])
            && ExecuteWithBoundedRetries(call, clock, never) == RetryRun(Failed(ServiceFault(TooManyRequests, None)), MaxAttempts, [3 * TicksPerSecond, 6 * TicksPerSecond])
  {
    var call := (k: nat) => if k < MaxAttempts then Faulted(ServiceFault(TooManyRequests, None)) else Completed;
    var clock := (k: nat) => 0;
    var never := (k: nat) => false;
    BackoffWaitsWithoutRetryAfter(call, clock, never);
    assert Throttled(call(0)) && Throttled(call(1)) && Throttled(call(2));
    assert DelayAfter(call, clock, 0) == 3 * TicksPerSecond;
    assert DelayAfter(call, clock, 1) == 6 * TicksPerSecond;
  }
}

=== FILE: Wrappers.dfy ===
/** Failure-carrying wrappers used across the model: a C# `null`/absent value
    becomes `None`, a thrown exception becomes `Failure`. */
module Wrappers {

  datatype Option<+T> = None | Some(value: T) {
    function GetOr(default: T): T {
      match this
      case Some(v) => v
      case None => default
    }
  }

  datatype Result<+R, +E> = Success(value: R) | Failure(error: E)
}
